=== FILE: README.md ===
# Swapper: a verified model of the marketplace core

Swapper is a second-hand marketplace. Users sign up, list items with photos
and typed attributes, browse the items near a location, rate each other and
the items, and message each other. The backend is a Go service built on Gin
over a RavenDB document store. The website is a React application.

This project models, in Dafny, the request handlers of the backend:
- users, items, ratings and messages;
- the reflection helper that lists the allowed attribute values;
- the product seeding parser.

It also models the pure logic of the website components those handlers
serve:
- the category chips of the home header;
- the attribute filter;
- the new-item form;
- the message panel;
- the conversations list;
- the star rating;
- the item service's query string.

Handlers that update the database are methods of store classes
(`UserStore`, `ItemStore`, `RatingStore`, `MessageStore`). Their fields
are the documents and attachments, held as maps, and each class keeps an
invariant (`Valid`):
- documents carry their own id;
- emails are unique;
- stars lie in 1..10;
- nobody rates themselves;
- each user rates each recipient at most once.

The loops of the source are methods with loop invariants, proved against
specification functions:
- the attachment reader;
- the per-conversation summariser;
- the one-of extractor;
- the colour inference;
- the form builder;
- the filter builder.

Library behaviour the handlers rely on is written out:
- Go: `strconv.Atoi` with its int64 range, a decimal `ParseFloat`,
  `filepath.Ext`, base64 (section 4 of RFC 4648) and data URLs, the byte
  order of `sort.Strings`, and the first-value rule of Gin's `c.Query`;
- JavaScript: `String.prototype.trim` with the white space of ECMA-262
  sections 12.2 and 12.3, the insertion order of `Set`, and
  `Promise.allSettled`.

The following become parameters of the model:
- the clock (`now`);
- ids minted by the database (`newId`);
- attachment streams that fail to read (`failed`);
- `http.DetectContentType` (the upload's `sniffedType`);
- `json.Unmarshal` of the `attributes` parameter;
- `JSON.stringify`;
- the results of database queries (`found`);
- the random picks of the seeder.

After the first message, the message panel starts a new header only when
more than 20 minutes separate a message from the one before it. `shouldShowProfilePicture`
(`website/src/components/MessagePanel.tsx:68-76`) never looks at the sender,
so two people answering each other within 20 minutes share one header.
`MessagePanel.ShowsHeader` models it, and `MessagePanel.HeaderIgnoresSenders`
proves that headers depend on the times alone.

## Model

| member | source | states |
|---|---|---|
| Users.Utf8Length | backend/api/users.go:55 | the length bcrypt measures is that of `[]byte(password)`, the UTF-8 encoding of section 3 of RFC 3629: between one and four bytes per character |
| Users.EncodeCodePointFrames | backend/api/users.go:55 | each character becomes one to four bytes: a single byte below 0x80, or a lead byte outside 0x80..0xBF followed by continuation bytes in 0x80..0xBF |
| Users.Utf8LengthAppend | backend/api/users.go:55 | the byte length of two texts in a row is the sum of their byte lengths |
| Users.Utf8LengthAscii | backend/api/users.go:55 | the byte length equals the number of characters exactly when every character is ASCII |
| Users.ApplyUpdateFields | backend/api/users.go:233-273 | an empty request field leaves the stored name, email or hash as it was; a non-empty one replaces it (the password as its bcrypt hash); no other field of the user changes |
| Users.ApplyUpdateIdempotent | backend/api/users.go:233-273 | applying the same update twice gives the same user as applying it once, and an all-empty update changes nothing |
| Users.UserStore.constructor | backend/api/users.go:46-122 | an empty store satisfies the invariant |
| Users.UserStore.SignUp | backend/api/users.go:46-122 | a bad binding gives 400 and a password over 72 bytes gives 500, both with nothing stored; a taken email gives 409; otherwise the new user is stored under the fresh id with the bcrypt hash, and the token's claims carry id, email, name and an expiry 72 hours on; emails stay unique |
| Users.UserStore.LoginUser | backend/api/users.go:135-191 | success holds exactly when the request binds and a stored user has that email and password; an unknown email gives 401 "User not found" and a wrong password 401 "Invalid password"; the claims name the matching user |
| Users.UserStore.UpdateUser | backend/api/users.go:199-366 | without authentication 401; a missing user 500; an email used by another user 409; an over-long password 500; each with nothing changed; otherwise the fields are saved first; a first picture that is not an image then gives 400 after the old pictures are deleted, and an image replaces them; a successful response never carries the password hash |
| Users.UserStore.ReplacePicture | backend/api/users.go:289-361 | all old attachments of the user are deleted before the extension check, so a file that is not .jpg/.jpeg/.png leaves no picture and gives 400; an image becomes the single attachment and the response is its data URL with the sniffed type |
| Users.UserStore.DeleteAttachments | backend/api/users.go:293-305 | after the delete loop the user has no attachment left, and the users are unchanged |
| Users.UserStore.GetUser | backend/api/users.go:368-422 | an unknown id gives 404; otherwise the stored user with the first attachment, if any, as a data URL and the hash cleared |
| Users.DeleteEach | backend/api/users.go:293-305 | deleting every listed name, one at a time, leaves no attachment |
| Users.LogInAfterSignUp | backend/api/users.go:46-191 | a successful sign-up is followed by a successful login with the same claims |
| Ratings.UserRatingsRejectedAsWritten | backend/api/ratings.go:31-38 | with `binding:"required"` on the boolean, no request rating a user (`recipientIsItem` false) binds |
| Ratings.CorrectedBindingAcceptsUserRatings | backend/api/ratings.go:31-38 | the corrected binding agrees with the written one on item ratings and accepts a concrete user rating the written one refuses |
| Ratings.RatingStore.constructor | backend/api/ratings.go:40-95 | an empty store satisfies the invariant |
| Ratings.RatingStore.CreateRating | backend/api/ratings.go:40-95 | a request the corrected binding refuses gives 400; no authentication or rating oneself gives 400 "Cannot rate yourself or Unauthorized"; a second rating of the same recipient by the same user gives 400; otherwise the rating, created by the authenticated user at `now`, is stored under the fresh id; the invariant (stars 1..10, no self rating, one rating per pair) is kept |
| Ratings.RatingStore.GetRating | backend/api/ratings.go:98-115 | the stored rating under that id, or 404 |
| Ratings.RatingStore.UpdateRating | backend/api/ratings.go:118-172 | no authentication 401; an invalid rating 400; a missing rating or one by someone else 401; a new recipient equal to oneself 400; each with nothing changed; otherwise title, body and stars are replaced, the recipient and creator are kept, and the invariant is kept |
| Ratings.RatingStore.DeleteRating | backend/api/ratings.go:175-207 | no authentication 401; a missing rating ends in the empty 500 of the recovered nil dereference; a rating by someone else 401; each with nothing changed; the creator's request removes exactly that rating |
| Items.AttachmentsOfFiles | backend/api/items.go:139-154 | one stored attachment per uploaded file, in order, named after the file with its bytes |
| Items.DataOfAppend | backend/api/items.go:404-424 | the data URLs of two attachment lists in a row are those of the first followed by those of the second |
| Items.DataOfKeepsReadable | backend/api/items.go:404-424 | a readable attachment contributes its data URL, with its content type and bytes, at its place in the order |
| Items.DataOfSkipsFailed | backend/api/items.go:409-415 | an attachment whose stream fails contributes nothing and the others keep their order |
| Items.DataOfAllReadable | backend/api/items.go:404-424 | when no stream fails, every attachment yields its data URL, in order |
| Items.DataOfEntries | backend/api/items.go:404-424 | every data URL returned comes from an attachment whose stream did not fail |
| Items.GetItemAttachments | backend/api/items.go:391-426 | a count between 0 and the number of attachments reads that many first attachments; any other count (-1 in GetItem) reads all of them; unreadable ones are skipped |
| Items.FindName | backend/api/items.go:139-154 | finds an attachment with the given name, or reports that none has it |
| Items.CheckImages | backend/api/items.go:108-118 | the extension loop accepts exactly when every file is .jpg, .jpeg or .png |
| Items.StoreAttachments | backend/api/items.go:139-154 | the attachment loop stores every file when the file names are distinct and fails on a repeated name |
| Items.ItemStore.constructor | backend/api/items.go:52-163 | an empty store satisfies the invariant |
| Items.ItemStore.AddItem | backend/api/items.go:52-163 | no authentication 401; invalid attributes 400; a non-image file 400; no file 400 "At least 1 image is required"; each with nothing stored; otherwise the item is stored under the fresh id, owned by the caller, quantity 1 by default, status available; a repeated file name leaves that item stored without images and reports 500 |
| Items.ItemStore.GetItem | backend/api/items.go:316-341 | an unknown id ends in a 500, since the nil item reaches `GetNames`; otherwise the item with all its readable images as data URLs |
| Items.ItemStore.DeleteItem | backend/api/items.go:343-385 | no authentication 401; with authentication, an unknown id ends in the empty 500 of the recovered nil dereference and a caller who is not the owner gets 401, each with nothing changed; the owner's request removes the item and its images |
| Items.ItemStore.AttachFirstImages | backend/api/items.go:305-311 | each listed item keeps its fields and carries at most its first readable image |
| Items.FirstOf | backend/api/items.go:398-401 | a count of 1 keeps exactly the first attachment, when there is one |
| Items.AtMostOneImage | backend/api/items.go:305-311 | a listed item carries at most one image |
| Items.GetAttributes | backend/api/items.go:428-432 | the response has exactly the eight attribute keys, each with the option list of its validate tag |
| Items.Filters | backend/api/items.go:240-250 | a condition gives an `attributes.Condition` filter, every value of every attribute gives an `attributes.<key>` filter, and there are no other filters |
| Items.FuzzyTerm | backend/api/items.go:282-293 | the search term is the text followed by ` ~0.99`, a fuzzy match with fuzziness 0.99 |
| Items.ParseItemsQuery | backend/api/items.go:192-250 | a bad latitude and a bad longitude give their own 400s; on success latitude, longitude, radius (default 10) and limit (default 10) are the values the parsers read |
| Items.ParseItemsQueryErrors | backend/api/items.go:206-232 | a bad radius is reported as "Invalid longitude", then a bad limit and a malformed attributes value give their own 400s, in that order |
| Items.ParseItemsQueryAccepts | backend/api/items.go:194-293 | a query whose numbers parse and whose attributes are absent or decoded is accepted, with the condition and attribute filters and a fuzzy search exactly when a search text was given |
| Items.ItemsQueryDefaults | backend/api/items.go:206-216 | without radius, limit and attributes, valid coordinates always parse, with radius 10 and limit 10 |
| Messages.OtherParticipantParties | backend/api/messages.go:133-136 | for a message the user sent or received, the user and the other participant are the message's two parties |
| Messages.SortedPairSorted | backend/api/messages.go:139-141 | the conversation key holds the two ids, ordered by `sort.Strings` |
| Messages.SortedPairSymmetric | backend/api/messages.go:139-141 | the key does not depend on the order of the two ids |
| Messages.ConversationKeyInjective | backend/api/messages.go:139-141 | for a fixed user, two other participants share a key only when they are the same user |
| Messages.BothDirectionsShareKey | backend/api/messages.go:133-141 | a message and its reply fall in the same conversation, seen from either party |
| Messages.GetMostRecentMessagePerConversation | backend/api/messages.go:128-155 | the loop computes the summary map of the input messages |
| Messages.MostRecentKeys | backend/api/messages.go:128-155 | the summary has a conversation exactly when some message belongs to it |
| Messages.MostRecentValue | backend/api/messages.go:144-151 | each conversation maps to a message of it with the latest `sentAt`, the first such one in input order |
| Messages.MostRecentUnderOwnKey | backend/api/messages.go:139-151 | the message kept for a conversation belongs to that conversation |
| Messages.InsertByTime | backend/api/messages.go:100-102 | inserting into a time-ordered list keeps it ordered and adds exactly that message |
| Messages.SortByTime | backend/api/messages.go:100-102 | the result is ordered by `sentAt` and is a permutation of the input |
| Messages.MessagesOf | backend/api/messages.go:100-102 | the query keeps exactly the messages the user sent or received |
| Messages.MessagesBetween | backend/api/messages.go:181-184 | the query keeps exactly the messages between the two users, in either direction |
| Messages.SummaryOnePerConversation | backend/api/messages.go:112-121 | the returned list has one message per conversation |
| Messages.PermutationDistinct | backend/api/messages.go:119-121 | sorting a list without repeats gives a list without repeats |
| Messages.MessageStore.constructor | backend/api/messages.go:39-79 | the store starts empty |
| Messages.MessageStore.PostMessage | backend/api/messages.go:39-79 | no authentication 401; a missing recipient or text 400 with "Invalid request" followed directly by the binder's non-empty error text; otherwise one message from the caller at `now` is appended and the recipient is echoed |
| Messages.MessageStore.GetUserConversations | backend/api/messages.go:83-125 | no authentication 401; otherwise the most recent message of each of the caller's conversations, newest first, each once |
| Messages.MessageStore.GetMessageHistory | backend/api/messages.go:158-194 | no authentication 401; an empty other id 400; otherwise the messages between the two users, oldest first |
| Messages.CollectValues | backend/api/messages.go:114-117 | the collect loop lists every value of the map once |
| Messages.StringConversationKeyCollides | backend/api/messages.go:139-141 | the written string key gives two different partners of user `-a-` the same conversation |
| ExtractOneOf.FieldKey | backend/utils/extract_oneof.go:21 | the key is the field name with its first letter lower-cased |
| ExtractOneOf.TagOptions | backend/utils/extract_oneof.go:23-25 | the options are the space-separated words after `oneof=`, which join back to that text |
| ExtractOneOf.ExtractOneOfOptions | backend/utils/extract_oneof.go:8-29 | the loop computes the map of the one-of fields of the struct |
| ExtractOneOf.OneOfMapKeys | backend/utils/extract_oneof.go:16-27 | a key is present exactly when some field's tag contains `oneof=` and the field's name gives that key |
| ExtractOneOf.OneOfMapValue | backend/utils/extract_oneof.go:16-27 | a one-of field not overwritten by a later field of the same key maps to its tag's options |
| ExtractOneOf.TagOfOptions | backend/utils/extract_oneof.go:23-25 | a `oneof=` tag written from a list of plain words reads back as that list |
| ExtractOneOf.MarkerAfterPlainPrefix | backend/utils/extract_oneof.go:24 | with no other `=` in the tag, the text after the marker is the option text |
| ExtractOneOf.AttributesTagged | backend/models/item.go:5-14 | each field of `Attributes` carries the validate tag `oneof=` followed by its option list |
| ExtractOneOf.AttributeKeysOfNames | backend/models/item.go:5-14 | each attribute key is its field name with the first letter lower-cased |
| ExtractOneOf.PlainFieldOptions | backend/models/item.go:5-14 | every option list of `Attributes` is made of plain words without spaces or `=` |
| ExtractOneOf.DistinctAttributeKeys | backend/models/item.go:5-14 | the eight attribute keys are distinct |
| ExtractOneOf.OneOfMapOfTags | backend/utils/extract_oneof.go:16-27 | for fields tagged `oneof=` with plain option lists and distinct keys, the map has exactly those keys, each with its field's options |
| ExtractOneOf.AttributesOneOfOptions | backend/models/item.go:5-14 | the extractor applied to `Attributes` gives exactly the eight keys with their option lists |
| ItemModel.FieldValues | backend/models/item.go:5-14 | the i-th value is the field whose Go name is the i-th attribute name, as reflection reads it |
| ItemModel.NoAttributesValid | backend/models/item.go:5-14 | an item with no attribute set passes validation, since every rule allows the empty value |
| ItemModel.ValidAttributesByField | backend/models/item.go:5-14 | the attributes validate exactly when each field is empty or one of its options |
| SeedProducts.ProductOfColumns | backend/db/seeding/seed_products.go:51-83 | a row's text columns are copied, the best-seller flag is set exactly by `True`, and integer columns read back their values |
| SeedProducts.ParseProductsCSV | backend/db/seeding/seed_products.go:37-85 | no records (no header) is an error, and so is a row whose field count differs from the header's (`csv.ErrFieldCount`); otherwise one product per row after the header, in order |
| SeedProducts.ParseCategoriesCSV | backend/db/seeding/seed_products.go:87-119 | no records is an error, and so is a row whose field count differs from the header's; otherwise one category per row after the header, with its parsed id and name |
| SeedProducts.FirstContained | backend/db/seeding/seed_products.go:182-189 | finds the first candidate contained in the text, or reports that none is |
| SeedProducts.InferredColor | backend/db/seeding/seed_products.go:180-189 | the colour is the first listed colour that occurs in the lower-cased title, or "not specified" exactly when none does |
| SeedProducts.InferColor | backend/db/seeding/seed_products.go:182-189 | the loop returns the inferred colour |
| SeedProducts.InferredColorValidity | backend/db/seeding/seed_products.go:182-189 | the inferred colour passes the colour rule exactly when it is not "not specified" |
| SeedProducts.InferredColorIgnoresCase | backend/db/seeding/seed_products.go:182-189 | titles that differ only in ASCII case get the same colour |
| SeedProducts.InferredColorBySubstring | backend/db/seeding/seed_products.go:182-189 | a colour occurring anywhere in the lower-cased title, inside another word too, is inferred when no colour listed before it occurs |
| SeedProducts.InferAttributes | backend/db/seeding/seed_products.go:191-206 | every randomly picked attribute is one of its allowed options |
| SeedProducts.InferAttributesValidity | backend/db/seeding/seed_products.go:195-206 | the seeded attributes validate exactly when a colour was found and the category is an allowed one |
| Uploads.MimeTypeByExtension | backend/api/items.go:147 | `.png` maps to image/png and the other image extensions to image/jpeg |
| Uploads.AttachmentOf | backend/api/items.go:147-148 | an upload is stored under its file name with its bytes, as image/png exactly for `.png` and as image/jpeg for `.jpg` and `.jpeg`, whatever its content |
| Uploads.Names | backend/api/users.go:293 | the listed names are the attachments' names, in order |
| Uploads.RemoveNamed | backend/api/users.go:300 | deleting a name removes exactly the attachments of that name |
| Uploads.RemoveNamedWithout | backend/api/users.go:293-305 | deleting one more name is the same as deleting the longer list |
| Uploads.WithoutAllNames | backend/api/users.go:293-305 | deleting all listed names leaves nothing |
| Encoding.Base64Encode | backend/api/users.go:337 | the encoding has four characters per started group of three bytes |
| Encoding.Base64RoundTrip | backend/api/users.go:337 | decoding the encoding gives back the bytes |
| Encoding.Base64EncodePadded | backend/api/users.go:337 | the encoding is padded base64 text |
| Encoding.Base64ValueOfChar | backend/api/users.go:337 | each of the 64 alphabet characters decodes to its own value |
| Encoding.DataUrl | backend/api/users.go:338 | the URL starts with `data:` |
| Encoding.DataUrlParts | backend/api/items.go:418-421 | the URL holds the content type, then `;base64,`, then text that decodes to the file's bytes |
| Text.IndexOfFrom | backend/utils/extract_oneof.go:23 | finds the first occurrence at or after a position, or reports there is none |
| Text.Split | backend/utils/extract_oneof.go:25 | splitting gives at least one piece and no piece holds the separator |
| Text.JoinSplit | backend/utils/extract_oneof.go:25 | joining the pieces with the separator gives back the text |
| Text.SplitJoin | website/src/services/ItemService.ts:40 | splitting joined pieces without the separator gives back the pieces |
| Text.LexTotal | backend/api/messages.go:139-141 | the byte order of ids is total and asymmetric |
| Text.LowerChar | backend/utils/extract_oneof.go:21 | upper-case ASCII letters become lower case; other characters stay |
| Text.UpperChar | website/src/components/HomeHeader.tsx:56-61 | lower-case ASCII letters become upper case; other characters stay |
| Text.Lower | backend/db/seeding/seed_products.go:184 | every character is lower-cased in place |
| Text.TrimStartShape | website/src/components/MessagePanel.tsx:50 | exactly the leading white space is dropped |
| Text.TrimEndShape | website/src/components/MessagePanel.tsx:50 | exactly the trailing white space is dropped |
| Text.TrimShape | website/src/components/MessagePanel.tsx:50 | the result neither starts nor ends with white space |
| Text.TrimOfTrimmed | website/src/pages/Items/NewItemPage.tsx:71-73 | trimming text without outer white space changes nothing |
| Text.ExtShape | backend/api/users.go:314-319 | the extension is a suffix of the path that starts with its last dot and holds no other dot or slash |
| Numbers.Atoi | backend/api/items.go:212-216 | a success lies in the int64 range, and text that does not start with a sign or a digit reads as 0 with an error |
| Numbers.AtoiSyntaxError | backend/api/items.go:212-216 | text that is not an optional sign followed by digits only is an error, and reads as 0 unless its leading digits overflow |
| Numbers.AtoiOverflowFirst | backend/api/items.go:212-216 | leading digits beyond the uint64 range give the bound of the sign with an error, whatever follows them |
| Numbers.AtoiIntToString | backend/api/items.go:212-216 | the decimal text of an int64 reads back as that value |
| Numbers.NatDigits | backend/api/items.go:212-216 | the decimal text of a natural is digits without a leading zero |
| Numbers.DigitsRoundTrip | backend/api/items.go:212-216 | the decimal text of a natural reads back as that natural |
| Numbers.ParseDecimal | backend/api/items.go:194-210 | empty text is not a number |
| Numbers.ParseDecimalOfDigits | backend/api/items.go:194-210 | the decimal text of a natural parses as that number |
| Numbers.ParseDecimalOfFraction | backend/api/items.go:194-210 | signed decimal text with a fraction parses as its value, negated for a minus sign |
| Numbers.ParseDecimalOfText | backend/api/items.go:194-210 | signed decimal text with an exponent parses as its value times ten to the signed exponent |
| TitleCase.SpaceCapitals | website/src/components/HomeHeader.tsx:56-61 | spacing the capitals never shortens the text |
| TitleCase.ToTitleCaseWithSpaces | website/src/components/HomeHeader.tsx:56-61 | the label is trimmed and does not start with a lower-case letter |
| TitleCase.FromTitle | website/src/components/HomeHeader.tsx:56-61 | reading a label back never lengthens it |
| TitleCase.RemoveSpaces | website/src/components/HomeHeader.tsx:56-61 | the result holds no space |
| TitleCase.RemoveSpacesOfSpaced | website/src/components/HomeHeader.tsx:56-61 | removing the inserted spaces gives back text that had none |
| TitleCase.SpaceCapitalsAppend | website/src/components/HomeHeader.tsx:56-61 | spacing works piece by piece |
| TitleCase.SpaceCapitalsLower | website/src/components/HomeHeader.tsx:56-61 | text without capitals is left as it is |
| TitleCase.TitleOfIdentifier | website/src/components/HomeHeader.tsx:56-61 | a camel-case identifier gets its first letter capitalised and a space before each later capital |
| TitleCase.TitleRoundTrip | website/src/components/HomeHeader.tsx:56-61 | the label of a camel-case identifier reads back as that identifier |
| HomeHeader.VisibleChips | website/src/components/HomeHeader.tsx:66 | "All" comes first, followed by exactly the fetched categories that have an icon |
| HomeHeader.VisibleOf | website/src/components/HomeHeader.tsx:289-293 | the filter keeps exactly the categories whose label has an icon |
| HomeHeader.VisibleOfAppend | website/src/components/HomeHeader.tsx:289-293 | the chips keep the order of the fetched categories |
| HomeHeader.VisibleOfCount | website/src/components/HomeHeader.tsx:289-293 | a category with an icon is shown as many times as it was fetched, one without an icon never |
| HomeHeader.Without | website/src/components/HomeHeader.tsx:305-307 | removing a chip never lengthens the selection |
| HomeHeader.WithoutMembers | website/src/components/HomeHeader.tsx:305-307 | removing a chip keeps exactly the other chips |
| HomeHeader.WithoutNoDuplicates | website/src/components/HomeHeader.tsx:305-307 | removing a chip keeps the selection free of repeats |
| HomeHeader.ToggleKeepsSelection | website/src/components/HomeHeader.tsx:301-324 | a click keeps the selection free of repeats, with "All" only ever alone |
| HomeHeader.ToggleFlipsChip | website/src/components/HomeHeader.tsx:301-324 | a click selects the chip exactly when it was not selected |
| HomeHeader.ToggleLeavesOtherChips | website/src/components/HomeHeader.tsx:313-321 | clicking a category other than "All" leaves every other category as it was |
| HomeHeader.WithoutAbsent | website/src/components/HomeHeader.tsx:305-307 | removing a chip that is not selected changes nothing |
| HomeHeader.WithoutAppend | website/src/components/HomeHeader.tsx:305-307 | removal works piece by piece |
| HomeHeader.ToggleTwice | website/src/components/HomeHeader.tsx:301-324 | clicking a category twice restores the selection |
| StarRating.StarMap | website/src/components/Ratings/StarRating.tsx:13-27 | five stars, each empty, half or full, the i-th as `index < fullStars` and `index === fullStars` decide |
| StarRating.Average | website/src/components/Ratings/Ratings.tsx:32-33 | the average handed to the row is `NaN` exactly when there are no ratings |
| StarRating.AverageInRange | website/src/components/Ratings/Ratings.tsx:32-33 | the average of scores the server accepts lies in 1..10 |
| StarRating.StarMapOfNoRatings | website/src/components/Ratings/StarRating.tsx:13-27 | with no ratings the `NaN` average shows five empty stars |
| StarRating.StarMapRoundsDown | website/src/components/Ratings/StarRating.tsx:10-27 | any rating of 0..10, fractional ones included, shows half of it rounded down to a half star |
| StarRating.AverageStarsShown | website/src/components/Ratings/Ratings.tsx:32-33 | the row under a list of ratings shows their halved average rounded down to a half star |
| StarRating.StarMapNonIncreasing | website/src/components/Ratings/StarRating.tsx:13-27 | stars never fill more to the right |
| StarRating.StarMapShowsRating | website/src/components/Ratings/StarRating.tsx:10-27 | for a rating 0..10 the stars add up to half the rating, the first floor(rating/2) are full, and a half star follows exactly for an odd rating |
| StarRating.ClickValue | website/src/components/Ratings/StarRating.tsx:29-43 | a click on one of the five stars reports a value in 1..10 |
| StarRating.Click | website/src/components/Ratings/StarRating.tsx:29-43 | a value is reported exactly when clicks are allowed, and it lies in 1..10 |
| StarRating.ClickFor | website/src/components/Ratings/StarRating.tsx:29-43 | every value 1..10 has a star to click |
| StarRating.ClickValuesCoverScale | website/src/components/Ratings/StarRating.tsx:29-43 | clicks and the values 1..10 correspond one to one |
| StarRating.ClickShowsValue | website/src/components/Ratings/StarRating.tsx:10-43 | after a click, the stars before the clicked one are full, the clicked one is half or full by the side clicked, and the rest are empty |
| MessagePanel.ShowsHeader | website/src/components/MessagePanel.tsx:68-76 | the first message always shows its header |
| MessagePanel.HeaderGapInMilliseconds | website/src/components/MessagePanel.tsx:68-76 | a later message shows its header exactly when it comes more than 20 minutes after the previous one |
| MessagePanel.HeaderIgnoresSenders | website/src/components/MessagePanel.tsx:68-76 | headers depend on the times only, not on who sent the messages |
| MessagePanel.HeaderStableUnderAppend | website/src/components/MessagePanel.tsx:59-76 | appending a message does not change the headers of earlier ones |
| MessagePanel.Panel.constructor | website/src/components/MessagePanel.tsx:24-47 | the panel starts with no messages and an empty draft |
| MessagePanel.Panel.LoadHistory | website/src/components/MessagePanel.tsx:24-47 | without a user, a route user or a response, the messages stay; otherwise they become the fetched history; the draft is kept |
| MessagePanel.Panel.SendMessage | website/src/components/MessagePanel.tsx:49-66 | a blank draft sends nothing; otherwise the untrimmed draft is sent, and after a successful post it is appended and the draft cleared, while a failed post changes nothing |
| MessagePanel.NonBlankDraftIsPresent | website/src/components/MessagePanel.tsx:50 | a draft that is not blank is not empty, so the server's required-text check passes |
| MessagePanel.SendThroughServer | website/src/components/MessagePanel.tsx:49-66 | a non-blank draft sent to a user is stored once by the server and shown once in the panel, and the draft is cleared; otherwise nothing changes |
| ConversationsPage.OthersOf | website/src/pages/ConversationsPage.tsx:41-48 | one other participant per conversation, in order |
| ConversationsPage.FirstOccurrencesMembers | website/src/pages/ConversationsPage.tsx:41-48 | the `Set` keeps each id once and loses none |
| ConversationsPage.ParticipantIds | website/src/pages/ConversationsPage.tsx:41-48 | the loop lists the other participants in first-seen order |
| ConversationsPage.ParticipantIdsOnce | website/src/pages/ConversationsPage.tsx:41-48 | every conversation's other participant is looked up, and only once |
| ConversationsPage.FulfilledOf | website/src/pages/ConversationsPage.tsx:56-61 | the kept profiles are at most as many as the lookups |
| ConversationsPage.FulfilledOfMembers | website/src/pages/ConversationsPage.tsx:56-61 | exactly the profiles of the fulfilled lookups are kept |
| ConversationsPage.SuccessfulDetails | website/src/pages/ConversationsPage.tsx:50-61 | the loop keeps the fulfilled profiles |
| ConversationsPage.ByIdKeys | website/src/pages/ConversationsPage.tsx:63-69 | every kept profile is found under its own id, and only kept profiles are |
| ConversationsPage.ParticipantsMap | website/src/pages/ConversationsPage.tsx:63-71 | the loop builds the map from id to profile |
| ConversationsPage.Preview | website/src/pages/ConversationsPage.tsx:128-130 | the preview ends with the text and gets the "You: " prefix exactly when the user sent it |
| ConversationsPage.Label | website/src/pages/ConversationsPage.tsx:120 | a row always has a name: the loaded username, or "Unknown" |
| ConversationsPage.LabelOfLoadedUser | website/src/pages/ConversationsPage.tsx:56-69 | a user whose lookup succeeded is shown by their username |
| ConversationsPage.View.constructor | website/src/pages/ConversationsPage.tsx:25-26 | the page starts loading, with no rows |
| ConversationsPage.View.Load | website/src/pages/ConversationsPage.tsx:19-76 | loading always ends; without a user or a list nothing changes; otherwise the rows are the response, the profiles are the fulfilled lookups by id, and every profile is that of a conversation partner |
| ConversationsPage.ProfilesArePartners | website/src/pages/ConversationsPage.tsx:40-71 | when each lookup answers for the id it was made for, every key of the profile map is the other participant of some conversation |
| AttributeSelect.Keys | website/src/components/AttributeSelect.tsx:70-75 | the keys of the selection object, in order |
| AttributeSelect.FindKey | website/src/components/AttributeSelect.tsx:70-75 | finds the first position of a key, or reports it is absent |
| AttributeSelect.Lookup | website/src/components/AttributeSelect.tsx:70-75 | a key reads back a selection exactly when it is present |
| AttributeSelect.HandleChange | website/src/components/AttributeSelect.tsx:70-75 | a change keeps the keys or adds one at the end |
| AttributeSelect.HandleChangeSets | website/src/components/AttributeSelect.tsx:70-75 | the changed attribute reads back the selection (or an empty list), every other one reads as before, and each key stays unique |
| AttributeSelect.ValuesOf | website/src/components/AttributeSelect.tsx:84 | the values of the chosen options, in order |
| AttributeSelect.FiltersOf | website/src/components/AttributeSelect.tsx:77-107 | nothing is reported exactly when no attribute was ever touched |
| AttributeSelect.NonEmptyOfKeys | website/src/components/AttributeSelect.tsx:95-104 | the filter names only attributes the user touched |
| AttributeSelect.NonEmptyOfAt | website/src/components/AttributeSelect.tsx:95-104 | an attribute is sent exactly when it has options chosen, and then with their values |
| AttributeSelect.AllEmptyGivesEmptyObject | website/src/components/AttributeSelect.tsx:95-106 | clearing every attribute reports an empty filter object |
| AttributeSelect.ApplyFilters | website/src/components/AttributeSelect.tsx:77-107 | the loop reports the specified filters |
| NewItemPage.AddImage | website/src/pages/Items/NewItemPage.tsx:28-33 | a chosen file is appended; none leaves the list as it was |
| NewItemPage.RemoveImage | website/src/pages/Items/NewItemPage.tsx:42-44 | the image at the index is removed, and an index outside the list changes nothing |
| NewItemPage.RemoveAddedImage | website/src/pages/Items/NewItemPage.tsx:28-44 | removing the image just added restores the list |
| NewItemPage.RemoveAttribute | website/src/pages/Items/NewItemPage.tsx:92-98 | the attribute's key is gone and no other key is |
| NewItemPage.AttributeChoices | website/src/pages/Items/NewItemPage.tsx:52-62 | choosing a value sets that key only (an empty key changes nothing); removing undoes a choice; other attributes keep their values |
| NewItemPage.FieldName | website/src/pages/Items/NewItemPage.tsx:64-90 | every form field has a non-empty name |
| NewItemPage.QuantityReadBack | website/src/pages/Items/NewItemPage.tsx:70 | a quantity of magnitude at most 2^53, which the browser holds exactly, is read back by the server's `Atoi`, and `NaN` fails there |
| NewItemPage.TrimAll | website/src/pages/Items/NewItemPage.tsx:71-73 | each category piece is trimmed, in order |
| NewItemPage.CategoryEntries | website/src/pages/Items/NewItemPage.tsx:71-73 | one `categories` entry per piece, in order |
| NewItemPage.ImageEntries | website/src/pages/Items/NewItemPage.tsx:78 | one `images` entry per file, in order |
| NewItemPage.TextValues | website/src/pages/Items/NewItemPage.tsx:64-90 | one text value per string, in order |
| NewItemPage.FileValues | website/src/pages/Items/NewItemPage.tsx:78 | one file value per image, in order |
| NewItemPage.GetAll | website/src/pages/Items/NewItemPage.tsx:64-90 | `getAll` returns at most as many values as there are entries |
| NewItemPage.GetAllAppend | website/src/pages/Items/NewItemPage.tsx:64-90 | `getAll` on appended entries appends the values |
| NewItemPage.GetAllAbsent | website/src/pages/Items/NewItemPage.tsx:64-90 | a field never appended reads as nothing |
| NewItemPage.GetAllOnly | website/src/pages/Items/NewItemPage.tsx:64-90 | entries all of one field read back as their values |
| NewItemPage.BodyCategories | website/src/pages/Items/NewItemPage.tsx:71-73 | the body's `categories` values are the pieces, in order |
| NewItemPage.CategoriesSent | website/src/pages/Items/NewItemPage.tsx:71-73 | the submitted `categories` are the trimmed comma-separated pieces of the field |
| NewItemPage.EmptyCategoriesField | website/src/pages/Items/NewItemPage.tsx:71-73 | an empty field still sends one empty category |
| NewItemPage.CategoriesRoundTrip | website/src/pages/Items/NewItemPage.tsx:71-73 | names without commas or outer white space, typed joined by commas, are sent back as those names |
| NewItemPage.BodyLocation | website/src/pages/Items/NewItemPage.tsx:75-77 | the body carries the location at most once |
| NewItemPage.LocationSent | website/src/pages/Items/NewItemPage.tsx:75-77 | the location is sent, stringified, exactly when one was chosen |
| NewItemPage.BodyAttributes | website/src/pages/Items/NewItemPage.tsx:80 | the body has exactly one `attributes` entry, the stringified selection |
| NewItemPage.BodyImages | website/src/pages/Items/NewItemPage.tsx:78 | the body's `images` entries are the chosen files, in order |
| NewItemPage.AttributesAndImagesSent | website/src/pages/Items/NewItemPage.tsx:78-80 | the submitted form has one stringified `attributes` entry and the chosen images in order |
| NewItemPage.AppendCategories | website/src/pages/Items/NewItemPage.tsx:71-73 | the loop appends one trimmed entry per piece |
| NewItemPage.AppendImages | website/src/pages/Items/NewItemPage.tsx:78 | the loop appends one entry per image |
| NewItemPage.HandleSubmit | website/src/pages/Items/NewItemPage.tsx:64-90 | the multipart body built is the specified form data |
| ItemService.StripItemsPrefix | website/src/services/ItemService.ts:6 | an id without `items/` is kept; otherwise the result is six characters shorter |
| ItemService.StripItemsPrefixRemovesFirst | website/src/services/ItemService.ts:6 | the first `items/`, wherever it stands, is removed, and the text before and after it is kept |
| ItemService.ItemPath | website/src/services/ItemService.ts:5-9 | the request path is `/items/` followed by the stripped id |
| ItemService.DocumentIdRoundTrip | website/src/services/ItemService.ts:59-60 | stripping a document id gives back the route parameter the server turns into that id |
| ItemService.QueryParams | website/src/services/ItemService.ts:36-47 | the ten query parameters are written in their fixed order |
| ItemService.QueryDefaults | website/src/services/ItemService.ts:18-22 | the defaults are limit 10, skip 0, sort title, order asc and an empty search |
| ItemService.CategoriesValueRoundTrip | website/src/services/ItemService.ts:40 | categories without commas can be split back from the joined value |
| ItemService.QueryMap | website/src/services/ItemService.ts:36-47 | the server reads the first parameter with its value |
| ItemService.QueryMapAbsent | website/src/services/ItemService.ts:36-47 | a parameter that is not written is absent on the server |
| ItemService.QueryMapAt | website/src/services/ItemService.ts:36-47 | the first occurrence of a name decides its value on the server |
| ItemService.ParamNamesDistinct | website/src/services/ItemService.ts:36-47 | each parameter name is written once |
| ItemService.NoAttributeParams | website/src/services/ItemService.ts:36-47 | the client never sends attribute or condition filters |
| ItemService.QueryValues | website/src/services/ItemService.ts:36-47 | the server reads lat, long, radius, limit and search as the client wrote them |
| ItemService.SearchAcceptedByServer | website/src/services/ItemService.ts:12-52 | a request with valid coordinates and radius, and a limit of magnitude at most 2^53, is accepted by the server's parameter handling, with the same values, no filters, and fuzzy search exactly when a search text was given |

## Left out

- Database sessions, I/O errors and their 500 responses are not modelled. The stores hold documents and attachments as maps.
- JWT signing and the secret's environment variable are not modelled. A token is modelled as its claims.
- bcrypt is symbolic: a hash is `Bcrypt(password)`, and only the 72-byte limit of hashing is kept.
- Users.UserStore.SignUp: the email rule of the `binding:"email"` tag is approximated by `PlausibleEmail`, not the validator's full grammar.
- RavenDB's case-insensitive string matching is not modelled. Email and id comparisons are exact.
- Gin's multipart and JSON binding is reduced to the `required` checks of the request structs.
- Items.ItemStore.AttachFirstImages: the spatial query, the fuzzy search and `Take(limit)` of `GET /items` are not modelled. The items they return are the `found` parameter.
- Users.UserStore.UpdateUser: the order in which `GetNames` lists the attachments is not modelled. All of them are deleted, and `DeleteEach` proves it.
- Users.UserStore.GetUser: "the first attachment" is the first in the stored order of the model. The source takes the first name `GetNames` returns, whose order is the client library's.
- Items.ItemStore.GetItem: the data URLs follow the stored order of the model, not an order chosen by `GetNames`.
- Items.ItemStore.AttachFirstImages: the image kept for each item is the first in the stored order, for the same reason.
- `http.DetectContentType` is the upload's `sniffedType` field, and stream read failures are the `failed` set.
- `json.Unmarshal` of the `attributes` parameter is the `decodedAttributes` parameter.
- Numbers.ParseDecimal: only decimal text with an optional sign, fraction and exponent is read. Infinity, NaN, hexadecimal floats, underscores and range errors of `strconv.ParseFloat` are not modelled. The value is the exact decimal number written, not its rounding to the nearest float64.
- Users.UserStore.UpdateUser: loading a missing user dereferences nil in the source. It is modelled as the 500 "Failed to load user" response.
- Items.ItemStore.AddItem: the validator's message text is not modelled. Only the 400 "validation error" response is.
- Messages.MessageStore.GetMessageHistory: the chained `WhereEquals` calls at `backend/api/messages.go:182-183` are read as the intended "between the two users" grouping.
- CSV syntax and file I/O of the seeder are not modelled. The parsers take rows of fields.
- SeedProducts.ParseProductsCSV: requires that a header narrower than the eleven columns read is not followed by a row of its width. The source panics on an index out of range there; rows of another width are the `ErrFieldCount` error.
- SeedProducts.ParseCategoriesCSV: requires the same of a header narrower than two columns.
- `CreateItem` and `AddProductAttachments` of the seeder are not modelled: they only call the database and download images.
- SeedProducts.InferAttributes: the randomness of `RandString` is the `picks` parameter.
- Text.UpperChar: only ASCII letters are upper-cased. JavaScript's `toUpperCase` also maps other letters, and `ß` to `SS`; that is not modelled.
- Text.Lower: only ASCII letters are lower-cased. Unicode case mapping is not modelled.
- AttributeSelect.HandleChange: the special key order of JavaScript objects is not modelled. Keys that look like integers would come first, and prototype keys are not modelled either; attribute names are plain words.
- ItemService.QueryParams: coordinates are taken as text, so JavaScript's number-to-string conversion is not modelled.
- ItemService.QueryParams: percent-encoding by `URLSearchParams` is not modelled, since it is undone by the server.
- ItemService.SearchAcceptedByServer: the server ignores `categories`, `status`, `skip`, `sort` and `order`. The model shows they reach it but does not interpret them.
- `createItem` of the item service is a plain POST of the item and is not modelled.
- StarRating.StarMap: `ratingState` is initialised once from the props, so later prop changes are not modelled.
- `JSON.stringify` of the location and of the attributes is a parameter of `NewItemPage.HandleSubmit`.
- The contents of chosen files are not modelled. An image file is its name.
- Navigation, error state and the `createItem` response of the new-item page are not modelled.
- ConversationsPage.View.Load: the network calls are not modelled. The conversations response and the outcome of each user lookup are parameters.
- The "Loading..." render is not modelled; only the loading flag is.
- NewItemPage.QuantityReadBack: `parseInt` is modelled as the integer it gives or `NaN`. Its prefix rules are not modelled.
- NewItemPage.QuantityReadBack: a quantity above 2^53 in magnitude is not covered. A JavaScript number holds it inexactly, and `toString` prints the shortest digits that read back as that double, so the server would read another value.
- ItemService.SearchAcceptedByServer: covers limits of magnitude at most 2^53 only, for the same reason. `Numbers.IntToString` prints the exact digits, which is what JavaScript does within that bound.
- MessagePanel.Panel.SendMessage: the browser clock (`new Date()`) is the `now` parameter. It is not the server's time.
- Ratings.RatingStore.CreateRating: binds with the corrected rule `CreateRequestBinds`, under which `recipientIsItem` may be false. The rule as written is `CreateRequestBindsAsWritten`, and `UserRatingsRejectedAsWritten` shows that it refuses every rating of a user.
- Ratings.RatingStore.GetRating: the handler loads into a `models.Rating` value, not a pointer. The model reads a missing document as the load error, 404; what the client library does for that value is not modelled.
- Ratings.RatingStore.UpdateRating: loads into a value too, and a missing document is modelled as the 401 "Unauthorized or rating not found". That is also what a zero rating left by the load gives, since its empty creator differs from any non-empty user id; an empty user id is not distinguished.
- Items.ItemStore.GetItem: for a missing id only the status 500 is promised. The nil item either makes `GetNames` fail ("Failed to get attachment names") or panics into an empty 500, depending on the client library.
- Messages.GetMostRecentMessagePerConversation: the conversation key is the sorted pair of ids, the evidently intended key. The key as written joins the ids with "-"; it is `StringConversationKey`, and `StringConversationKeyCollides` shows two conversations it merges.
- Messages.MessageStore.GetUserConversations: uses the same pair key.
- Messages.SortByTime: `sort.Slice` is not stable, so messages with equal `sentAt` may come in any order. The model keeps their input order, and the contract promises only the order by time and the permutation.
- MessagePanel.Panel.SendMessage: the handler appends to the `messages` captured at render time, so a history that loads between render and send would be overwritten. The model appends to the current list.

## Findings

| source | as written | input that shows it | evidently intended | confidence | as-written member | corrected member |
|---|---|---|---|---|---|---|
| backend/api/ratings.go:34 | `binding:"required"` on the boolean `RecipientIsItem` fails for the zero value `false`, so every rating of a user is refused with 400 | CreateRatingRequest("users/1-A", "users/2-A", false, "Great", "Smooth trade", 10) | the flag is optional, so users can be rated as well as items | not executed | Ratings.UserRatingsRejectedAsWritten | Ratings.CorrectedBindingAcceptsUserRatings |
| backend/api/messages.go:139-141 | the conversation key is the two sorted ids joined by "-", which is ambiguous when ids contain "-" | user "-a-" talking to "a-" and to "-a": both conversations get the key "-a--a-" | one key per pair of users | low, not executed | Messages.StringConversationKeyCollides | Messages.ConversationKeyInjective |

=== FILE: attribute_select.dfy ===
/** The attribute filter panel of website/src/components/AttributeSelect.tsx:
    the options chosen per attribute, and the filter object handed to
    `onAttributesChange` when "Apply Filters" is pressed. The chosen options
    are an object; its entries are kept here as a list in the object's
    insertion order, one entry per attribute. */
module AttributeSelect {
  import opened Common

  /** A `react-select` option: the attribute value and the text shown for it. */
  datatype SelectOption = SelectOption(value: string, caption: string)

  /** One attribute of `selectedOptions` with the options chosen for it. */
  datatype Entry = Entry(attribute: string, options: seq<SelectOption>)

  function Keys(entries: seq<Entry>): (keys: seq<string>)
    ensures |keys| == |entries|
    ensures forall i :: 0 <= i < |entries| ==> keys[i] == entries[i].attribute
  {
    seq(|entries|, i requires 0 <= i < |entries| => entries[i].attribute)
  }

  /** An object has each key once. */
  predicate UniqueKeys(entries: seq<Entry>) {
    forall i, j :: 0 <= i < j < |entries| ==> entries[i].attribute != entries[j].attribute
  }

  /** The position of `key` among `keys`, the first if there are several. */
  function FindKey(keys: seq<string>, key: string): (r: Option<nat>)
    ensures r.Some? ==> r.value < |keys| && keys[r.value] == key
    ensures r.Some? ==> forall j :: 0 <= j < r.value ==> keys[j] != key
    ensures r.None? ==> forall j :: 0 <= j < |keys| ==> keys[j] != key
  {
    if |keys| == 0 then None
    else if keys[0] == key then Some(0)
    else match FindKey(keys[1..], key)
      case Some(i) => Some(i + 1)
      case None => None
  }

  /** `selectedOptions[key]`, if the key is present. */
  function Lookup(entries: seq<Entry>, key: string): (r: Option<seq<SelectOption>>)
    ensures r.None? <==> key !in Keys(entries)
  {
    match FindKey(Keys(entries), key)
    case Some(i) => Some(entries[i].options)
    case None => None
  }

  /** `handleChange`: the attribute's list becomes the selection, or `[]`
      when the selection is `null`. An attribute already present keeps its
      place in the object; a new one is added at the end. */
  function HandleChange(entries: seq<Entry>, attribute: string, selected: Option<seq<SelectOption>>): (r: seq<Entry>)
    ensures |r| == |entries| || |r| == |entries| + 1
  {
    var chosen := if selected.Some? then selected.value else [];
    match FindKey(Keys(entries), attribute)
    case Some(i) => entries[i := Entry(attribute, chosen)]
    case None => entries + [Entry(attribute, chosen)]
  }

  /** The changed attribute reads back as the selection (or `[]`), every
      other attribute reads as before, and the object still has each key
      once. */
  lemma HandleChangeSets(entries: seq<Entry>, attribute: string, selected: Option<seq<SelectOption>>, other: string)
    requires UniqueKeys(entries)
    requires other != attribute
    ensures Lookup(HandleChange(entries, attribute, selected), attribute)
      == Some(if selected.Some? then selected.value else [])
    ensures Lookup(HandleChange(entries, attribute, selected), other) == Lookup(entries, other)
    ensures UniqueKeys(HandleChange(entries, attribute, selected))
  {
    var r := HandleChange(entries, attribute, selected);
    var chosen := if selected.Some? then selected.value else [];
    match FindKey(Keys(entries), attribute)
    case Some(i) =>
      ReplacedKeys(entries, i, Entry(attribute, chosen));
    case None =>
      AppendedKeys(entries, Entry(attribute, chosen));
      FindKeyAppend(Keys(entries), attribute, other);
  }

  lemma ReplacedKeys(entries: seq<Entry>, i: int, e: Entry)
    requires 0 <= i < |entries| && entries[i].attribute == e.attribute
    ensures Keys(entries[i := e]) == Keys(entries)
  {
  }

  lemma AppendedKeys(entries: seq<Entry>, e: Entry)
    ensures Keys(entries + [e]) == Keys(entries) + [e.attribute]
  {
  }

  /** Adding a key at the end does not move the others. */
  lemma {:induction false} FindKeyAppend(keys: seq<string>, added: string, key: string)
    requires key != added
    ensures FindKey(keys + [added], key) == FindKey(keys, key)
  {
    if |keys| == 0 {
      assert keys + [added] == [added];
    } else {
      assert (keys + [added])[1..] == keys[1..] + [added];
      FindKeyAppend(keys[1..], added, key);
    }
  }

  /** The `value`s of the chosen options, in the order they were chosen. */
  function ValuesOf(options: seq<SelectOption>): (values: seq<string>)
    ensures |values| == |options|
    ensures forall i :: 0 <= i < |options| ==> values[i] == options[i].value
  {
    seq(|options|, i requires 0 <= i < |options| => options[i].value)
  }

  /** `newData`: the attributes with a non-empty list, mapped to their values. */
  function NonEmptyOf(entries: seq<Entry>): (filters: map<string, seq<string>>)
  {
    if |entries| == 0 then map[]
    else
      var last := entries[|entries| - 1];
      var front := NonEmptyOf(entries[..|entries| - 1]);
      if |last.options| == 0 then front else front[last.attribute := ValuesOf(last.options)]
  }

  /** What reaches `onAttributesChange`: nothing when no attribute was
      touched, otherwise `newData`. */
  function FiltersOf(entries: seq<Entry>): (sent: Option<map<string, seq<string>>>)
    ensures sent.None? <==> |entries| == 0
  {
    if |entries| == 0 then None else Some(NonEmptyOf(entries))
  }

  /** The filter object only has attributes that were touched. */
  lemma {:induction false} NonEmptyOfKeys(entries: seq<Entry>)
    ensures forall k :: k in NonEmptyOf(entries) ==> k in Keys(entries)
  {
    if |entries| > 0 {
      var init := entries[..|entries| - 1];
      NonEmptyOfKeys(init);
      assert Keys(entries) == Keys(init) + [entries[|entries| - 1].attribute];
    }
  }

  /** An attribute is in the filter object exactly when its list is not
      empty, and then with its options' values in selection order. */
  lemma {:induction false} NonEmptyOfAt(entries: seq<Entry>, i: nat)
    requires UniqueKeys(entries) && i < |entries|
    ensures entries[i].attribute in NonEmptyOf(entries) <==> |entries[i].options| > 0
    ensures |entries[i].options| > 0 ==> NonEmptyOf(entries)[entries[i].attribute] == ValuesOf(entries[i].options)
  {
    if i < |entries| - 1 {
      var init := entries[..|entries| - 1];
      assert UniqueKeys(init);
      assert init[i] == entries[i];
      NonEmptyOfAt(init, i);
      assert entries[|entries| - 1].attribute != entries[i].attribute;
    } else {
      var init := entries[..|entries| - 1];
      NonEmptyOfKeys(init);
      assert entries[i].attribute !in Keys(init);
    }
  }

  /** When every touched attribute has an empty list the callback still
      runs, with the empty object. */
  lemma {:induction false} AllEmptyGivesEmptyObject(entries: seq<Entry>)
    requires forall i :: 0 <= i < |entries| ==> |entries[i].options| == 0
    ensures NonEmptyOf(entries) == map[]
  {
    if |entries| > 0 {
      AllEmptyGivesEmptyObject(entries[..|entries| - 1]);
    }
  }

  /** `applyFilters`: the entries become `{attribute: values}` records; with
      none the function returns without calling back; otherwise the loop
      copies every non-empty list into `newData`. */
  method ApplyFilters(selectedOptions: seq<Entry>) returns (sent: Option<map<string, seq<string>>>)
    ensures sent == FiltersOf(selectedOptions)
  {
    var selectedOptionsArray := seq(|selectedOptions|, i requires 0 <= i < |selectedOptions| =>
      (selectedOptions[i].attribute, ValuesOf(selectedOptions[i].options)));
    if |selectedOptionsArray| == 0 {
      return None;
    }
    var newData: map<string, seq<string>> := map[];
    for i := 0 to |selectedOptionsArray|
      invariant newData == NonEmptyOf(selectedOptions[..i])
    {
      assert selectedOptions[..i + 1][..i] == selectedOptions[..i];
      var (key, value) := selectedOptionsArray[i];
      if |value| == 0 {
        continue;
      }
      newData := newData[key := value];
    }
    assert selectedOptions[..|selectedOptions|] == selectedOptions;
    return Some(newData);
  }
}

=== FILE: common.dfy ===
/** Values shared by every module of the model: optional values, the
    error responses the handlers write, and the HTTP status codes they use. */
module Common {

  datatype Option<+T> = None | Some(value: T) {
    function GetOr(default: T): T {
      match this
      case Some(v) => v
      case None => default
    }
  }

  /** The `c.JSON(status, gin.H{"error": message})` response a handler
      writes before it returns early. */
  datatype Failure = Failure(status: int, message: string)

  /** The outcome of a handler: the success body, or the error response. */
  datatype Result<+T> = Ok(value: T) | Err(failure: Failure) {
    predicate IsStatus(code: int) {
      Err? && failure.status == code
    }
  }

  /** A handler that panics, on a nil pointer say: the Recovery middleware
      of `gin.Default()` answers 500 with an empty body. */
  const Recovered := Failure(StatusInternalServerError, "")

  const StatusOK := 200
  const StatusCreated := 201
  const StatusBadRequest := 400
  const StatusUnauthorized := 401
  const StatusNotFound := 404
  const StatusConflict := 409
  const StatusInternalServerError := 500

  /** A byte of an uploaded or stored file. */
  type Byte = x: int | 0 <= x < 256
}

=== FILE: conversations_page.dfy ===
/** The conversation list of website/src/pages/ConversationsPage.tsx: the
    other user of every conversation is looked up once, the lookups that
    succeed are kept by user id, and each row shows the other user's name
    and a preview of the last message. */
module ConversationsPage {
  import opened Common
  import opened Messages

  /** The fields of a fetched user that the page reads. */
  datatype Profile = Profile(id: string, name: string, username: string, profilePicture: string)

  /** The outcome of one `getUser` under `Promise.allSettled`. */
  datatype Settled = Fulfilled(profile: Profile) | Rejected

  /** What the conversations request gives: a failure, a body without a
      conversation list (`null`), or the list. */
  datatype ConversationsResponse = RequestFailed | NoList | Listed(conversations: seq<Message>)

  /** The other user of every row, in row order; the rule is the one the
      server uses, `OtherParticipant`. */
  function OthersOf(conversations: seq<Message>, me: string): (others: seq<string>)
    ensures |others| == |conversations|
    ensures forall i :: 0 <= i < |conversations| ==> others[i] == OtherParticipant(conversations[i], me)
  {
    seq(|conversations|, i requires 0 <= i < |conversations| => OtherParticipant(conversations[i], me))
  }

  /** The order of a JavaScript `Set` filled from `s`: each value once, where
      it first occurs. */
  function FirstOccurrences(s: seq<string>): (r: seq<string>)
  {
    if |s| == 0 then []
    else
      var front := FirstOccurrences(s[..|s| - 1]);
      if s[|s| - 1] in front then front else front + [s[|s| - 1]]
  }

  /** The set holds every value of `s` once. */
  lemma {:induction false} FirstOccurrencesMembers(s: seq<string>)
    ensures Distinct(FirstOccurrences(s))
    ensures forall x :: x in FirstOccurrences(s) <==> x in s
  {
    if |s| > 0 {
      var init := s[..|s| - 1];
      FirstOccurrencesMembers(init);
      assert s == init + [s[|s| - 1]];
    }
  }

  /** The `forEach` that fills `participantIds`, then `Array.from`. */
  method ParticipantIds(conversations: seq<Message>, me: string) returns (ids: seq<string>)
    ensures ids == FirstOccurrences(OthersOf(conversations, me))
  {
    ids := [];
    for i := 0 to |conversations|
      invariant ids == FirstOccurrences(OthersOf(conversations, me)[..i])
    {
      var others := OthersOf(conversations, me);
      assert others[..i + 1][..i] == others[..i];
      var otherUserId := OtherParticipant(conversations[i], me);
      if otherUserId !in ids {
        ids := ids + [otherUserId];
      }
    }
    assert OthersOf(conversations, me)[..|conversations|] == OthersOf(conversations, me);
  }

  /** Every other user is looked up exactly once. */
  lemma ParticipantIdsOnce(conversations: seq<Message>, me: string)
    ensures Distinct(FirstOccurrences(OthersOf(conversations, me)))
    ensures forall i :: 0 <= i < |conversations| ==>
      OtherParticipant(conversations[i], me) in FirstOccurrences(OthersOf(conversations, me))
  {
    FirstOccurrencesMembers(OthersOf(conversations, me));
  }

  /** The profiles of the fulfilled lookups, in order. */
  function FulfilledOf(results: seq<Settled>): (profiles: seq<Profile>)
    ensures |profiles| <= |results|
  {
    if |results| == 0 then []
    else
      var front := FulfilledOf(results[..|results| - 1]);
      match results[|results| - 1]
      case Fulfilled(p) => front + [p]
      case Rejected => front
  }

  /** A rejected lookup is dropped and a fulfilled one kept. */
  lemma {:induction false} FulfilledOfMembers(results: seq<Settled>)
    ensures forall p :: p in FulfilledOf(results) <==> Fulfilled(p) in results
  {
    if |results| > 0 {
      var init := results[..|results| - 1];
      FulfilledOfMembers(init);
      assert results == init + [results[|results| - 1]];
    }
  }

  /** The first `reduce`: pushing the value of every fulfilled result. */
  method SuccessfulDetails(results: seq<Settled>) returns (details: seq<Profile>)
    ensures details == FulfilledOf(results)
  {
    details := [];
    for i := 0 to |results|
      invariant details == FulfilledOf(results[..i])
    {
      assert results[..i + 1][..i] == results[..i];
      if results[i].Fulfilled? {
        details := details + [results[i].profile];
      }
    }
    assert results[..|results|] == results;
  }

  /** The profiles by id; a later profile with the same id replaces an
      earlier one. */
  function ById(profiles: seq<Profile>): (m: map<string, Profile>)
  {
    if |profiles| == 0 then map[]
    else
      var last := profiles[|profiles| - 1];
      ById(profiles[..|profiles| - 1])[last.id := last]
  }

  /** Every profile is stored under its own id, and every id fetched has an
      entry. */
  lemma {:induction false} ByIdKeys(profiles: seq<Profile>)
    ensures forall k :: k in ById(profiles) ==> ById(profiles)[k].id == k && ById(profiles)[k] in profiles
    ensures forall p :: p in profiles ==> p.id in ById(profiles)
  {
    if |profiles| > 0 {
      var init := profiles[..|profiles| - 1];
      ByIdKeys(init);
      assert profiles == init + [profiles[|profiles| - 1]];
    }
  }

  /** The second `reduce`: `acc[userDetail.id] = userDetail`. */
  method ParticipantsMap(details: seq<Profile>) returns (participants: map<string, Profile>)
    ensures participants == ById(details)
  {
    participants := map[];
    for i := 0 to |details|
      invariant participants == ById(details[..i])
    {
      assert details[..i + 1][..i] == details[..i];
      participants := participants[details[i].id := details[i]];
    }
    assert details[..|details|] == details;
  }

  const YouPrefix := "You: "

  /** The preview line of a row: the text, marked when the viewer sent it. */
  function Preview(m: Message, me: string): (preview: string)
    ensures |preview| >= |m.text| && preview[|preview| - |m.text|..] == m.text
    ensures m.senderId == me <==> |preview| == |YouPrefix| + |m.text|
  {
    if m.senderId == me then YouPrefix + m.text else m.text
  }

  /** The name of a row: the username of the loaded profile, or "Unknown"
      when none was loaded or its username is empty. */
  function Label(participants: map<string, Profile>, id: string): (shown: string)
    ensures shown != ""
    ensures id in participants && participants[id].username != "" ==> shown == participants[id].username
  {
    if id in participants && participants[id].username != "" then participants[id].username else "Unknown"
  }

  /** A row whose other user was looked up successfully under a non-empty
      username shows that user's name. */
  lemma LabelOfLoadedUser(results: seq<Settled>, p: Profile)
    requires Fulfilled(p) in results && p.username != ""
    requires forall q :: Fulfilled(q) in results && q.id == p.id ==> q == p
    ensures Label(ById(FulfilledOf(results)), p.id) == p.username
  {
    FulfilledOfMembers(results);
    ByIdKeys(FulfilledOf(results));
  }

  /** `lookups` holds one outcome per id of `ids`, in order, and a profile
      that was fetched is the one asked for. */
  predicate LookupsFor(ids: seq<string>, lookups: seq<Settled>) {
    && |lookups| == |ids|
    && forall i :: 0 <= i < |ids| && lookups[i].Fulfilled? ==> lookups[i].profile.id == ids[i]
  }

  /** Every loaded profile is that of a conversation partner. */
  lemma ProfilesArePartners(conversations: seq<Message>, me: string, lookups: seq<Settled>)
    requires LookupsFor(FirstOccurrences(OthersOf(conversations, me)), lookups)
    ensures forall k :: k in ById(FulfilledOf(lookups)) ==> k in OthersOf(conversations, me)
  {
    var ids := FirstOccurrences(OthersOf(conversations, me));
    FirstOccurrencesMembers(OthersOf(conversations, me));
    FulfilledOfMembers(lookups);
    ByIdKeys(FulfilledOf(lookups));
    forall k | k in ById(FulfilledOf(lookups))
      ensures k in OthersOf(conversations, me)
    {
      var p := ById(FulfilledOf(lookups))[k];
      assert Fulfilled(p) in lookups;
      var i :| 0 <= i < |lookups| && lookups[i] == Fulfilled(p);
      assert ids[i] == k;
    }
  }

  /** The page state: the rows, the loaded profiles, and the loading flag. */
  class View {
    var conversations: seq<Message>
    var participants: map<string, Profile>
    var loading: bool

    constructor()
      ensures conversations == [] && participants == map[] && loading
    {
      conversations := [];
      participants := map[];
      loading := true;
    }

    /** The "No messages yet." view, once loading has ended. */
    predicate ShowsEmptyState()
      reads this
    {
      !loading && |conversations| == 0
    }

    /** The effect: without a user nothing is fetched; otherwise the rows are
        fetched and the other users looked up, `lookups` holding the outcome
        for each id of `ParticipantIds`. Loading ends in every case. */
    method Load(user: Option<string>, response: ConversationsResponse, lookups: seq<Settled>)
      requires user.Some? && response.Listed? ==>
        LookupsFor(FirstOccurrences(OthersOf(response.conversations, user.value)), lookups)
      modifies this
      ensures !loading
      ensures (user.None? || !response.Listed?) ==>
        conversations == old(conversations) && participants == old(participants)
      ensures user.Some? && response.Listed? ==>
        && conversations == response.conversations && participants == ById(FulfilledOf(lookups))
        && forall k :: k in participants ==> k in OthersOf(conversations, user.value)
    {
      if user.None? {
        loading := false;
        return;
      }
      loading := true;
      if response.Listed? {
        conversations := response.conversations;
        var ids := ParticipantIds(response.conversations, user.value);
        assert LookupsFor(ids, lookups);
        var details := SuccessfulDetails(lookups);
        participants := ParticipantsMap(details);
        ProfilesArePartners(response.conversations, user.value, lookups);
      }
      loading := false;
    }
  }
}

=== FILE: encoding.dfy ===
/** Attachment text as the handlers of backend/api/users.go and
    backend/api/items.go write it: the standard base64 encoding of section 4
    of RFC 4648, with `=` padding, inside a `data:` URL. */
module Encoding {
  import opened Common

  /** The character of a 6-bit value in the base64 alphabet. */
  function Base64Char(v: int): (c: char)
    requires 0 <= v < 64
  {
    if v < 26 then ('A' as int + v) as char
    else if v < 52 then ('a' as int + (v - 26)) as char
    else if v < 62 then ('0' as int + (v - 52)) as char
    else if v == 62 then '+'
    else '/'
  }

  predicate IsBase64Char(c: char) {
    'A' <= c <= 'Z' || 'a' <= c <= 'z' || '0' <= c <= '9' || c == '+' || c == '/'
  }

  /** The 6-bit value of an alphabet character. */
  function Base64Value(c: char): (v: int)
    requires IsBase64Char(c)
    ensures 0 <= v < 64
  {
    if 'A' <= c <= 'Z' then c as int - 'A' as int
    else if 'a' <= c <= 'z' then c as int - 'a' as int + 26
    else if '0' <= c <= '9' then c as int - '0' as int + 52
    else if c == '+' then 62
    else 63
  }

  lemma Base64ValueOfChar(v: int)
    requires 0 <= v < 64
    ensures IsBase64Char(Base64Char(v)) && Base64Value(Base64Char(v)) == v
  {
  }

  /** Base64 text: whole quads of alphabet characters, the last of which may
      end in one or two `=`. */
  predicate IsPaddedBase64(s: string) {
    && |s| % 4 == 0
    && forall i :: 0 <= i < |s| ==>
         IsBase64Char(s[i]) || (s[i] == '=' && i >= |s| - 2 && (i == |s| - 2 ==> s[|s| - 1] == '='))
  }

  /** `base64.StdEncoding.EncodeToString`: each group of three bytes becomes
      four characters; a last group of one or two bytes is padded with `=`. */
  function Base64Encode(bytes: seq<Byte>): (s: string)
    ensures |s| == 4 * ((|bytes| + 2) / 3)
    decreases |bytes|
  {
    if |bytes| == 0 then ""
    else if |bytes| == 1 then
      [Base64Char(bytes[0] / 4), Base64Char(bytes[0] % 4 * 16), '=', '=']
    else if |bytes| == 2 then
      [Base64Char(bytes[0] / 4), Base64Char(bytes[0] % 4 * 16 + bytes[1] / 16),
       Base64Char(bytes[1] % 16 * 4), '=']
    else Quad(bytes[0], bytes[1], bytes[2]) + Base64Encode(bytes[3..])
  }

  /** The four characters of a whole group of three bytes. */
  function Quad(x: Byte, y: Byte, z: Byte): (q: string)
    ensures |q| == 4
  {
    [Base64Char(x / 4), Base64Char(x % 4 * 16 + y / 16),
     Base64Char(y % 16 * 4 + z / 64), Base64Char(z % 64)]
  }

  /** The inverse of `Base64Encode` on padded text; `None` on anything else. */
  function Base64Decode(s: string): (r: Option<seq<Byte>>)
    decreases |s|
  {
    if |s| == 0 then Some([])
    else if |s| < 4 || !IsBase64Char(s[0]) || !IsBase64Char(s[1]) then None
    else
      var a, b := Base64Value(s[0]), Base64Value(s[1]);
      if |s| == 4 && s[2] == '=' && s[3] == '=' then
        if b % 16 == 0 then Some([a * 4 + b / 16]) else None
      else if !IsBase64Char(s[2]) then None
      else
        var c := Base64Value(s[2]);
        if |s| == 4 && s[3] == '=' then
          if c % 4 == 0 then Some([a * 4 + b / 16, b % 16 * 16 + c / 4]) else None
        else if !IsBase64Char(s[3]) then None
        else
          var d := Base64Value(s[3]);
          match Base64Decode(s[4..])
          case None => None
          case Some(rest) => Some([a * 4 + b / 16, b % 16 * 16 + c / 4, c % 4 * 64 + d] + rest)
  }

  /** The six-bit groups of one, two and three bytes recombine into them. */
  lemma OneByteGroups(x: Byte)
    ensures x % 4 * 16 % 16 == 0 && x / 4 * 4 + x % 4 * 16 / 16 == x
  {
    var low := x % 4;
    assert low * 16 % 16 == 0 && low * 16 / 16 == low;
  }

  lemma TwoByteGroups(x: Byte, y: Byte)
    ensures var b, c := x % 4 * 16 + y / 16, y % 16 * 4;
      && x / 4 * 4 + b / 16 == x && b % 16 * 16 + c / 4 == y && c % 4 == 0
  {
    var b, c := x % 4 * 16 + y / 16, y % 16 * 4;
    assert b / 16 == x % 4 && b % 16 == y / 16;
    assert c / 4 == y % 16 && c % 4 == 0;
  }

  lemma ThreeByteGroups(x: Byte, y: Byte, z: Byte)
    ensures var b, c, d := x % 4 * 16 + y / 16, y % 16 * 4 + z / 64, z % 64;
      && x / 4 * 4 + b / 16 == x && b % 16 * 16 + c / 4 == y && c % 4 * 64 + d == z
  {
    var b, c := x % 4 * 16 + y / 16, y % 16 * 4 + z / 64;
    assert b / 16 == x % 4 && b % 16 == y / 16;
    assert c / 4 == y % 16 && c % 4 == z / 64;
  }

  lemma DecodeQuad(x: Byte, y: Byte, z: Byte, t: string, rest: seq<Byte>)
    requires Base64Decode(t) == Some(rest)
    ensures Base64Decode(Quad(x, y, z) + t) == Some([x, y, z] + rest)
  {
    var s := Quad(x, y, z) + t;
    var a, b, c, d := x / 4, x % 4 * 16 + y / 16, y % 16 * 4 + z / 64, z % 64;
    Base64ValueOfChar(a);
    Base64ValueOfChar(b);
    Base64ValueOfChar(c);
    Base64ValueOfChar(d);
    assert s[0] == Base64Char(a) && s[1] == Base64Char(b) && s[2] == Base64Char(c) && s[3] == Base64Char(d);
    assert s[4..] == t;
    ThreeByteGroups(x, y, z);
    DecodeFour(s, a, b, c, d, rest);
  }

  /** Four alphabet characters followed by text decoding to `rest`. */
  lemma DecodeFour(s: string, a: int, b: int, c: int, d: int, rest: seq<Byte>)
    requires |s| >= 4 && 0 <= a < 64 && 0 <= b < 64 && 0 <= c < 64 && 0 <= d < 64
    requires IsBase64Char(s[0]) && Base64Value(s[0]) == a
    requires IsBase64Char(s[1]) && Base64Value(s[1]) == b
    requires IsBase64Char(s[2]) && Base64Value(s[2]) == c
    requires IsBase64Char(s[3]) && Base64Value(s[3]) == d
    requires Base64Decode(s[4..]) == Some(rest)
    ensures Base64Decode(s) == Some([a * 4 + b / 16, b % 16 * 16 + c / 4, c % 4 * 64 + d] + rest)
  {
  }

  lemma DecodeOne(bytes: seq<Byte>)
    requires |bytes| == 1
    ensures Base64Decode(Base64Encode(bytes)) == Some(bytes)
  {
    var x := bytes[0];
    var a, b := x / 4, x % 4 * 16;
    Base64ValueOfChar(a);
    Base64ValueOfChar(b);
    var s := Base64Encode(bytes);
    assert s == [Base64Char(a), Base64Char(b), '=', '='];
    OneByteGroups(x);
    assert bytes == [x];
  }

  lemma DecodeTwo(bytes: seq<Byte>)
    requires |bytes| == 2
    ensures Base64Decode(Base64Encode(bytes)) == Some(bytes)
  {
    var x, y := bytes[0], bytes[1];
    var a, b, c := x / 4, x % 4 * 16 + y / 16, y % 16 * 4;
    Base64ValueOfChar(a);
    Base64ValueOfChar(b);
    Base64ValueOfChar(c);
    var s := Base64Encode(bytes);
    assert s == [Base64Char(a), Base64Char(b), Base64Char(c), '='];
    TwoByteGroups(x, y);
    DecodeThreeChars(s, a, b, c);
    assert bytes == [x, y];
  }

  /** A group of three bytes in front of bytes that round-trip. */
  lemma DecodeLong(bytes: seq<Byte>)
    requires |bytes| >= 3 && Base64Decode(Base64Encode(bytes[3..])) == Some(bytes[3..])
    ensures Base64Decode(Base64Encode(bytes)) == Some(bytes)
  {
    SplitThree(bytes);
    var t := Base64Encode(bytes[3..]);
    assert Base64Encode(bytes) == Quad(bytes[0], bytes[1], bytes[2]) + t;
    DecodeQuad(bytes[0], bytes[1], bytes[2], t, bytes[3..]);
  }

  lemma SplitThree<T>(s: seq<T>)
    requires |s| >= 3
    ensures s == [s[0], s[1], s[2]] + s[3..]
  {
  }

  /** Three alphabet characters and one `=`. */
  lemma DecodeThreeChars(s: string, a: int, b: int, c: int)
    requires |s| == 4 && 0 <= a < 64 && 0 <= b < 64 && 0 <= c < 64 && s[3] == '='
    requires IsBase64Char(s[0]) && Base64Value(s[0]) == a
    requires IsBase64Char(s[1]) && Base64Value(s[1]) == b
    requires IsBase64Char(s[2]) && Base64Value(s[2]) == c
    requires c % 4 == 0
    ensures Base64Decode(s) == Some([a * 4 + b / 16, b % 16 * 16 + c / 4])
  {
  }

  /** Decoding what was encoded gives the bytes back, so the encoding loses
      nothing. */
  lemma {:induction false} Base64RoundTrip(bytes: seq<Byte>)
    ensures Base64Decode(Base64Encode(bytes)) == Some(bytes)
    decreases |bytes|
  {
    if |bytes| == 1 {
      DecodeOne(bytes);
    } else if |bytes| == 2 {
      DecodeTwo(bytes);
    } else if |bytes| >= 3 {
      Base64RoundTrip(bytes[3..]);
      DecodeLong(bytes);
    }
  }

  /** The encoding is padded base64 text. */
  lemma {:induction false} Base64EncodePadded(bytes: seq<Byte>)
    ensures IsPaddedBase64(Base64Encode(bytes))
    decreases |bytes|
  {
    if |bytes| == 1 {
      var x := bytes[0];
      Base64ValueOfChar(x / 4);
      Base64ValueOfChar(x % 4 * 16);
      assert Base64Encode(bytes) == [Base64Char(x / 4), Base64Char(x % 4 * 16), '=', '='];
    } else if |bytes| == 2 {
      var x, y := bytes[0], bytes[1];
      Base64ValueOfChar(x / 4);
      Base64ValueOfChar(x % 4 * 16 + y / 16);
      Base64ValueOfChar(y % 16 * 4);
      assert Base64Encode(bytes) == [Base64Char(x / 4), Base64Char(x % 4 * 16 + y / 16), Base64Char(y % 16 * 4), '='];
    } else if |bytes| >= 3 {
      Base64EncodePadded(bytes[3..]);
      var q := Quad(bytes[0], bytes[1], bytes[2]);
      QuadChars(bytes[0], bytes[1], bytes[2]);
      assert Base64Encode(bytes) == q + Base64Encode(bytes[3..]);
      PaddedPrepend(q, Base64Encode(bytes[3..]));
    }
  }

  lemma QuadChars(x: Byte, y: Byte, z: Byte)
    ensures forall k :: 0 <= k < 4 ==> IsBase64Char(Quad(x, y, z)[k])
  {
    Base64ValueOfChar(x / 4);
    Base64ValueOfChar(x % 4 * 16 + y / 16);
    Base64ValueOfChar(y % 16 * 4 + z / 64);
    Base64ValueOfChar(z % 64);
  }

  /** Four alphabet characters in front of padded text give padded text. */
  lemma PaddedPrepend(q: string, t: string)
    requires |q| == 4 && (forall k :: 0 <= k < 4 ==> IsBase64Char(q[k])) && IsPaddedBase64(t)
    ensures IsPaddedBase64(q + t)
  {
    var s := q + t;
    forall i | 0 <= i < |s|
      ensures IsBase64Char(s[i]) || (s[i] == '=' && i >= |s| - 2 && (i == |s| - 2 ==> s[|s| - 1] == '='))
    {
      if i >= 4 {
        assert s[i] == t[i - 4];
        if i == |s| - 2 {
          assert s[|s| - 1] == t[|t| - 1];
        }
      } else {
        assert s[i] == q[i];
      }
    }
  }

  /** `fmt.Sprintf("data:%s;base64,%s", contentType, encoded)`. */
  function DataUrl(contentType: string, bytes: seq<Byte>): (url: string)
    ensures |url| == 13 + |contentType| + |Base64Encode(bytes)| && url[..5] == "data:"
  {
    "data:" + contentType + ";base64," + Base64Encode(bytes)
  }

  /** A data URL holds the content type, then `;base64,`, then text that
      decodes to the bytes. */
  lemma DataUrlParts(contentType: string, bytes: seq<Byte>)
    ensures var url := DataUrl(contentType, bytes);
      && url[5..5 + |contentType|] == contentType
      && url[5 + |contentType|..13 + |contentType|] == ";base64,"
      && Base64Decode(url[13 + |contentType|..]) == Some(bytes)
  {
    Base64RoundTrip(bytes);
    var url := DataUrl(contentType, bytes);
    assert url[13 + |contentType|..] == Base64Encode(bytes);
  }
}

=== FILE: extract_oneof.dfy ===
/** backend/utils/extract_oneof.go: the map from lower-camel field name to
    the options of the field's `oneof=` validation rule, read off a struct
    by reflection. The reflected struct is the sequence of its fields. */
module ExtractOneOf {
  import opened Common
  import opened Text
  import opened ItemModel

  const OneOfMarker := "oneof="

  /** The argument of `ExtractOneOfOptions` as reflection sees it: the
      fields of the struct, and whether it was passed through a pointer. */
  datatype Reflected = Reflected(fields: seq<StructField>, isPointer: bool)

  /** Go field names are never empty. */
  predicate NamedFields(fields: seq<StructField>) {
    forall i :: 0 <= i < |fields| ==> |fields[i].name| > 0
  }

  /** The map key of a field: its name with the first character lower-cased. */
  function FieldKey(name: string): (key: string)
    requires |name| > 0
    ensures |key| == |name| && key[0] == LowerChar(name[0]) && key[1..] == name[1..]
  {
    Lower(name[..1]) + name[1..]
  }

  /** The options of a `oneof=` rule: the text between the first and the
      second `oneof=`, split on single spaces. */
  function TagOptions(tag: string): (options: seq<string>)
    requires Contains(tag, OneOfMarker)
    ensures |options| >= 1
    ensures Join(options, " ") == SecondField(tag, OneOfMarker)
    ensures forall k :: 0 <= k < |options| ==> ' ' !in options[k]
  {
    JoinSplit(SecondField(tag, OneOfMarker), ' ');
    Split(SecondField(tag, OneOfMarker), ' ')
  }

  /** The map the loop has built after the given fields: one entry per field
      whose tag holds a `oneof=` rule, a later field overwriting an earlier
      one with the same key. */
  function OneOfMap(fields: seq<StructField>): map<string, seq<string>>
    requires NamedFields(fields)
  {
    if |fields| == 0 then map[]
    else
      var prev := OneOfMap(fields[..|fields| - 1]);
      var f := fields[|fields| - 1];
      if Contains(f.validateTag, OneOfMarker) then prev[FieldKey(f.name) := TagOptions(f.validateTag)]
      else prev
  }

  /** Go `ExtractOneOfOptions(v)`; a pointer is followed to its struct, so
      the result depends on the fields only. */
  method ExtractOneOfOptions(v: Reflected) returns (options: map<string, seq<string>>)
    requires NamedFields(v.fields)
    ensures options == OneOfMap(v.fields)
  {
    options := map[];
    var fields := v.fields;
    var i := 0;
    while i < |fields|
      invariant 0 <= i <= |fields|
      invariant options == OneOfMap(fields[..i])
    {
      var field := fields[i];
      var tag := field.validateTag;
      var fieldName := FieldKey(field.name);
      assert fields[..i + 1][..i] == fields[..i];
      if Contains(tag, OneOfMarker) {
        options := options[fieldName := TagOptions(tag)];
      }
      i := i + 1;
    }
    assert fields[..|fields|] == fields;
  }

  /** Field `i` has a `oneof=` rule and the key `k`. */
  predicate OneOfFieldWithKey(fields: seq<StructField>, i: int, k: string)
    requires NamedFields(fields)
  {
    0 <= i < |fields| && Contains(fields[i].validateTag, OneOfMarker) && FieldKey(fields[i].name) == k
  }

  /** A key is present exactly when some field with that key has a
      `oneof=` rule. */
  lemma OneOfMapKeys(fields: seq<StructField>, k: string)
    requires NamedFields(fields)
    ensures k in OneOfMap(fields) <==> exists i :: OneOfFieldWithKey(fields, i, k)
  {
    if k in OneOfMap(fields) {
      var i := KeyWitness(fields, k);
    }
    if exists i :: OneOfFieldWithKey(fields, i, k) {
      var i :| OneOfFieldWithKey(fields, i, k);
      WitnessGivesKey(fields, i, k);
    }
  }

  /** A key of the map comes from some field with a `oneof=` rule. */
  lemma {:induction false} KeyWitness(fields: seq<StructField>, k: string) returns (i: int)
    requires NamedFields(fields) && k in OneOfMap(fields)
    ensures OneOfFieldWithKey(fields, i, k)
    decreases |fields|
  {
    var n := |fields| - 1;
    OneOfMapStepKeys(fields, k);
    if OneOfFieldWithKey(fields, n, k) {
      i := n;
    } else {
      i := KeyWitness(fields[..n], k);
      WitnessInPrefix(fields, i, k);
    }
  }

  /** A field with a `oneof=` rule puts its key in the map. */
  lemma {:induction false} WitnessGivesKey(fields: seq<StructField>, i: int, k: string)
    requires NamedFields(fields) && OneOfFieldWithKey(fields, i, k)
    ensures k in OneOfMap(fields)
    decreases |fields|
  {
    var n := |fields| - 1;
    OneOfMapStepKeys(fields, k);
    if i < n {
      WitnessInPrefix(fields, i, k);
      WitnessGivesKey(fields[..n], i, k);
    }
  }

  /** A field before the last is the same field in the prefix. */
  lemma WitnessInPrefix(fields: seq<StructField>, i: int, k: string)
    requires NamedFields(fields) && 0 <= i < |fields| - 1
    ensures NamedFields(fields[..|fields| - 1])
    ensures OneOfFieldWithKey(fields[..|fields| - 1], i, k) <==> OneOfFieldWithKey(fields, i, k)
  {
    assert fields[..|fields| - 1][i] == fields[i];
  }

  /** The last field adds its key when it has a `oneof=` rule, and no other key. */
  lemma OneOfMapStepKeys(fields: seq<StructField>, k: string)
    requires NamedFields(fields) && |fields| > 0
    ensures k in OneOfMap(fields) <==>
      k in OneOfMap(fields[..|fields| - 1]) || OneOfFieldWithKey(fields, |fields| - 1, k)
  {
  }

  /** The value under a key holds the options of the LAST field with that
      key and a `oneof=` rule. */
  lemma {:induction false} OneOfMapValue(fields: seq<StructField>, i: nat)
    requires NamedFields(fields)
    requires i < |fields| && Contains(fields[i].validateTag, OneOfMarker)
    requires forall j :: i < j < |fields| && Contains(fields[j].validateTag, OneOfMarker) ==>
      FieldKey(fields[j].name) != FieldKey(fields[i].name)
    ensures FieldKey(fields[i].name) in OneOfMap(fields)
    ensures OneOfMap(fields)[FieldKey(fields[i].name)] == TagOptions(fields[i].validateTag)
    decreases |fields|
  {
    var init := fields[..|fields| - 1];
    if i < |fields| - 1 {
      assert init[i] == fields[i];
      forall j | i < j < |init| && Contains(init[j].validateTag, OneOfMarker)
        ensures FieldKey(init[j].name) != FieldKey(init[i].name)
      {
        assert init[j] == fields[j];
      }
      OneOfMapValue(init, i);
    }
  }

  /** The tag `omitempty,oneof=o1 o2 ...` yields exactly the options o1, o2, ... */
  lemma TagOfOptions(options: seq<string>)
    requires |options| >= 1
    requires PlainWords(options)
    ensures Contains(OneOfTag(options), OneOfMarker)
    ensures TagOptions(OneOfTag(options)) == options
  {
    var rest := Join(options, " ");
    assert OneOfTag(options) == "omitempty," + OneOfMarker + rest;
    JoinAvoids(options, " ", '=');
    MarkerAfterPlainPrefix("omitempty,", rest);
    SplitJoin(options, ' ');
  }

  /** With no `=` before or after it, the one `oneof=` of `p + "oneof=" + r`
      is found right after `p`, and `r` is the text after it. */
  lemma MarkerAfterPlainPrefix(p: string, r: string)
    requires '=' !in p && '=' !in r
    ensures Contains(p + OneOfMarker + r, OneOfMarker)
    ensures SecondField(p + OneOfMarker + r, OneOfMarker) == r
  {
    var s := p + OneOfMarker + r;
    assert OccursAt(s, OneOfMarker, |p|);
    forall j: nat | j < |p|
      ensures !OccursAt(s, OneOfMarker, j)
    {
      if j + 5 < |p| {
        assert s[j + 5] == p[j + 5];
      } else {
        assert s[j + 5] == OneOfMarker[j + 5 - |p|];
      }
    }
    assert IndexOf(s, OneOfMarker) == Some(|p|);
    assert s[|p| + |OneOfMarker|..] == r;
    forall j | 0 <= j
      ensures !OccursAt(r, OneOfMarker, j)
    {
      assert j + 6 > |r| || r[j + 5] != '=';
    }
  }

  /** Options that can be written in a `oneof=` rule: no space, no `=`. */
  predicate PlainWords(options: seq<string>) {
    forall k :: 0 <= k < |options| ==> ' ' !in options[k] && '=' !in options[k]
  }

  /** A field whose name lower-cases to `key` and whose tag is
      `OneOfTag(options)` has key `key` and a `oneof=` rule listing
      exactly `options`. */
  lemma FieldOfOptions(f: StructField, key: string, options: seq<string>)
    requires |f.name| > 0 && |key| == |f.name|
    requires key[0] == LowerChar(f.name[0]) && key[1..] == f.name[1..]
    requires f.validateTag == OneOfTag(options)
    requires |options| >= 1 && PlainWords(options)
    ensures FieldKey(f.name) == key
    ensures Contains(f.validateTag, OneOfMarker)
    ensures TagOptions(f.validateTag) == options
  {
    assert key == [key[0]] + key[1..];
    assert FieldKey(f.name) == [FieldKey(f.name)[0]] + FieldKey(f.name)[1..];
    TagOfOptions(options);
  }

  /** Field `i` is named `names[i]` and tagged `OneOfTag(options[i])`. */
  predicate TaggedFields(fields: seq<StructField>, names: seq<string>, options: seq<seq<string>>) {
    && |fields| == |names| == |options|
    && forall i :: 0 <= i < |fields| ==> fields[i] == StructField(names[i], OneOfTag(options[i]))
  }

  /** `keys[i]` is the non-empty name `names[i]` with its first letter lower-cased. */
  predicate KeysOfNames(names: seq<string>, keys: seq<string>) {
    && |names| == |keys|
    && forall i :: 0 <= i < |names| ==>
      && |names[i]| > 0 && |keys[i]| == |names[i]|
      && keys[i][0] == LowerChar(names[i][0]) && keys[i][1..] == names[i][1..]
  }

  /** Every option list is non-empty and made of plain words. */
  predicate PlainLists(options: seq<seq<string>>) {
    forall i :: 0 <= i < |options| ==> |options[i]| >= 1 && PlainWords(options[i])
  }

  predicate DistinctKeys(keys: seq<string>) {
    forall i, j :: 0 <= i < j < |keys| ==> keys[i] != keys[j]
  }

  /** A struct whose fields all carry `oneof=` rules with distinct keys
      yields exactly those keys, each with the options of its rule. */
  lemma OneOfMapOfTags(fields: seq<StructField>, names: seq<string>, keys: seq<string>, options: seq<seq<string>>)
    requires TaggedFields(fields, names, options) && KeysOfNames(names, keys)
    requires PlainLists(options) && DistinctKeys(keys)
    ensures NamedFields(fields)
    ensures forall k :: k in OneOfMap(fields) <==> k in keys
    ensures forall i :: 0 <= i < |keys| ==> OneOfMap(fields)[keys[i]] == options[i]
  {
    forall i | 0 <= i < |fields|
      ensures |fields[i].name| > 0 && FieldKey(fields[i].name) == keys[i]
      ensures Contains(fields[i].validateTag, OneOfMarker)
      ensures TagOptions(fields[i].validateTag) == options[i]
    {
      FieldOfOptions(fields[i], keys[i], options[i]);
    }
    forall i | 0 <= i < |keys|
      ensures keys[i] in OneOfMap(fields) && OneOfMap(fields)[keys[i]] == options[i]
    {
      OneOfMapValue(fields, i);
    }
    forall k
      ensures k in OneOfMap(fields) <==> k in keys
    {
      OneOfMapKeys(fields, k);
      if k in keys {
        var i :| 0 <= i < |keys| && keys[i] == k;
        assert OneOfFieldWithKey(fields, i, k);
      }
    }
  }

  /** The keys of the fields of `Attributes`, in declaration order. */
  const AttributeKeys: seq<string> := ["condition", "size", "color", "shippingOptions",
    "listingType", "itemCategory", "ownershipHistory", "authenticity"]

  /** Each field of `Attributes` carries a `oneof=` rule over its option list. */
  lemma AttributesTagged()
    ensures TaggedFields(AttributesFields, AttributeNames, FieldOptions)
  {
  }

  /** Each attribute key is its field's name with the first letter lower-cased. */
  lemma AttributeKeysOfNames()
    ensures KeysOfNames(AttributeNames, AttributeKeys)
  {
  }

  lemma PlainCondition() ensures PlainWords(ConditionOptions) { }
  lemma PlainSize() ensures PlainWords(SizeOptions) { }
  lemma PlainColor() ensures PlainWords(ColorOptions) { }
  lemma PlainShipping() ensures PlainWords(ShippingOptions) { }
  lemma PlainListingType() ensures PlainWords(ListingTypeOptions) { }
  lemma PlainItemCategory() ensures PlainWords(ItemCategoryOptions) {
    var a := ["electronics", "homeAndGarden", "fashion", "beauty", "health"];
    var b := ["sports", "outdoors", "automotive", "books", "music"];
    var c := ["games", "toys", "collectibles", "art", "crafts"];
    var d := ["clothing", "baby", "beauty", "petSupplies", "travel"];
    PlainCategories1();
    PlainCategories2();
    PlainCategories3();
    PlainCategories4();
    PlainAppend(a, b);
    PlainAppend(a + b, c);
    PlainAppend(a + b + c, d);
    assert ItemCategoryOptions == a + b + c + d;
  }

  /** The twenty categories, five at a time. */
  lemma PlainCategories1() ensures PlainWords(["electronics", "homeAndGarden", "fashion", "beauty", "health"]) { }
  lemma PlainCategories2() ensures PlainWords(["sports", "outdoors", "automotive", "books", "music"]) { }
  lemma PlainCategories3() ensures PlainWords(["games", "toys", "collectibles", "art", "crafts"]) { }
  lemma PlainCategories4() ensures PlainWords(["clothing", "baby", "beauty", "petSupplies", "travel"]) { }

  lemma PlainAppend(a: seq<string>, b: seq<string>)
    requires PlainWords(a) && PlainWords(b)
    ensures PlainWords(a + b)
  {
    forall k | 0 <= k < |a + b|
      ensures ' ' !in (a + b)[k] && '=' !in (a + b)[k]
    {
      if k < |a| {
        assert (a + b)[k] == a[k];
      } else {
        assert (a + b)[k] == b[k - |a|];
      }
    }
  }
  lemma PlainOwnershipHistory() ensures PlainWords(OwnershipHistoryOptions) { }
  lemma PlainAuthenticity() ensures PlainWords(AuthenticityOptions) { }

  /** Every option list of `Attributes` can be written in a `oneof=` rule. */
  lemma PlainFieldOptions()
    ensures PlainLists(FieldOptions)
  {
    PlainCondition();
    PlainSize();
    PlainColor();
    PlainShipping();
    PlainListingType();
    PlainItemCategory();
    PlainOwnershipHistory();
    PlainAuthenticity();
  }

  lemma DistinctAttributeKeys()
    ensures DistinctKeys(AttributeKeys)
  {
  }

  /** The map `GetAttributes` serves, `ExtractOneOfOptions(models.Attributes{})`:
      exactly the eight attribute keys, each with the option list its
      validation rule enforces. */
  lemma AttributesOneOfOptions()
    ensures NamedFields(AttributesFields)
    ensures forall k :: k in OneOfMap(AttributesFields) <==> k in AttributeKeys
    ensures forall i :: 0 <= i < |AttributeKeys| ==> OneOfMap(AttributesFields)[AttributeKeys[i]] == FieldOptions[i]
  {
    AttributesTagged();
    AttributeKeysOfNames();
    PlainFieldOptions();
    DistinctAttributeKeys();
    OneOfMapOfTags(AttributesFields, AttributeNames, AttributeKeys, FieldOptions);
  }
}

=== FILE: home_header.dfy ===
/** The category chips of website/src/components/HomeHeader.tsx: which chips
    are shown, and how a click changes the selected categories. The chosen
    categories are a list; "All" stands for no category filter. */
module HomeHeader {
  import opened Text
  import opened TitleCase

  const All := "All"

  /** The labels that have an icon; a chip whose label has none is hidden. */
  const CategoryIconKeys: set<string> :=
    {"Electronics", "Clothing", "Books", "Home And Garden", "Sports", "Toys", "Automotive"}

  /** A chip is rendered when it is "All" or its label has an icon. */
  predicate ChipVisible(category: string) {
    ToTitleCaseWithSpaces(category) in CategoryIconKeys || category == All
  }

  /** The rendered chips, in order, for the item categories fetched from the
      server: "All" first, then the fetched categories whose label has an icon. */
  function VisibleChips(fetched: seq<string>): (chips: seq<string>)
    ensures |chips| > 0 && chips[0] == All
    ensures forall c :: c in chips <==> c == All || (c in fetched && ChipVisible(c))
  {
    [All] + VisibleOf(fetched)
  }

  function VisibleOf(categories: seq<string>): (r: seq<string>)
    ensures |r| <= |categories|
    ensures forall c :: c in r <==> c in categories && ChipVisible(c)
  {
    if |categories| == 0 then []
    else (if ChipVisible(categories[0]) then [categories[0]] else []) + VisibleOf(categories[1..])
  }

  /** The chips keep the order of the fetched categories: the chips of two
      lists in a row are the chips of the first followed by those of the
      second. */
  lemma {:induction false} VisibleOfAppend(a: seq<string>, b: seq<string>)
    ensures VisibleOf(a + b) == VisibleOf(a) + VisibleOf(b)
  {
    if |a| == 0 {
      assert a + b == b;
    } else {
      assert (a + b)[0] == a[0];
      assert (a + b)[1..] == a[1..] + b;
      VisibleOfAppend(a[1..], b);
    }
  }

  /** A category with an icon is shown as many times as it was fetched, and
      one without an icon never. */
  lemma {:induction false} VisibleOfCount(categories: seq<string>, c: string)
    ensures multiset(VisibleOf(categories))[c] == if ChipVisible(c) then multiset(categories)[c] else 0
  {
    if |categories| > 0 {
      VisibleOfCount(categories[1..], c);
      assert categories == [categories[0]] + categories[1..];
    }
  }

  /** `selectedCategories.filter((c) => c !== category)`. */
  function Without(selected: seq<string>, category: string): (r: seq<string>)
    ensures |r| <= |selected|
  {
    if |selected| == 0 then []
    else (if selected[0] == category then [] else [selected[0]]) + Without(selected[1..], category)
  }

  /** The `onClick` of a chip: a selected category is removed; an
      unselected "All" replaces the selection; any other category replaces a
      selection holding "All", and is otherwise appended. */
  function Toggle(selected: seq<string>, category: string): (r: seq<string>)
  {
    if category in selected then Without(selected, category)
    else if category == All then [All]
    else if All in selected then [category]
    else selected + [category]
  }

  /** Removing keeps every other category and drops every copy of this one. */
  lemma {:induction false} WithoutMembers(selected: seq<string>, category: string)
    ensures forall c :: c in Without(selected, category) <==> c in selected && c != category
  {
    if |selected| > 0 {
      WithoutMembers(selected[1..], category);
      assert selected == [selected[0]] + selected[1..];
    }
  }

  predicate NoDuplicates(s: seq<string>) {
    forall i, j :: 0 <= i < j < |s| ==> s[i] != s[j]
  }

  /** The selection the chips maintain: "All" is only ever selected alone. */
  predicate AllAlone(selected: seq<string>) {
    All in selected ==> selected == [All]
  }

  lemma {:induction false} WithoutNoDuplicates(s: seq<string>, x: string)
    requires NoDuplicates(s)
    ensures NoDuplicates(Without(s, x))
  {
    if |s| > 0 {
      WithoutNoDuplicates(s[1..], x);
      var rest := Without(s[1..], x);
      assert s[0] !in s[1..] by {
        forall k | 0 <= k < |s[1..]| ensures s[1..][k] != s[0] {
          assert s[1..][k] == s[k + 1];
        }
      }
      WithoutMembers(s[1..], x);
      assert s[0] !in rest;
    }
  }

  /** Clicking a chip keeps the selection free of duplicates and keeps
      "All" alone. */
  lemma ToggleKeepsSelection(selected: seq<string>, category: string)
    requires NoDuplicates(selected) && AllAlone(selected)
    ensures NoDuplicates(Toggle(selected, category)) && AllAlone(Toggle(selected, category))
  {
    if category in selected {
      WithoutNoDuplicates(selected, category);
      WithoutMembers(selected, category);
    }
  }

  /** The clicked chip's highlight flips. */
  lemma ToggleFlipsChip(selected: seq<string>, category: string)
    ensures category in Toggle(selected, category) <==> category !in selected
  {
    WithoutMembers(selected, category);
  }

  /** Without "All" involved, a click changes no other chip's highlight. */
  lemma ToggleLeavesOtherChips(selected: seq<string>, category: string, other: string)
    requires category != All && other != category && All !in selected
    ensures other in Toggle(selected, category) <==> other in selected
  {
    WithoutMembers(selected, category);
  }

  lemma {:induction false} WithoutAbsent(s: seq<string>, x: string)
    requires x !in s
    ensures Without(s, x) == s
  {
    if |s| > 0 {
      WithoutAbsent(s[1..], x);
      assert s == [s[0]] + s[1..];
    }
  }

  lemma {:induction false} WithoutAppend(a: seq<string>, b: seq<string>, x: string)
    ensures Without(a + b, x) == Without(a, x) + Without(b, x)
  {
    if |a| == 0 {
      assert a + b == b;
    } else {
      var h := if a[0] == x then [] else [a[0]];
      assert (a + b)[0] == a[0] && (a + b)[1..] == a[1..] + b;
      calc {
        Without(a + b, x);
        h + Without(a[1..] + b, x);
        { WithoutAppend(a[1..], b, x); }
        h + (Without(a[1..], x) + Without(b, x));
        (h + Without(a[1..], x)) + Without(b, x);
        Without(a, x) + Without(b, x);
      }
    }
  }

  /** Clicking an unselected category twice restores the selection, in order. */
  lemma ToggleTwice(selected: seq<string>, category: string)
    requires category != All && category !in selected && All !in selected
    ensures Toggle(Toggle(selected, category), category) == selected
  {
    WithoutAppend(selected, [category], category);
    WithoutAbsent(selected, category);
    assert Without([category], category) == [];
  }
}

=== FILE: item_model.dfy ===
/** The item records of backend/models/item.go: the eight optional
    attributes with their `validate:"omitempty,oneof=..."` tags, the location
    and the item itself. */
module ItemModel {
  import opened Common
  import opened Text

  datatype Attributes = Attributes(
    condition: string,
    size: string,
    color: string,
    shippingOptions: string,
    listingType: string,
    itemCategory: string,
    ownershipHistory: string,
    authenticity: string)

  /** The zero value `models.Attributes{}`: every attribute left empty. */
  const NoAttributes := Attributes("", "", "", "", "", "", "", "")

  datatype Location = Location(latitude: real, longitude: real)

  datatype Item = Item(
    id: string,
    userId: string,
    title: string,
    description: string,
    quantity: int,
    categories: seq<string>,
    status: string,
    location: Location,
    attachments: seq<string>,
    attributes: Attributes,
    createdAt: int,
    avgRating: real,
    numRatings: int)

  /** A struct field as reflection sees it: its Go name and its `validate` tag. */
  datatype StructField = StructField(name: string, validateTag: string)

  const ConditionOptions: seq<string> := ["new", "used", "refurbished"]
  const SizeOptions: seq<string> := ["small", "medium", "large"]
  const ColorOptions: seq<string> :=
    ["red", "green", "blue", "black", "white", "yellow", "orange", "purple", "pink", "brown"]
  const ShippingOptions: seq<string> := ["localPickup", "domesticShipping", "internationalShipping"]
  const ListingTypeOptions: seq<string> := ["sale", "rent", "exchange"]
  /** As declared: "beauty" is listed twice. */
  const ItemCategoryOptions: seq<string> := [
    "electronics", "homeAndGarden", "fashion", "beauty", "health", "sports", "outdoors",
    "automotive", "books", "music", "games", "toys", "collectibles", "art", "crafts",
    "clothing", "baby", "beauty", "petSupplies", "travel"]
  const OwnershipHistoryOptions: seq<string> := ["firstOwner", "secondOwner", "multipleOwners"]
  const AuthenticityOptions: seq<string> := ["authentic", "replica", "unauthorized"]


  /** The `validate` tag of an optional enumerated attribute: `omitempty`,
      then `oneof=` followed by the options separated by single spaces. */
  function OneOfTag(options: seq<string>): string {
    "omitempty,oneof=" + Join(options, " ")
  }

  /** The Go names of the fields of `models.Attributes`, in declaration order. */
  const AttributeNames: seq<string> := ["Condition", "Size", "Color", "ShippingOptions",
    "ListingType", "ItemCategory", "OwnershipHistory", "Authenticity"]

  /** Fields named `names`, the i-th tagged with a `oneof=` rule over `options[i]`. */
  function FieldsOf(names: seq<string>, options: seq<seq<string>>): (fields: seq<StructField>)
    requires |names| == |options|
    ensures |fields| == |names|
    ensures forall i :: 0 <= i < |fields| ==> fields[i] == StructField(names[i], OneOfTag(options[i]))
  {
    if |names| == 0 then []
    else [StructField(names[0], OneOfTag(options[0]))] + FieldsOf(names[1..], options[1..])
  }

  /** The fields of `models.Attributes`, in declaration order, with their tags. */
  const AttributesFields: seq<StructField> := FieldsOf(AttributeNames, FieldOptions)

  /** The validator's `omitempty,oneof=...` rule: empty, or one of the options. */
  predicate OneOf(value: string, options: seq<string>) {
    value == "" || value in options
  }

  /** What `validate.Struct` accepts of an `Attributes` value. */
  predicate ValidAttributes(a: Attributes) {
    && OneOf(a.condition, ConditionOptions)
    && OneOf(a.size, SizeOptions)
    && OneOf(a.color, ColorOptions)
    && OneOf(a.shippingOptions, ShippingOptions)
    && OneOf(a.listingType, ListingTypeOptions)
    && OneOf(a.itemCategory, ItemCategoryOptions)
    && OneOf(a.ownershipHistory, OwnershipHistoryOptions)
    && OneOf(a.authenticity, AuthenticityOptions)
  }

  /** What `validate.Struct` accepts of an `Item`: `Item` has no validate
      tags of its own, so only its nested `Attributes` are checked. */
  predicate ValidItem(item: Item) {
    ValidAttributes(item.attributes)
  }

  /** The field of `a` with the given Go name, as `reflect.Value.FieldByName`
      finds it; `None` for a name `Attributes` does not declare. */
  function FieldByName(a: Attributes, name: string): Option<string> {
    match name
    case "Condition" => Some(a.condition)
    case "Size" => Some(a.size)
    case "Color" => Some(a.color)
    case "ShippingOptions" => Some(a.shippingOptions)
    case "ListingType" => Some(a.listingType)
    case "ItemCategory" => Some(a.itemCategory)
    case "OwnershipHistory" => Some(a.ownershipHistory)
    case "Authenticity" => Some(a.authenticity)
    case _ => None
  }

  /** The attribute values in the order of the fields: the i-th is the
      field named by the i-th of `AttributeNames`. */
  function FieldValues(a: Attributes): (vs: seq<string>)
    ensures |vs| == |FieldOptions| == |AttributeNames|
    ensures forall i :: 0 <= i < |AttributeNames| ==> FieldByName(a, AttributeNames[i]) == Some(vs[i])
  {
    [a.condition, a.size, a.color, a.shippingOptions, a.listingType,
     a.itemCategory, a.ownershipHistory, a.authenticity]
  }

  /** The option lists in the order of the fields. */
  const FieldOptions: seq<seq<string>> := [
    ConditionOptions, SizeOptions, ColorOptions, ShippingOptions, ListingTypeOptions,
    ItemCategoryOptions, OwnershipHistoryOptions, AuthenticityOptions]

  /** Every attribute is optional: the empty value of each is accepted, so
      `Attributes{}` is valid. */
  lemma NoAttributesValid()
    ensures ValidAttributes(NoAttributes)
    ensures forall i :: 0 <= i < |FieldOptions| ==> OneOf(FieldValues(NoAttributes)[i], FieldOptions[i])
  {
  }

  /** Validity is the field-by-field `oneof` check of the eight attributes. */
  lemma ValidAttributesByField(a: Attributes)
    ensures ValidAttributes(a) <==>
      forall i :: 0 <= i < |FieldOptions| ==> OneOf(FieldValues(a)[i], FieldOptions[i])
  {
    if !ValidAttributes(a) {
      var vs := FieldValues(a);
      if !OneOf(a.condition, ConditionOptions) { assert !OneOf(vs[0], FieldOptions[0]); }
      else if !OneOf(a.size, SizeOptions) { assert !OneOf(vs[1], FieldOptions[1]); }
      else if !OneOf(a.color, ColorOptions) { assert !OneOf(vs[2], FieldOptions[2]); }
      else if !OneOf(a.shippingOptions, ShippingOptions) { assert !OneOf(vs[3], FieldOptions[3]); }
      else if !OneOf(a.listingType, ListingTypeOptions) { assert !OneOf(vs[4], FieldOptions[4]); }
      else if !OneOf(a.itemCategory, ItemCategoryOptions) { assert !OneOf(vs[5], FieldOptions[5]); }
      else if !OneOf(a.ownershipHistory, OwnershipHistoryOptions) { assert !OneOf(vs[6], FieldOptions[6]); }
      else { assert !OneOf(vs[7], FieldOptions[7]); }
    }
  }
}

=== FILE: item_service.dfy ===
/** The item requests of website/src/services/ItemService.ts: the path of a
    single item, and the query string of the item search. The coordinates
    and the radius are floating-point numbers in the website; they appear
    here as the text their `toString()` gives. */
module ItemService {
  import opened Common
  import opened Text
  import opened Numbers
  import Items

  const ItemsPrefix := "items/"

  /** `itemId.replace("items/", "")`: the first "items/" goes, wherever it is. */
  function StripItemsPrefix(itemId: string): (id: string)
    ensures !Contains(itemId, ItemsPrefix) ==> id == itemId
    ensures Contains(itemId, ItemsPrefix) ==> |id| == |itemId| - |ItemsPrefix|
  {
    ReplaceFirst(itemId, ItemsPrefix, "")
  }

  /** What goes is the first "items/" of the id, wherever it stands, and
      nothing else. */
  lemma StripItemsPrefixRemovesFirst(itemId: string, i: nat)
    requires OccursAt(itemId, ItemsPrefix, i)
    requires forall j :: 0 <= j < i ==> !OccursAt(itemId, ItemsPrefix, j)
    ensures StripItemsPrefix(itemId) == itemId[..i] + itemId[i + |ItemsPrefix|..]
  {
    assert IndexOf(itemId, ItemsPrefix) == Some(i);
  }

  /** The path `fetchItemById` reads and `deleteItem` deletes. */
  function ItemPath(itemId: string): (path: string)
    ensures |path| >= 7 && path[..7] == "/items/" && path[7..] == StripItemsPrefix(itemId)
  {
    "/items/" + StripItemsPrefix(itemId)
  }

  /** The id the server returns, `items/<n>`, becomes the route parameter
      `<n>`, from which the server rebuilds the same document id. */
  lemma DocumentIdRoundTrip(param: string)
    ensures StripItemsPrefix(Items.ItemDocumentId(param)) == param
    ensures Items.ItemDocumentId(StripItemsPrefix(Items.ItemDocumentId(param))) == Items.ItemDocumentId(param)
  {
    var id := Items.ItemDocumentId(param);
    assert id[0..0 + |ItemsPrefix|] == ItemsPrefix;
    assert IndexOf(id, ItemsPrefix) == Some(0);
    assert id[0 + |ItemsPrefix|..] == param;
  }

  /** The arguments of `fetchAllItems`; an omitted optional argument is
      `None`. */
  datatype ItemsRequest = ItemsRequest(
    latitude: string,
    longitude: string,
    radius: string,
    categories: seq<string>,
    status: string,
    limit: Option<int>,
    skip: Option<int>,
    sort: Option<string>,
    order: Option<string>,
    search: Option<string>)

  const DefaultLimit := 10
  const DefaultSkip := 0
  const DefaultSort := "title"
  const DefaultOrder := "asc"

  /** The parameter names, in the order of the record given to
      `URLSearchParams`. */
  const ParamNames := ["lat", "long", "radius", "categories", "status", "limit", "skip", "sort", "order", "search"]

  /** The parameters of the search, in order, with the defaults of the
      destructuring applied. */
  function QueryParams(req: ItemsRequest): (params: seq<(string, string)>)
    ensures |params| == |ParamNames|
    ensures forall k :: 0 <= k < |params| ==> params[k].0 == ParamNames[k]
  {
    [("lat", req.latitude),
     ("long", req.longitude),
     ("radius", req.radius),
     ("categories", Join(req.categories, ",")),
     ("status", req.status),
     ("limit", IntToString(req.limit.GetOr(DefaultLimit))),
     ("skip", IntToString(req.skip.GetOr(DefaultSkip))),
     ("sort", req.sort.GetOr(DefaultSort)),
     ("order", req.order.GetOr(DefaultOrder)),
     ("search", req.search.GetOr(""))]
  }

  /** Omitted arguments are sent as limit 10, skip 0, sort "title", order
      "asc" and an empty search; no category gives an empty value. */
  lemma QueryDefaults(req: ItemsRequest)
    requires req.limit.None? && req.skip.None? && req.sort.None? && req.order.None? && req.search.None?
    ensures QueryParams(req)[5] == ("limit", "10")
    ensures QueryParams(req)[6] == ("skip", "0")
    ensures QueryParams(req)[7..] == [("sort", "title"), ("order", "asc"), ("search", "")]
    ensures req.categories == [] ==> QueryParams(req)[3] == ("categories", "")
  {
    assert NatDigits(10) == "10";
    assert NatDigits(0) == "0";
  }

  /** The categories value splits back into the categories, when none is
      empty or holds a comma. */
  lemma CategoriesValueRoundTrip(categories: seq<string>)
    requires |categories| >= 1
    requires forall k :: 0 <= k < |categories| ==> ',' !in categories[k]
    ensures Split(Join(categories, ","), ',') == categories
  {
    SplitJoin(categories, ',');
  }

  /** What the server's `c.Query` sees: the first value of each name. */
  function QueryMap(params: seq<(string, string)>): (query: map<string, string>)
    ensures |params| > 0 ==> params[0].0 in query && query[params[0].0] == params[0].1
  {
    if |params| == 0 then map[]
    else QueryMap(params[1..])[params[0].0 := params[0].1]
  }

  /** A name that is not sent is not seen. */
  lemma {:induction false} QueryMapAbsent(params: seq<(string, string)>, name: string)
    requires forall i :: 0 <= i < |params| ==> params[i].0 != name
    ensures name !in QueryMap(params)
  {
    if |params| > 0 {
      assert forall i :: 0 <= i < |params[1..]| ==> params[1..][i] == params[i + 1];
      QueryMapAbsent(params[1..], name);
    }
  }

  /** The server reads a parameter's value at its first position. */
  lemma {:induction false} QueryMapAt(params: seq<(string, string)>, i: nat)
    requires i < |params|
    requires forall j :: 0 <= j < i ==> params[j].0 != params[i].0
    ensures params[i].0 in QueryMap(params) && QueryMap(params)[params[i].0] == params[i].1
  {
    if i > 0 {
      assert params[1..][i - 1] == params[i];
      QueryMapAt(params[1..], i - 1);
    }
  }

  lemma ParamNamesDistinct()
    ensures forall i, j :: 0 <= i < j < |ParamNames| ==> ParamNames[i] != ParamNames[j]
  {
    var n := ParamNames;
    assert n[0][..2] == "la" && n[1][..2] == "lo";
    assert n[3][..2] == "ca" && n[8][..2] == "or";
    assert n[4][..2] == "st" && n[6][..2] == "sk" && n[9][..2] == "se" && n[7][..2] == "so";
  }

  /** The search request asks for neither `attributes` nor `condition`. */
  lemma NoAttributeParams(req: ItemsRequest)
    ensures "attributes" !in QueryMap(QueryParams(req))
    ensures "condition" !in QueryMap(QueryParams(req))
  {
    var params := QueryParams(req);
    forall i | 0 <= i < |params| ensures params[i].0 != "attributes" && params[i].0 != "condition" {
      assert params[i].0 == ParamNames[i];
      assert ParamNames[i][0] != 'a' && |ParamNames[i]| != 9;
    }
    QueryMapAbsent(params, "attributes");
    QueryMapAbsent(params, "condition");
  }

  /** The server reads each sent parameter back with the value sent. */
  lemma QueryValues(req: ItemsRequest)
    ensures var query := QueryMap(QueryParams(req));
      && "lat" in query && query["lat"] == req.latitude
      && "long" in query && query["long"] == req.longitude
      && "radius" in query && query["radius"] == req.radius
      && "limit" in query && query["limit"] == IntToString(req.limit.GetOr(DefaultLimit))
      && "search" in query && query["search"] == req.search.GetOr("")
  {
    var params := QueryParams(req);
    ParamNamesDistinct();
    QueryMapAt(params, 0);
    QueryMapAt(params, 1);
    QueryMapAt(params, 2);
    QueryMapAt(params, 5);
    QueryMapAt(params, 9);
  }

  /** A search whose coordinates and radius are numbers is accepted by the
      server with the limit sent, with no attribute filter, and with a fuzzy
      search exactly when a search text was given. The radius is always
      sent, so the server's default of 10 never applies. */
  lemma SearchAcceptedByServer(req: ItemsRequest, decodedAttributes: Option<map<string, seq<string>>>)
    requires ParseDecimal(req.latitude).Some? && ParseDecimal(req.longitude).Some? && ParseDecimal(req.radius).Some?
    requires req.limit.Some? ==> -SafeIntegerBound <= req.limit.value <= SafeIntegerBound
    ensures var r := Items.ParseItemsQuery(QueryMap(QueryParams(req)), decodedAttributes);
      && r.Ok?
      && r.value.latitude == ParseDecimal(req.latitude).value
      && r.value.radius == ParseDecimal(req.radius).value
      && r.value.limit == req.limit.GetOr(DefaultLimit)
      && r.value.filters == {}
      && (r.value.fuzzySearch.Some? <==> req.search.GetOr("") != "")
  {
    QueryValues(req);
    NoAttributeParams(req);
    AtoiIntToString(req.limit.GetOr(DefaultLimit));
    var query := QueryMap(QueryParams(req));
    assert Items.QueryParam(query, "lat") == req.latitude;
    assert Items.QueryParam(query, "long") == req.longitude;
    assert Items.DefaultQueryParam(query, "radius", "10") == req.radius;
    assert Items.DefaultQueryParam(query, "limit", "10") == IntToString(req.limit.GetOr(DefaultLimit));
    assert Items.QueryParam(query, "attributes") == "";
    assert Items.QueryParam(query, "condition") == "";
    assert Items.Filters("", map[]) == {};
  }
}

=== FILE: items.dfy ===
/** backend/api/items.go over the items collection and the images stored
    with each item: adding an item with its images, reading one or a page of
    them with their images as data URLs, deleting one, the query parameters
    of the search, and the attribute vocabulary. */
module Items {
  import opened Common
  import opened Text
  import opened Numbers
  import opened ItemModel
  import opened ExtractOneOf
  import opened Encoding
  import opened Uploads

  /** The multipart form of `POST /items`; `quantity` is absent when the
      form has no such field. */
  datatype AddItemRequest = AddItemRequest(
    title: string,
    description: string,
    quantity: Option<int>,
    categories: seq<string>,
    location: Location,
    attributes: Attributes)

  const Available := "available"

  const Unauthorized := Failure(StatusUnauthorized, "Unauthorized")
  /** The validator's refusal; the response carries the validator's own
      text under the key "validation error". */
  const ValidationError := Failure(StatusBadRequest, "validation error")
  const NoImages := Failure(StatusBadRequest, "At least 1 image is required")
  const AttachmentStoreFailed := Failure(StatusInternalServerError, "Failed to store attachment")
  const AttachmentNamesFailed := Failure(StatusInternalServerError, "Failed to get attachment names")
  const ItemDeleted := "Item deleted"
  const InvalidLatitude := Failure(StatusBadRequest, "Invalid latitude")
  const InvalidLongitude := Failure(StatusBadRequest, "Invalid longitude")
  const InvalidLimit := Failure(StatusBadRequest, "Invalid limit")
  const InvalidAttributesFormat := Failure(StatusBadRequest, "Invalid attributes format")

  /** The document id `GetItem` and `DeleteItem` address for the route parameter. */
  function ItemDocumentId(param: string): (id: string)
    ensures |id| == |"items/"| + |param| && id[..6] == "items/" && id[6..] == param
  {
    "items/" + param
  }

  predicate AllImages(files: seq<Upload>) {
    forall k :: 0 <= k < |files| ==> IsImageFile(files[k].filename)
  }

  predicate DistinctFilenames(files: seq<Upload>) {
    forall j, k :: 0 <= j < k < |files| ==> files[j].filename != files[k].filename
  }

  /** The attachments stored for the uploaded files, in upload order. */
  function AttachmentsOfFiles(files: seq<Upload>): (stored: seq<Attachment>)
    requires AllImages(files)
    ensures |stored| == |files|
    ensures forall k :: 0 <= k < |files| ==> stored[k] == AttachmentOf(files[k])
  {
    seq(|files|, k requires 0 <= k < |files| => AttachmentOf(files[k]))
  }

  /** The data URLs of the stored attachments that can be read, in order;
      `failed` names those whose stream cannot be opened or read. */
  function DataOf(stored: seq<Attachment>, failed: set<string>): (data: seq<string>)
    ensures |data| <= |stored|
  {
    if |stored| == 0 then []
    else
      var last := stored[|stored| - 1];
      DataOf(stored[..|stored| - 1], failed)
      + (if last.name in failed then [] else [DataUrl(last.contentType, last.bytes)])
  }

  /** With nothing failing there is one data URL per attachment, in order. */
  lemma {:induction false} DataOfAllReadable(stored: seq<Attachment>)
    ensures |DataOf(stored, {})| == |stored|
    ensures forall k :: 0 <= k < |stored| ==> DataOf(stored, {})[k] == DataUrl(stored[k].contentType, stored[k].bytes)
  {
    if |stored| > 0 {
      DataOfAllReadable(stored[..|stored| - 1]);
    }
  }

  /** Reading a list in two parts reads each part, in order. */
  lemma {:induction false} DataOfAppend(a: seq<Attachment>, b: seq<Attachment>, failed: set<string>)
    ensures DataOf(a + b, failed) == DataOf(a, failed) + DataOf(b, failed)
    decreases |b|
  {
    if |b| == 0 {
      assert a + b == a;
    } else {
      var n := |b| - 1;
      assert (a + b)[..|a + b| - 1] == a + b[..n];
      DataOfAppend(a, b[..n], failed);
    }
  }

  /** Every readable attachment is kept, in its place: its data URL
      follows those of the attachments before it and precedes those of
      the attachments after it. */
  lemma DataOfKeepsReadable(stored: seq<Attachment>, failed: set<string>, k: nat)
    requires k < |stored| && stored[k].name !in failed
    ensures DataOf(stored, failed) ==
      DataOf(stored[..k], failed) + [DataUrl(stored[k].contentType, stored[k].bytes)] + DataOf(stored[k + 1..], failed)
  {
    assert stored == stored[..k] + [stored[k]] + stored[k + 1..];
    DataOfAppend(stored[..k] + [stored[k]], stored[k + 1..], failed);
    DataOfAppend(stored[..k], [stored[k]], failed);
    assert [stored[k]][..0] == [];
  }

  /** An unreadable attachment leaves no trace. */
  lemma DataOfSkipsFailed(stored: seq<Attachment>, failed: set<string>, k: nat)
    requires k < |stored| && stored[k].name in failed
    ensures DataOf(stored, failed) == DataOf(stored[..k], failed) + DataOf(stored[k + 1..], failed)
  {
    assert stored == stored[..k] + [stored[k]] + stored[k + 1..];
    DataOfAppend(stored[..k] + [stored[k]], stored[k + 1..], failed);
    DataOfAppend(stored[..k], [stored[k]], failed);
    assert [stored[k]][..0] == [];
  }

  /** Every data URL is that of a readable stored attachment. */
  lemma {:induction false} DataOfEntries(stored: seq<Attachment>, failed: set<string>, j: nat)
    requires j < |DataOf(stored, failed)|
    ensures exists k :: (0 <= k < |stored| && stored[k].name !in failed
      && DataOf(stored, failed)[j] == DataUrl(stored[k].contentType, stored[k].bytes))
  {
    var n := |stored| - 1;
    var prev := DataOf(stored[..n], failed);
    if j < |prev| {
      DataOfEntries(stored[..n], failed, j);
      var k :| 0 <= k < n && stored[..n][k].name !in failed
        && prev[j] == DataUrl(stored[..n][k].contentType, stored[..n][k].bytes);
      assert stored[k] == stored[..n][k];
    } else {
      assert DataOf(stored, failed)[j] == DataUrl(stored[n].contentType, stored[n].bytes);
    }
  }

  /** Go `getItemAttachments(c, count, item, session)` on the attachments
      `stored` of the item: the first `count` are read, all of them when
      `count` is -1 or larger than their number, and those that fail to
      read are skipped. A `count` below -1 never meets the loop index, so
      it reads all of them too. */
  method GetItemAttachments(stored: seq<Attachment>, count: int, failed: set<string>) returns (data: seq<string>)
    ensures 0 <= count <= |stored| ==> data == DataOf(stored[..count], failed)
    ensures (count < 0 || count > |stored|) ==> data == DataOf(stored, failed)
  {
    var max := count;
    if count == -1 || count > |stored| {
      max := |stored|;
    }
    data := [];
    for i := 0 to |stored|
      invariant data == DataOf(stored[..i], failed)
      invariant 0 <= max <= |stored| ==> i <= max
    {
      if i == max {
        break;
      }
      var attachment := stored[i];
      assert stored[..i + 1][..i] == stored[..i];
      if attachment.name in failed {
        continue;
      }
      data := data + [DataUrl(attachment.contentType, attachment.bytes)];
    }
    assert stored[..|stored|] == stored;
  }

  /** The position of a pending attachment called `name`, searching from
      the most recent one. */
  function FindName(stored: seq<Attachment>, name: string): (r: Option<nat>)
    ensures r.Some? ==> r.value < |stored| && stored[r.value].name == name
    ensures r.None? ==> forall k :: 0 <= k < |stored| ==> stored[k].name != name
  {
    if |stored| == 0 then None
    else if stored[|stored| - 1].name == name then Some(|stored| - 1)
    else FindName(stored[..|stored| - 1], name)
  }

  /** Names distinct among the first `n` files. */
  predicate DistinctUpTo(files: seq<Upload>, n: nat)
    requires n <= |files|
  {
    forall j, k :: 0 <= j < k < n ==> files[j].filename != files[k].filename
  }

  /** A name not yet pending keeps the pending names distinct. */
  lemma NewNameDistinct(files: seq<Upload>, stored: seq<Attachment>, i: nat)
    requires AllImages(files) && i < |files| && |stored| == i
    requires stored == AttachmentsOfFiles(files)[..i]
    requires DistinctUpTo(files, i)
    requires FindName(stored, files[i].filename).None?
    ensures DistinctUpTo(files, i + 1)
  {
    forall k | 0 <= k < i
      ensures files[k].filename != files[i].filename
    {
      assert stored[k].name == files[k].filename;
    }
  }

  /** The first loop of `AddItem`: every file must have a whitelisted
      extension. */
  method CheckImages(files: seq<Upload>) returns (ok: bool)
    ensures ok == AllImages(files)
  {
    for i := 0 to |files|
      invariant forall k :: 0 <= k < i ==> IsImageFile(files[k].filename)
    {
      if !IsImageFile(files[i].filename) {
        return false;
      }
    }
    return true;
  }

  /** The second loop of `AddItem`: the attachments collected in the session,
      one per file; storing a second attachment under a name already
      pending fails. */
  method StoreAttachments(files: seq<Upload>) returns (pending: Option<seq<Attachment>>)
    requires AllImages(files)
    ensures DistinctFilenames(files) ==> pending == Some(AttachmentsOfFiles(files))
    ensures !DistinctFilenames(files) ==> pending.None?
  {
    ghost var all := AttachmentsOfFiles(files);
    var stored: seq<Attachment> := [];
    for i := 0 to |files|
      invariant stored == all[..i]
      invariant DistinctUpTo(files, i)
    {
      var found := FindName(stored, files[i].filename);
      if found.Some? {
        assert files[found.value].filename == files[i].filename;
        return None;
      }
      NewNameDistinct(files, stored, i);
      assert all[..i + 1] == all[..i] + [all[i]];
      stored := stored + [AttachmentOf(files[i])];
    }
    assert all[..|files|] == all;
    pending := Some(stored);
  }

  /** The items collection by document id, and the images stored with each. */
  class ItemStore {
    var items: map<string, Item>
    var attachments: map<string, seq<Attachment>>

    /** Documents carry their own id and every stored item passed validation. */
    ghost predicate Valid()
      reads this
    {
      forall id :: id in items ==> items[id].id == id && ValidItem(items[id])
    }

    constructor()
      ensures items == map[] && attachments == map[] && Valid()
    {
      items := map[];
      attachments := map[];
    }

    function AttachmentsOf(id: string): seq<Attachment>
      reads this
    {
      if id in attachments then attachments[id] else []
    }

    /** `POST /items`. The item is validated and every file checked before
        anything is stored; the item is saved before its images, so a second
        file with the same name leaves a stored item without images. `newId`
        is the id the database assigns, `now` the server clock. */
    method AddItem(auth: Option<string>, req: AddItemRequest, files: seq<Upload>, newId: string, now: int)
      returns (r: Result<string>)
      requires Valid() && newId !in items
      modifies this
      ensures Valid()
      ensures auth.None? ==> r == Err(Unauthorized) && items == old(items) && attachments == old(attachments)
      ensures auth.Some? && !ValidAttributes(req.attributes) ==>
        r == Err(ValidationError) && items == old(items) && attachments == old(attachments)
      ensures auth.Some? && ValidAttributes(req.attributes) && !AllImages(files) ==>
        r == Err(NotAnImage) && items == old(items) && attachments == old(attachments)
      ensures auth.Some? && ValidAttributes(req.attributes) && |files| == 0 ==>
        r == Err(NoImages) && items == old(items) && attachments == old(attachments)
      ensures auth.Some? && ValidAttributes(req.attributes) && AllImages(files) && |files| > 0 ==>
        && items == old(items)[newId := Item(newId, auth.value, req.title, req.description, req.quantity.GetOr(1),
                                             req.categories, Available, req.location, [], req.attributes, now, 0.0, 0)]
        && (DistinctFilenames(files) ==>
              attachments == old(attachments)[newId := AttachmentsOfFiles(files)] && r == Ok(newId))
        && (!DistinctFilenames(files) ==> attachments == old(attachments) && r == Err(AttachmentStoreFailed))
    {
      if auth.None? {
        return Err(Unauthorized);
      }
      var quantity: int;
      if req.quantity.Some? {
        quantity := req.quantity.value;
      } else {
        quantity := 1;
      }
      var newItem := Item(newId, auth.value, req.title, req.description, quantity,
                          req.categories, Available, req.location, [], req.attributes, now, 0.0, 0);
      if !ValidItem(newItem) {
        return Err(ValidationError);
      }
      var allImages := CheckImages(files);
      if !allImages {
        return Err(NotAnImage);
      }
      if |files| == 0 {
        return Err(NoImages);
      }
      items := items[newId := newItem];
      var pending := StoreAttachments(files);
      if pending.None? {
        return Err(AttachmentStoreFailed);
      }
      attachments := attachments[newId := pending.value];
      r := Ok(newId);
    }

    /** `GET /items/:id`: the item `items/<param>` with all its readable
        images as data URLs. Loading a missing document gives a nil item
        and no error, so the `Item not found` branch is never taken: the
        nil item reaches `GetNames`, and the request ends in a 500. */
    method GetItem(param: string, failed: set<string>) returns (r: Result<Item>)
      ensures ItemDocumentId(param) !in items ==> r.IsStatus(StatusInternalServerError)
      ensures ItemDocumentId(param) in items ==>
        var id := ItemDocumentId(param);
        r == Ok(items[id].(attachments := DataOf(AttachmentsOf(id), failed)))
    {
      var id := ItemDocumentId(param);
      if id !in items {
        return Err(AttachmentNamesFailed);
      }
      var item := items[id];
      var data := GetItemAttachments(AttachmentsOf(id), -1, failed);
      item := item.(attachments := data);
      r := Ok(item);
    }

    /** `DELETE /items/:id`: only the owner may delete the item, and its
        images go with it. A missing document loads as a nil item, so a
        signed-in caller then panics on `item.UserID`. */
    method DeleteItem(param: string, auth: Option<string>) returns (r: Result<string>)
      requires Valid()
      modifies this
      ensures Valid()
      ensures auth.None? ==> r == Err(Unauthorized) && items == old(items) && attachments == old(attachments)
      ensures auth.Some? && ItemDocumentId(param) !in old(items) ==>
        r == Err(Recovered) && items == old(items) && attachments == old(attachments)
      ensures auth.Some? && ItemDocumentId(param) in old(items) && old(items)[ItemDocumentId(param)].userId != auth.value ==>
        r == Err(Unauthorized) && items == old(items) && attachments == old(attachments)
      ensures ItemDocumentId(param) in old(items) && auth.Some? && old(items)[ItemDocumentId(param)].userId == auth.value ==>
        && r == Ok(ItemDeleted)
        && items == old(items) - {ItemDocumentId(param)}
        && attachments == old(attachments) - {ItemDocumentId(param)}
    {
      var id := ItemDocumentId(param);
      if auth.None? {
        return Err(Unauthorized);
      }
      if id !in items {
        return Err(Recovered);
      }
      if items[id].userId != auth.value {
        return Err(Unauthorized);
      }
      items := items - {id};
      attachments := attachments - {id};
      r := Ok(ItemDeleted);
    }

    /** The end of `GET /items`: each item the search returned gets its
        first readable image, if any. */
    method AttachFirstImages(found: seq<Item>, failed: set<string>) returns (page: seq<Item>)
      ensures |page| == |found|
      ensures forall k :: 0 <= k < |found| ==>
        page[k] == found[k].(attachments := DataOf(FirstOf(AttachmentsOf(found[k].id)), failed))
    {
      page := [];
      for i := 0 to |found|
        invariant |page| == i
        invariant forall k :: 0 <= k < i ==>
          page[k] == found[k].(attachments := DataOf(FirstOf(AttachmentsOf(found[k].id)), failed))
      {
        var item := found[i];
        var data := GetItemAttachments(AttachmentsOf(item.id), 1, failed);
        page := page + [item.(attachments := data)];
      }
    }
  }

  /** The attachments `getItemAttachments` reads with a count of 1. */
  function FirstOf(stored: seq<Attachment>): (first: seq<Attachment>)
    ensures first <= stored
    ensures |first| == if |stored| == 0 then 0 else 1
  {
    if |stored| == 0 then [] else stored[..1]
  }

  /** A page of search results shows at most one image per item. */
  lemma AtMostOneImage(stored: seq<Attachment>, failed: set<string>)
    ensures |DataOf(FirstOf(stored), failed)| <= 1
  {
  }

  /** `GET /items/attributes`: the options of every attribute, read off the
      `oneof=` tags of `models.Attributes`. */
  method GetAttributes() returns (options: map<string, seq<string>>)
    ensures forall k :: k in options <==> k in AttributeKeys
    ensures forall i :: 0 <= i < |AttributeKeys| ==> options[AttributeKeys[i]] == FieldOptions[i]
  {
    AttributesOneOfOptions();
    options := ExtractOneOfOptions(Reflected(AttributesFields, false));
  }

  /** The parsed parameters of `GET /items` the database query is built from. */
  datatype ItemsQuery = ItemsQuery(
    latitude: real,
    longitude: real,
    radius: real,
    limit: int,
    filters: set<(string, string)>,
    fuzzySearch: Option<string>)

  /** Gin `c.Query(key)`: the value, or "" when absent. */
  function QueryParam(query: map<string, string>, key: string): string {
    if key in query then query[key] else ""
  }

  /** Gin `c.DefaultQuery(key, default)`: the value when present, even empty. */
  function DefaultQueryParam(query: map<string, string>, key: string, default: string): string {
    if key in query then query[key] else default
  }

  /** `f` is the condition filter, or the filter on a value listed under
      its key in the `attributes` JSON. */
  predicate IsFilterOf(condition: string, attributes: map<string, seq<string>>, f: (string, string)) {
    || (condition != "" && f == ("attributes.Condition", condition))
    || (|f.0| >= 11 && f.0[..11] == "attributes." && f.0[11..] in attributes && f.1 in attributes[f.0[11..]])
  }

  /** The equality filters of the query: `attributes.Condition` for a
      `condition` parameter, and `attributes.<key>` for each value listed
      under each key of the `attributes` JSON. All must hold. */
  function Filters(condition: string, attributes: map<string, seq<string>>): (fs: set<(string, string)>)
    ensures condition != "" ==> ("attributes.Condition", condition) in fs
    ensures forall k, v :: k in attributes && v in attributes[k] ==> ("attributes." + k, v) in fs
    ensures forall f :: f in fs ==> IsFilterOf(condition, attributes, f)
  {
    (if condition != "" then {("attributes.Condition", condition)} else {})
    + set k, v | k in attributes && v in attributes[k] :: ("attributes." + k, v)
  }

  /** The fuzziness of the title search. */
  const Fuzziness := "0.99"

  /** The fuzzy search term for `search`: `fmt.Sprintf("%s~%s", search + " ",
      fuzziness)`, the term, a space, a tilde and the fuzziness. */
  function FuzzyTerm(search: string): (term: string)
    ensures |term| == |search| + 6
    ensures term[..|search|] == search && term[|search|..] == " ~0.99"
  {
    (search + " ") + "~" + Fuzziness
  }

  /** The parameter handling of `GET /items`. `decodedAttributes` is what
      `json.Unmarshal` makes of the `attributes` parameter (`None` when it
      is not a JSON object of string lists); it is read only when that
      parameter is not empty. */
  function ParseItemsQuery(query: map<string, string>, decodedAttributes: Option<map<string, seq<string>>>)
    : (r: Result<ItemsQuery>)
    ensures ParseDecimal(QueryParam(query, "lat")).None? ==> r == Err(InvalidLatitude)
    ensures ParseDecimal(QueryParam(query, "lat")).Some? && ParseDecimal(QueryParam(query, "long")).None? ==>
      r == Err(InvalidLongitude)
    ensures r.Ok? ==>
      && ParseDecimal(QueryParam(query, "lat")) == Some(r.value.latitude)
      && ParseDecimal(QueryParam(query, "long")) == Some(r.value.longitude)
      && ParseDecimal(DefaultQueryParam(query, "radius", "10")) == Some(r.value.radius)
      && Atoi(DefaultQueryParam(query, "limit", "10")) == ParsedInt(r.value.limit, false)
  {
    match ParseDecimal(QueryParam(query, "lat"))
    case None => Err(InvalidLatitude)
    case Some(lat) =>
      match ParseDecimal(QueryParam(query, "long"))
      case None => Err(InvalidLongitude)
      case Some(long) =>
        match ParseDecimal(DefaultQueryParam(query, "radius", "10"))
        // the radius check reports the longitude message
        case None => Err(InvalidLongitude)
        case Some(radius) =>
          var limit := Atoi(DefaultQueryParam(query, "limit", "10"));
          if limit.failed then Err(InvalidLimit)
          else
            var raw := QueryParam(query, "attributes");
            if raw != "" && decodedAttributes.None? then Err(InvalidAttributesFormat)
            else
              var attributes := if raw != "" then decodedAttributes.value else map[];
              var search := QueryParam(query, "search");
              Ok(ItemsQuery(lat, long, radius, limit.value,
                            Filters(QueryParam(query, "condition"), attributes),
                            if search != "" then Some(FuzzyTerm(search)) else None))
  }

  /** A bad radius is reported with the longitude message, and a bad limit
      or attributes value with their own. */
  lemma ParseItemsQueryErrors(query: map<string, string>, decodedAttributes: Option<map<string, seq<string>>>)
    requires ParseDecimal(QueryParam(query, "lat")).Some? && ParseDecimal(QueryParam(query, "long")).Some?
    ensures ParseDecimal(DefaultQueryParam(query, "radius", "10")).None? ==>
      ParseItemsQuery(query, decodedAttributes) == Err(InvalidLongitude)
    ensures ParseDecimal(DefaultQueryParam(query, "radius", "10")).Some? && Atoi(DefaultQueryParam(query, "limit", "10")).failed ==>
      ParseItemsQuery(query, decodedAttributes) == Err(InvalidLimit)
    ensures (ParseDecimal(DefaultQueryParam(query, "radius", "10")).Some? && !Atoi(DefaultQueryParam(query, "limit", "10")).failed
      && QueryParam(query, "attributes") != "" && decodedAttributes.None?) ==>
      ParseItemsQuery(query, decodedAttributes) == Err(InvalidAttributesFormat)
  {
  }

  /** A query whose four numbers parse, and whose `attributes` value is
      absent or decoded, is accepted: the filters come from the condition and
      the decoded attributes, and the search is fuzzy exactly when a search
      text was given. */
  lemma ParseItemsQueryAccepts(query: map<string, string>, decodedAttributes: Option<map<string, seq<string>>>)
    requires ParseDecimal(QueryParam(query, "lat")).Some? && ParseDecimal(QueryParam(query, "long")).Some?
    requires ParseDecimal(DefaultQueryParam(query, "radius", "10")).Some?
    requires !Atoi(DefaultQueryParam(query, "limit", "10")).failed
    requires QueryParam(query, "attributes") == "" || decodedAttributes.Some?
    ensures ParseItemsQuery(query, decodedAttributes).Ok?
    ensures ParseItemsQuery(query, decodedAttributes).value.filters ==
      Filters(QueryParam(query, "condition"),
              if QueryParam(query, "attributes") != "" then decodedAttributes.value else map[])
    ensures ParseItemsQuery(query, decodedAttributes).value.fuzzySearch ==
      if QueryParam(query, "search") != "" then Some(FuzzyTerm(QueryParam(query, "search"))) else None
  {
  }

  /** Without `radius` and `limit` parameters the search covers 10 miles and
      returns at most 10 items. */
  lemma ItemsQueryDefaults(query: map<string, string>, decodedAttributes: Option<map<string, seq<string>>>)
    requires ParseDecimal(QueryParam(query, "lat")).Some? && ParseDecimal(QueryParam(query, "long")).Some?
    requires "radius" !in query && "limit" !in query && "attributes" !in query
    ensures ParseItemsQuery(query, decodedAttributes).Ok?
    ensures ParseItemsQuery(query, decodedAttributes).value.radius == 10.0
    ensures ParseItemsQuery(query, decodedAttributes).value.limit == 10
  {
    RadiusDefault();
    LimitDefault();
  }

  lemma RadiusDefault()
    ensures ParseDecimal("10") == Some(10.0)
  {
    assert NatDigits(10) == "10";
    ParseDecimalOfDigits(10);
  }

  lemma LimitDefault()
    ensures Atoi("10") == ParsedInt(10, false)
  {
    assert IntToString(10) == "10";
    AtoiIntToString(10);
  }
}

=== FILE: message_panel.dfy ===
/** The chat panel of website/src/components/MessagePanel.tsx: the messages
    shown, the draft being written, when a message gets the sender header,
    and sending. Times are integer milliseconds of the browser clock. */
module MessagePanel {
  import opened Common
  import opened Text
  import opened Messages

  /** Twenty minutes, in milliseconds. */
  const HeaderGap := 20 * 60 * 1000

  /** `shouldShowProfilePicture`: the first message always gets the header,
      a later one when it was sent more than twenty minutes, as a real
      number of minutes, after the one before. */
  function ShowsHeader(messages: seq<Message>, index: nat): (shown: bool)
    requires index < |messages|
    ensures index == 0 ==> shown
  {
    if index == 0 then true
    else (messages[index].sentAt - messages[index - 1].sentAt) as real / (1000.0 * 60.0) > 20.0
  }

  /** The minutes test is a strict test on milliseconds: a gap of exactly
      twenty minutes gets no header, one millisecond more does. */
  lemma HeaderGapInMilliseconds(messages: seq<Message>, index: nat)
    requires 0 < index < |messages|
    ensures ShowsHeader(messages, index) <==> messages[index].sentAt - messages[index - 1].sentAt > HeaderGap
  {
    var d := messages[index].sentAt - messages[index - 1].sentAt;
    assert d as real / 60000.0 > 20.0 <==> d as real > 1200000.0;
  }

  /** The header depends on the two times only, never on who sent them. */
  lemma HeaderIgnoresSenders(a: seq<Message>, b: seq<Message>, index: nat)
    requires |a| == |b| && index < |a|
    requires forall i :: 0 <= i < |a| ==> a[i].sentAt == b[i].sentAt
    ensures ShowsHeader(a, index) == ShowsHeader(b, index)
  {
  }

  /** Appending a message changes no earlier header. */
  lemma HeaderStableUnderAppend(messages: seq<Message>, m: Message, index: nat)
    requires index < |messages|
    ensures ShowsHeader(messages + [m], index) == ShowsHeader(messages, index)
  {
    if index > 0 {
      assert (messages + [m])[index] == messages[index];
      assert (messages + [m])[index - 1] == messages[index - 1];
    }
  }

  /** The state of the panel for the conversation with one other user. */
  class Panel {
    var messages: seq<Message>
    var draft: string

    constructor()
      ensures messages == [] && draft == ""
    {
      messages := [];
      draft := "";
    }

    /** The "No messages yet." view is shown exactly when there are none. */
    predicate ShowsEmptyState()
      reads this
    {
      |messages| == 0
    }

    /** The history request of the effect: without a logged-in user or a
        route user nothing is fetched; a failed request leaves the list. */
    method LoadHistory(user: Option<string>, routeUser: string, fetched: Option<seq<Message>>)
      modifies this
      ensures (user.None? || routeUser == "" || fetched.None?) ==> messages == old(messages)
      ensures user.Some? && routeUser != "" && fetched.Some? ==> messages == fetched.value
      ensures draft == old(draft)
    {
      if user.None? || routeUser == "" {
        return;
      }
      if fetched.Some? {
        messages := fetched.value;
      }
    }

    /** `sendMessage`: a draft that is empty after trimming sends nothing.
        Otherwise the untrimmed draft is posted; on success it is appended
        with the browser time `now` and the draft is cleared, on failure
        nothing changes. `sent` is the request body posted, if any. */
    method SendMessage(currentUser: string, routeUser: string, now: int, postSucceeds: bool)
      returns (sent: Option<Message>)
      modifies this
      ensures Trim(old(draft)) == "" ==> sent.None? && messages == old(messages) && draft == old(draft)
      ensures Trim(old(draft)) != "" ==> sent == Some(Message(currentUser, routeUser, old(draft), now))
      ensures Trim(old(draft)) != "" && postSucceeds ==> messages == old(messages) + [sent.value] && draft == ""
      ensures Trim(old(draft)) != "" && !postSucceeds ==> messages == old(messages) && draft == old(draft)
    {
      if Trim(draft) == "" {
        return None;
      }
      var messageToSend := Message(currentUser, routeUser, draft, now);
      sent := Some(messageToSend);
      if postSucceeds {
        messages := messages + [messageToSend];
        draft := "";
      }
    }
  }

  /** A draft that is not blank is not empty, so the server's check that the
      text is present never refuses what the panel sends. */
  lemma NonBlankDraftIsPresent(draft: string)
    requires Trim(draft) != ""
    ensures draft != ""
  {
    TrimOfTrimmed("");
  }

  /** Sending through the server: the panel posts to the store and appends
      on success. The server stores the message under the authenticated
      user with its own clock; the panel shows its copy with the browser
      clock, so the two copies agree on everything but the time.
      `bindError` is what the server's binder would report. */
  method SendThroughServer(panel: Panel, store: MessageStore, auth: Option<string>,
                           routeUser: string, browserNow: int, serverNow: int, bindError: string)
    requires auth.Some? && bindError != ""
    modifies panel, store
    ensures Trim(old(panel.draft)) != "" && routeUser != "" ==>
      && store.messages == old(store.messages) + [Message(auth.value, routeUser, old(panel.draft), serverNow)]
      && panel.messages == old(panel.messages) + [Message(auth.value, routeUser, old(panel.draft), browserNow)]
      && panel.draft == ""
    ensures Trim(old(panel.draft)) != "" && routeUser == "" ==>
      store.messages == old(store.messages) && panel.messages == old(panel.messages) && panel.draft == old(panel.draft)
    ensures Trim(old(panel.draft)) == "" ==>
      store.messages == old(store.messages) && panel.messages == old(panel.messages) && panel.draft == old(panel.draft)
  {
    var draft := panel.draft;
    if Trim(draft) == "" {
      var none := panel.SendMessage(auth.value, routeUser, browserNow, false);
      return;
    }
    NonBlankDraftIsPresent(draft);
    var response := store.PostMessage(auth, routeUser, draft, serverNow, bindError);
    var sent := panel.SendMessage(auth.value, routeUser, browserNow, response.Ok?);
  }
}

=== FILE: messages.dfy ===
/** backend/api/messages.go: posting a message, the message history between
    two users, and the conversation list, which keeps the most recent
    message of every conversation of the caller, newest first. Timestamps
    are integer milliseconds; `After` is strictly greater. */
module Messages {
  import opened Common
  import opened Text

  datatype Message = Message(senderId: string, recipientId: string, text: string, sentAt: int)

  /** The identifier of a conversation: the two participants' ids in
      `sort.Strings` order. */
  type ConversationKey = (string, string)

  /** The participant of `m` who is not `user`: the recipient when `user`
      sent it, the sender otherwise. */
  function OtherParticipant(m: Message, user: string): string {
    if m.senderId == user then m.recipientId else m.senderId
  }

  /** For a message `user` sent or received, `user` and the other
      participant are its two parties. */
  lemma OtherParticipantParties(m: Message, user: string)
    requires m.senderId == user || m.recipientId == user
    ensures multiset{user, OtherParticipant(m, user)} == multiset{m.senderId, m.recipientId}
  {
  }

  /** The two ids in `sort.Strings` order. */
  function SortedPair(a: string, b: string): (string, string) {
    if LexLess(b, a) then (b, a) else (a, b)
  }

  /** The pair holds the two ids, the smaller first. */
  lemma SortedPairSorted(a: string, b: string)
    ensures multiset{SortedPair(a, b).0, SortedPair(a, b).1} == multiset{a, b}
    ensures !LexLess(SortedPair(a, b).1, SortedPair(a, b).0)
  {
    LexTotal(a, b);
  }

  /** The pair does not depend on the order of its arguments. */
  lemma SortedPairSymmetric(a: string, b: string)
    ensures SortedPair(a, b) == SortedPair(b, a)
  {
    LexTotal(a, b);
  }

  /** The key of the conversation between `user` and `other`. */
  function ConversationKeyOf(user: string, other: string): ConversationKey {
    SortedPair(user, other)
  }

  /** The key of the conversation `m` belongs to, seen by `user`. */
  function KeyOf(m: Message, user: string): ConversationKey {
    ConversationKeyOf(user, OtherParticipant(m, user))
  }

  /** For one user, the key tells the other participant apart: different
      partners, different conversations. */
  lemma ConversationKeyInjective(user: string, x: string, y: string)
    ensures ConversationKeyOf(user, x) == ConversationKeyOf(user, y) <==> x == y
  {
    var p, q := SortedPair(user, x), SortedPair(user, y);
    SortedPairSorted(user, x);
    SortedPairSorted(user, y);
    if p == q {
      assert multiset{user, x} == multiset{user, y};
      assert x in multiset{user, y};
    }
  }

  /** A message from A to B and one from B to A fall into the same
      conversation, from either participant's side. */
  lemma BothDirectionsShareKey(a: string, b: string, t1: string, t2: string, s1: int, s2: int)
    ensures KeyOf(Message(a, b, t1, s1), a) == KeyOf(Message(b, a, t2, s2), a)
    ensures KeyOf(Message(a, b, t1, s1), b) == KeyOf(Message(b, a, t2, s2), b)
    ensures KeyOf(Message(a, b, t1, s1), a) == KeyOf(Message(a, b, t1, s1), b)
  {
    SortedPairSymmetric(a, b);
  }

  /** One step of the loop of `getMostRecentMessagePerConversation`: a
      message takes the place of the kept one only when strictly newer. */
  function Absorb(acc: map<ConversationKey, Message>, m: Message, user: string): map<ConversationKey, Message> {
    var key := KeyOf(m, user);
    if key in acc then
      if m.sentAt > acc[key].sentAt then acc[key := m] else acc
    else acc[key := m]
  }

  /** The map the loop has built after the given messages. */
  function MostRecent(msgs: seq<Message>, user: string): map<ConversationKey, Message> {
    if |msgs| == 0 then map[]
    else Absorb(MostRecent(msgs[..|msgs| - 1], user), msgs[|msgs| - 1], user)
  }

  /** Go `getMostRecentMessagePerConversation`. */
  method GetMostRecentMessagePerConversation(conversations: seq<Message>, userId: string)
    returns (mostRecent: map<ConversationKey, Message>)
    ensures mostRecent == MostRecent(conversations, userId)
  {
    mostRecent := map[];
    for i := 0 to |conversations|
      invariant mostRecent == MostRecent(conversations[..i], userId)
    {
      var msg := conversations[i];
      var otherParticipant := msg.senderId;
      if msg.senderId == userId {
        otherParticipant := msg.recipientId;
      }
      var convoKey := SortedPair(userId, otherParticipant);
      assert conversations[..i + 1][..i] == conversations[..i];
      if convoKey in mostRecent {
        if msg.sentAt > mostRecent[convoKey].sentAt {
          mostRecent := mostRecent[convoKey := msg];
        }
      } else {
        mostRecent := mostRecent[convoKey := msg];
      }
    }
    assert conversations[..|conversations|] == conversations;
  }

  /** `msgs[i]` is the message kept for `key`: it has that key, no message
      with the key is strictly newer, and every earlier one with the key is
      strictly older (the first seen wins a tie). */
  predicate Kept(msgs: seq<Message>, user: string, key: ConversationKey, i: int) {
    && 0 <= i < |msgs|
    && KeyOf(msgs[i], user) == key
    && (forall j :: 0 <= j < |msgs| && KeyOf(msgs[j], user) == key ==> msgs[j].sentAt <= msgs[i].sentAt)
    && (forall j :: 0 <= j < i && KeyOf(msgs[j], user) == key ==> msgs[j].sentAt < msgs[i].sentAt)
  }

  /** The map has one entry per conversation key occurring in the input; the
      empty input gives the empty map. */
  lemma {:induction false} MostRecentKeys(msgs: seq<Message>, user: string, key: ConversationKey)
    ensures key in MostRecent(msgs, user) <==> exists i :: 0 <= i < |msgs| && KeyOf(msgs[i], user) == key
  {
    if |msgs| > 0 {
      var n := |msgs| - 1;
      var init := msgs[..n];
      MostRecentKeys(init, user, key);
      AbsorbKeys(MostRecent(init, user), msgs[n], user, key);
      if exists i :: 0 <= i < n && KeyOf(init[i], user) == key {
        var i :| 0 <= i < n && KeyOf(init[i], user) == key;
        assert msgs[i] == init[i];
      }
      if exists i :: 0 <= i < n + 1 && KeyOf(msgs[i], user) == key {
        var i :| 0 <= i < n + 1 && KeyOf(msgs[i], user) == key;
        if i < n {
          assert init[i] == msgs[i];
        }
      }
    }
  }

  /** A step adds the key of its message and no other. */
  lemma AbsorbKeys(acc: map<ConversationKey, Message>, m: Message, user: string, key: ConversationKey)
    ensures key in Absorb(acc, m, user) <==> key in acc || key == KeyOf(m, user)
  {
  }

  /** The value under each key is the input message `Kept` for it. */
  lemma {:induction false} MostRecentValue(msgs: seq<Message>, user: string, key: ConversationKey)
    requires key in MostRecent(msgs, user)
    ensures exists i :: Kept(msgs, user, key, i) && MostRecent(msgs, user)[key] == msgs[i]
  {
    var n := |msgs|;
    var init := msgs[..n - 1];
    var last := msgs[n - 1];
    var before := MostRecent(init, user);
    if key != KeyOf(last, user) || (key in before && last.sentAt <= before[key].sentAt) {
      MostRecentValue(init, user, key);
      var i :| Kept(init, user, key, i) && before[key] == init[i];
      assert msgs[i] == init[i];
      KeptInPrefix(msgs, user, key, i);
    } else {
      if key in before {
        MostRecentValue(init, user, key);
        var i :| Kept(init, user, key, i) && before[key] == init[i];
        forall j | 0 <= j < n - 1 && KeyOf(msgs[j], user) == key
          ensures msgs[j].sentAt < last.sentAt
        {
          assert msgs[j] == init[j];
        }
      } else {
        MostRecentKeys(init, user, key);
        forall j | 0 <= j < n - 1
          ensures KeyOf(msgs[j], user) != key
        {
          assert msgs[j] == init[j];
        }
      }
      KeptLast(msgs, user, key);
    }
  }

  /** A message kept among all but the last stays kept unless the last
      message has its key and is strictly newer. */
  lemma KeptInPrefix(msgs: seq<Message>, user: string, key: ConversationKey, i: int)
    requires |msgs| > 0 && Kept(msgs[..|msgs| - 1], user, key, i)
    requires KeyOf(msgs[|msgs| - 1], user) != key || msgs[|msgs| - 1].sentAt <= msgs[i].sentAt
    ensures Kept(msgs, user, key, i)
  {
    var init := msgs[..|msgs| - 1];
    assert msgs[i] == init[i];
    forall j | 0 <= j < |msgs| && KeyOf(msgs[j], user) == key
      ensures msgs[j].sentAt <= msgs[i].sentAt
    {
      if j < |init| {
        assert msgs[j] == init[j];
      }
    }
    forall j | 0 <= j < i && KeyOf(msgs[j], user) == key
      ensures msgs[j].sentAt < msgs[i].sentAt
    {
      assert msgs[j] == init[j];
    }
  }

  /** The last message is kept when every earlier one with its key is
      strictly older. */
  lemma KeptLast(msgs: seq<Message>, user: string, key: ConversationKey)
    requires |msgs| > 0 && KeyOf(msgs[|msgs| - 1], user) == key
    requires forall j :: 0 <= j < |msgs| - 1 && KeyOf(msgs[j], user) == key ==> msgs[j].sentAt < msgs[|msgs| - 1].sentAt
    ensures Kept(msgs, user, key, |msgs| - 1)
  {
  }

  /** Every kept message is filed under its own conversation key, so two
      entries never hold the same message or the same other participant. */
  lemma MostRecentUnderOwnKey(msgs: seq<Message>, user: string, key: ConversationKey)
    requires key in MostRecent(msgs, user)
    ensures KeyOf(MostRecent(msgs, user)[key], user) == key
  {
    MostRecentValue(msgs, user, key);
  }

  /** Go `sort.Slice(..., After)` as an ordering predicate: newest first, or
      (`OrderBy("sentAt")`) oldest first. */
  predicate Precedes(a: Message, b: Message, newestFirst: bool) {
    if newestFirst then a.sentAt >= b.sentAt else a.sentAt <= b.sentAt
  }

  predicate OrderedByTime(s: seq<Message>, newestFirst: bool) {
    forall i, j :: 0 <= i < j < |s| ==> Precedes(s[i], s[j], newestFirst)
  }

  /** A message preceding every element of an ordered list can go first. */
  lemma PrependOrdered(x: Message, t: seq<Message>, newestFirst: bool)
    requires OrderedByTime(t, newestFirst)
    requires forall k :: 0 <= k < |t| ==> Precedes(x, t[k], newestFirst)
    ensures OrderedByTime([x] + t, newestFirst)
  {
    var r := [x] + t;
    forall i, j | 0 <= i < j < |r|
      ensures Precedes(r[i], r[j], newestFirst)
    {
      if i > 0 {
        assert r[i] == t[i - 1] && r[j] == t[j - 1];
      } else {
        assert r[j] == t[j - 1];
      }
    }
  }

  function InsertByTime(m: Message, s: seq<Message>, newestFirst: bool): (r: seq<Message>)
    requires OrderedByTime(s, newestFirst)
    ensures OrderedByTime(r, newestFirst)
    ensures forall x :: x in r <==> x == m || x in s
    ensures multiset(r) == multiset(s) + multiset{m}
  {
    if |s| == 0 || Precedes(m, s[0], newestFirst) then
      PrependOrdered(m, s, newestFirst);
      [m] + s
    else
      var tail := s[1..];
      assert OrderedByTime(tail, newestFirst) by {
        forall i, j | 0 <= i < j < |tail| ensures Precedes(tail[i], tail[j], newestFirst) {
          assert tail[i] == s[i + 1] && tail[j] == s[j + 1];
        }
      }
      var rest := InsertByTime(m, tail, newestFirst);
      forall k | 0 <= k < |rest|
        ensures Precedes(s[0], rest[k], newestFirst)
      {
        assert rest[k] in rest;
        if rest[k] != m {
          var j :| 0 <= j < |tail| && tail[j] == rest[k];
          assert s[j + 1] == tail[j];
        }
      }
      PrependOrdered(s[0], rest, newestFirst);
      assert s == [s[0]] + tail;
      [s[0]] + rest
  }

  /** The messages of `s` in time order: a permutation of `s`. */
  function SortByTime(s: seq<Message>, newestFirst: bool): (r: seq<Message>)
    ensures OrderedByTime(r, newestFirst)
    ensures multiset(r) == multiset(s)
  {
    if |s| == 0 then []
    else
      assert s == [s[0]] + s[1..];
      InsertByTime(s[0], SortByTime(s[1..], newestFirst), newestFirst)
  }

  /** The stored messages `user` sent or received, in store order. */
  function MessagesOf(ms: seq<Message>, user: string): (r: seq<Message>)
    ensures forall m :: m in r <==> m in ms && (m.senderId == user || m.recipientId == user)
    ensures multiset(r) <= multiset(ms)
  {
    if |ms| == 0 then []
    else
      assert ms == ms[..|ms| - 1] + [ms[|ms| - 1]];
      var m := ms[|ms| - 1];
      MessagesOf(ms[..|ms| - 1], user) + (if m.senderId == user || m.recipientId == user then [m] else [])
  }

  /** The stored messages from `a` to `b` or from `b` to `a`, in store order. */
  function MessagesBetween(ms: seq<Message>, a: string, b: string): (r: seq<Message>)
    ensures forall m :: m in r <==> m in ms && ((m.senderId == a && m.recipientId == b) || (m.senderId == b && m.recipientId == a))
    ensures multiset(r) <= multiset(ms)
  {
    if |ms| == 0 then []
    else
      assert ms == ms[..|ms| - 1] + [ms[|ms| - 1]];
      var m := ms[|ms| - 1];
      MessagesBetween(ms[..|ms| - 1], a, b)
        + (if (m.senderId == a && m.recipientId == b) || (m.senderId == b && m.recipientId == a) then [m] else [])
  }

  /** The conversation list `cs` summarises the map `mostRecent`: newest
      first, and exactly its values, each once. */
  ghost predicate Summarises(cs: seq<Message>, mostRecent: map<ConversationKey, Message>) {
    && OrderedByTime(cs, true)
    && |cs| == |mostRecent|
    && (forall m :: m in cs <==> m in mostRecent.Values)
    && Distinct(cs)
  }

  /** A conversation list holds one entry per conversation. */
  lemma SummaryOnePerConversation(cs: seq<Message>, msgs: seq<Message>, user: string)
    requires Summarises(cs, MostRecent(msgs, user))
    ensures forall i, j :: 0 <= i < j < |cs| ==> KeyOf(cs[i], user) != KeyOf(cs[j], user)
  {
    var mostRecent := MostRecent(msgs, user);
    forall i, j | 0 <= i < j < |cs|
      ensures KeyOf(cs[i], user) != KeyOf(cs[j], user)
    {
      assert cs[i] in mostRecent.Values && cs[j] in mostRecent.Values;
      var ki :| ki in mostRecent && mostRecent[ki] == cs[i];
      var kj :| kj in mostRecent && mostRecent[kj] == cs[j];
      MostRecentUnderOwnKey(msgs, user, ki);
      MostRecentUnderOwnKey(msgs, user, kj);
    }
  }

  lemma {:induction false} DistinctCount(s: seq<Message>, x: Message)
    requires Distinct(s)
    ensures multiset(s)[x] <= 1
  {
    if |s| > 0 {
      var rest := s[1..];
      assert s == [s[0]] + rest;
      assert Distinct(rest) by {
        forall i, j | 0 <= i < j < |rest| ensures rest[i] != rest[j] {
          assert rest[i] == s[i + 1] && rest[j] == s[j + 1];
        }
      }
      DistinctCount(rest, x);
      if x == s[0] {
        assert x !in rest by {
          forall k | 0 <= k < |rest| ensures rest[k] != x {
            assert rest[k] == s[k + 1];
          }
        }
      }
    }
  }

  /** A permutation of a list without duplicates has none. */
  lemma PermutationDistinct(s: seq<Message>, t: seq<Message>)
    requires Distinct(s) && multiset(s) == multiset(t)
    ensures Distinct(t)
  {
    forall i, j | 0 <= i < j < |t|
      ensures t[i] != t[j]
    {
      if t[i] == t[j] {
        assert t == t[..i] + [t[i]] + t[i + 1..j] + [t[j]] + t[j + 1..];
        assert multiset(t)[t[i]] >= 2;
        DistinctCount(s, t[i]);
      }
    }
  }

  const Unauthorized := Failure(StatusUnauthorized, "Unauthorized")
  /** The 400 for a request the binder refuses: unlike the other handlers,
      this one appends the binder's error text to "Invalid request". */
  function InvalidMessageRequest(bindError: string): Failure {
    Failure(StatusBadRequest, "Invalid request" + bindError)
  }
  const MissingOtherUser := Failure(StatusBadRequest, "Missing query parameter: otherUserID")

  /** The messages collection. */
  class MessageStore {
    var messages: seq<Message>

    constructor()
      ensures messages == []
    {
      messages := [];
    }

    /** `POST /messages`: the sender is the authenticated user and the time
        is the server's clock `now`, never taken from the request; both
        request fields are required (non-empty), and `bindError` is the
        non-empty text the binder reports when one is missing. The response
        echoes the recipient id. */
    method PostMessage(auth: Option<string>, recipientId: string, text: string, now: int, bindError: string)
      returns (r: Result<string>)
      requires bindError != ""
      modifies this
      ensures auth.None? ==> r == Err(Unauthorized) && messages == old(messages)
      ensures auth.Some? && (recipientId == "" || text == "") ==>
        && r == Err(InvalidMessageRequest(bindError)) && messages == old(messages)
        && r.failure.message[..15] == "Invalid request" && |r.failure.message| > 15
      ensures auth.Some? && recipientId != "" && text != "" ==>
        r == Ok(recipientId) && messages == old(messages) + [Message(auth.value, recipientId, text, now)]
    {
      if auth.None? {
        return Err(Unauthorized);
      }
      if recipientId == "" || text == "" {
        return Err(InvalidMessageRequest(bindError));
      }
      var newMessage := Message(auth.value, recipientId, text, now);
      messages := messages + [newMessage];
      r := Ok(newMessage.recipientId);
    }

    /** `GET /messages/conversations`: the caller's messages newest first,
        reduced to the most recent one per conversation, which are then
        collected from the map in arbitrary order and sorted newest first. */
    method GetUserConversations(auth: Option<string>) returns (r: Result<seq<Message>>)
      ensures auth.None? ==> r == Err(Unauthorized)
      ensures auth.Some? ==>
        && r.Ok?
        && Summarises(r.value, MostRecent(SortByTime(MessagesOf(messages, auth.value), true), auth.value))
    {
      if auth.None? {
        return Err(Unauthorized);
      }
      var user := auth.value;
      var conversations := SortByTime(MessagesOf(messages, user), true);
      var mostRecent := GetMostRecentMessagePerConversation(conversations, user);
      forall k1, k2 | k1 in mostRecent && k2 in mostRecent && mostRecent[k1] == mostRecent[k2]
        ensures k1 == k2
      {
        MostRecentUnderOwnKey(conversations, user, k1);
        MostRecentUnderOwnKey(conversations, user, k2);
      }
      var filtered := CollectValues(mostRecent);
      var sorted := SortByTime(filtered, true);
      PermutationDistinct(filtered, sorted);
      assert forall m :: m in sorted <==> m in filtered by {
        forall m ensures m in sorted <==> m in filtered {
          assert m in sorted <==> m in multiset(sorted);
        }
      }
      assert |sorted| == |multiset(sorted)| == |multiset(filtered)| == |filtered|;
      r := Ok(sorted);
    }

    /** `GET /messages?otherUserID=`: the messages between the caller and the
        other user, oldest first; an empty other id is rejected first. */
    method GetMessageHistory(auth: Option<string>, otherUserId: string) returns (r: Result<seq<Message>>)
      ensures auth.None? ==> r == Err(Unauthorized)
      ensures auth.Some? && otherUserId == "" ==> r == Err(MissingOtherUser)
      ensures auth.Some? && otherUserId != "" ==>
        r == Ok(SortByTime(MessagesBetween(messages, auth.value, otherUserId), false))
    {
      if auth.None? {
        return Err(Unauthorized);
      }
      if otherUserId == "" {
        return Err(MissingOtherUser);
      }
      r := Ok(SortByTime(MessagesBetween(messages, auth.value, otherUserId), false));
    }
  }

  /** No element occurs twice. */
  predicate Distinct<V(==)>(s: seq<V>) {
    forall i, j :: 0 <= i < j < |s| ==> s[i] != s[j]
  }

  lemma DistinctAppend<V>(s: seq<V>, x: V)
    requires Distinct(s) && forall i :: 0 <= i < |s| ==> s[i] != x
    ensures Distinct(s + [x])
  {
  }

  /** No two keys of `m` share a value. */
  predicate Injective<K, V(==)>(m: map<K, V>) {
    forall k1, k2 :: k1 in m && k2 in m && m[k1] == m[k2] ==> k1 == k2
  }

  /** `values` lists the values of `keys`, which all lie in `done`, and every
      key in `done` has its value listed, once. */
  ghost predicate Collected<K, V>(m: map<K, V>, done: set<K>, keys: seq<K>, values: seq<V>) {
    && |values| == |keys| == |done|
    && (forall i :: 0 <= i < |keys| ==> keys[i] in done && keys[i] in m && values[i] == m[keys[i]])
    && (forall k :: k in done ==> k in m && m[k] in values)
    && Distinct(values)
  }

  /** One more key taken from those not yet collected keeps `Collected`. */
  lemma CollectStep<K, V>(m: map<K, V>, done: set<K>, keys: seq<K>, values: seq<V>, k: K)
    requires Injective(m) && Collected(m, done, keys, values) && k in m && k !in done
    ensures Collected(m, done + {k}, keys + [k], values + [m[k]])
  {
    forall i | 0 <= i < |values|
      ensures values[i] != m[k]
    {
      assert keys[i] in done;
    }
    DistinctAppend(values, m[k]);
    var keys', values' := keys + [k], values + [m[k]];
    forall i | 0 <= i < |keys'|
      ensures keys'[i] in done + {k} && keys'[i] in m && values'[i] == m[keys'[i]]
    {
      if i < |keys| {
        assert keys'[i] == keys[i] && values'[i] == values[i];
      }
    }
  }

  /** The `for _, msg := range mostRecentMessages` loop: the values of the
      map in the (unspecified) order Go's map iteration chooses. */
  method CollectValues<K, V(==)>(mostRecent: map<K, V>) returns (values: seq<V>)
    requires Injective(mostRecent)
    ensures |values| == |mostRecent|
    ensures Distinct(values)
    ensures forall m :: m in values <==> m in mostRecent.Values
  {
    values := [];
    var remaining := mostRecent.Keys;
    ghost var done: set<K> := {};
    ghost var keys: seq<K> := [];
    while remaining != {}
      invariant remaining !! done && remaining + done == mostRecent.Keys
      invariant Collected(mostRecent, done, keys, values)
      decreases |remaining|
    {
      var k :| k in remaining;
      CollectStep(mostRecent, done, keys, values, k);
      values := values + [mostRecent[k]];
      keys := keys + [k];
      remaining := remaining - {k};
      done := done + {k};
    }
    CollectedAll(mostRecent, keys, values);
  }

  lemma CollectedAll<K, V>(m: map<K, V>, keys: seq<K>, values: seq<V>)
    requires Collected(m, m.Keys, keys, values)
    ensures |values| == |m|
    ensures forall v :: v in values <==> v in m.Values
  {
    forall v | v in m.Values
      ensures v in values
    {
      var k :| k in m && m[k] == v;
    }
    forall v | v in values
      ensures v in m.Values
    {
      var i :| 0 <= i < |values| && values[i] == v;
      assert keys[i] in m;
    }
  }

  /** As written, the key is the string `"%s-%s"` of the sorted pair. */
  function StringConversationKey(user: string, other: string): string {
    var p := SortedPair(user, other);
    p.0 + "-" + p.1
  }

  /** The string key is not injective once ids contain `-`: user "-a-"
      talking to "a-" and to "-a" gets one key for both conversations. */
  lemma StringConversationKeyCollides()
    ensures "a-" != "-a"
    ensures StringConversationKey("-a-", "a-") == StringConversationKey("-a-", "-a") == "-a--a-"
  {
    assert LexLess("-a-", "a-");
    assert LexLess("-a", "-a-") by {
      assert LexLess("", "-");
      assert ("-a")[1..] == "a" && ("-a-")[1..] == "a-";
      assert ("a")[1..] == "" && ("a-")[1..] == "-";
    }
    LexTotal("-a-", "a-");
    LexTotal("-a", "-a-");
  }
}

=== FILE: new_item_page.dfy ===
/** The form of website/src/pages/Items/NewItemPage.tsx: the images chosen,
    the attribute values chosen, and the multipart body `handleSubmit`
    posts to `/items`. `JSON.stringify` is a parameter of the model. */
module NewItemPage {
  import opened Common
  import opened Text
  import opened Numbers

  /** A file chosen in the file input; its contents are not read here. */
  datatype ImageFile = ImageFile(name: string)

  /** The location chosen with the city search. */
  datatype Location = Location(latitude: real, longitude: real, override: bool)

  /** The form state: `quantity` is `None` when `parseInt` of the field gave
      `NaN`; `categories` is the raw text of the field. */
  datatype Form = Form(
    title: string,
    description: string,
    quantity: Option<int>,
    categories: string,
    status: string,
    itemLocation: Option<Location>,
    images: seq<ImageFile>,
    selectedAttributes: map<string, string>)

  /** `handleAddImage`: the first chosen file, if any, goes at the end. */
  function AddImage(images: seq<ImageFile>, chosen: Option<ImageFile>): (r: seq<ImageFile>)
    ensures chosen.None? ==> r == images
    ensures chosen.Some? ==> |r| == |images| + 1 && r[..|images|] == images && r[|images|] == chosen.value
  {
    if chosen.Some? then images + [chosen.value] else images
  }

  /** `handleRemoveImage`: `images.filter((_, i) => i !== index)`. Exactly
      the image at `index` goes, the others keep their order; an index out
      of range removes nothing. */
  function RemoveImage(images: seq<ImageFile>, index: int): (r: seq<ImageFile>)
    ensures r == if 0 <= index < |images| then images[..index] + images[index + 1..] else images
  {
    if |images| == 0 then []
    else
      var front := RemoveImage(images[..|images| - 1], index);
      if |images| - 1 == index then front else front + [images[|images| - 1]]
  }

  /** Removing the image just added restores the list. */
  lemma RemoveAddedImage(images: seq<ImageFile>, chosen: ImageFile)
    ensures RemoveImage(AddImage(images, Some(chosen)), |images|) == images
  {
    assert (images + [chosen])[..|images|] == images;
  }

  /** `handleAttributeValueChange`: the value is stored under the attribute
      type chosen in the first select; with none chosen nothing changes. */
  function ChooseValue(selected: map<string, string>, key: string, value: string): (r: map<string, string>)
  {
    if key != "" then selected[key := value] else selected
  }

  /** `handleRemoveSelectedAttribute`: `delete` on a copy. */
  function RemoveAttribute(selected: map<string, string>, key: string): (r: map<string, string>)
    ensures key !in r && r.Keys == selected.Keys - {key}
  {
    selected - {key}
  }

  /** Choosing sets only the chosen attribute type, and removing one keeps
      all the others; choosing and then removing is the same as removing. */
  lemma AttributeChoices(selected: map<string, string>, key: string, value: string, other: string)
    requires other != key
    ensures key != "" ==> key in ChooseValue(selected, key, value) && ChooseValue(selected, key, value)[key] == value
    ensures key == "" ==> ChooseValue(selected, key, value) == selected
    ensures (other in ChooseValue(selected, key, value) <==> other in selected)
    ensures other in selected ==> ChooseValue(selected, key, value)[other] == selected[other]
    ensures other in selected ==> RemoveAttribute(selected, key)[other] == selected[other]
    ensures key != "" ==> RemoveAttribute(ChooseValue(selected, key, value), key) == RemoveAttribute(selected, key)
    ensures key !in selected ==> RemoveAttribute(selected, key) == selected
  {
  }

  /** A value of the multipart body. */
  datatype FormValue = TextValue(text: string) | FileValue(file: ImageFile)

  /** The fields of the body. */
  datatype Field = Title | Description | Quantity | Categories | Status | LocationField | Images | AttributesField

  /** The name each field has in the body. */
  function FieldName(f: Field): (name: string)
    ensures |name| > 0
  {
    match f
    case Title => "title"
    case Description => "description"
    case Quantity => "quantity"
    case Categories => "categories[]"
    case Status => "status"
    case LocationField => "location"
    case Images => "images"
    case AttributesField => "attributes"
  }

  type FormEntry = (Field, FormValue)

  /** `quantity.toString()`; `NaN` is written as such. */
  function QuantityText(quantity: Option<int>): (text: string)
  {
    if quantity.Some? then IntToString(quantity.value) else "NaN"
  }

  /** The server reads the quantity back when the browser holds it exactly,
      which it does for every integer of magnitude at most 2^53, and `NaN`
      is no number. */
  lemma QuantityReadBack(quantity: Option<int>)
    requires quantity.Some? ==> -SafeIntegerBound <= quantity.value <= SafeIntegerBound
    ensures quantity.Some? ==> Atoi(QuantityText(quantity)) == ParsedInt(quantity.value, false)
    ensures quantity.None? ==> Atoi(QuantityText(quantity)).failed
  {
    if quantity.Some? {
      AtoiIntToString(quantity.value);
    } else {
      assert !IsDigit("NaN"[0]);
    }
  }

  /** Every piece trimmed. */
  function TrimAll(pieces: seq<string>): (trimmed: seq<string>)
    ensures |trimmed| == |pieces|
    ensures forall k :: 0 <= k < |pieces| ==> trimmed[k] == Trim(pieces[k])
  {
    seq(|pieces|, k requires 0 <= k < |pieces| => Trim(pieces[k]))
  }

  /** The pieces of the categories field, each trimmed. */
  function TrimmedParts(categories: string): (parts: seq<string>)
  {
    TrimAll(Split(categories, ','))
  }

  function CategoryEntries(parts: seq<string>): (entries: seq<FormEntry>)
    ensures |entries| == |parts|
    ensures forall k :: 0 <= k < |parts| ==> entries[k] == (Categories, TextValue(parts[k]))
  {
    seq(|parts|, k requires 0 <= k < |parts| => (Categories, TextValue(parts[k])))
  }

  function ImageEntries(images: seq<ImageFile>): (entries: seq<FormEntry>)
    ensures |entries| == |images|
    ensures forall k :: 0 <= k < |images| ==> entries[k] == (Images, FileValue(images[k]))
  {
    seq(|images|, k requires 0 <= k < |images| => (Images, FileValue(images[k])))
  }

  /** The fields appended before the categories. */
  function HeadEntries(form: Form): seq<FormEntry> {
    [(Title, TextValue(form.title)), (Description, TextValue(form.description)),
     (Quantity, TextValue(QuantityText(form.quantity)))]
  }

  /** The status, then the location when one was chosen. */
  function StatusEntries(form: Form, stringifyLocation: Location -> string): seq<FormEntry> {
    [(Status, TextValue(form.status))]
    + (if form.itemLocation.Some? then [(LocationField, TextValue(stringifyLocation(form.itemLocation.value)))] else [])
  }

  /** The body for the trimmed category pieces `parts`. */
  function BodyOf(form: Form, parts: seq<string>, stringifyLocation: Location -> string,
                  stringifyAttributes: map<string, string> -> string): seq<FormEntry>
  {
    HeadEntries(form)
    + CategoryEntries(parts)
    + StatusEntries(form, stringifyLocation)
    + ImageEntries(form.images)
    + [(AttributesField, TextValue(stringifyAttributes(form.selectedAttributes)))]
  }

  /** The body in the order `handleSubmit` appends to it. */
  function FormDataOf(form: Form, stringifyLocation: Location -> string,
                      stringifyAttributes: map<string, string> -> string): seq<FormEntry>
  {
    BodyOf(form, TrimmedParts(form.categories), stringifyLocation, stringifyAttributes)
  }

  function TextValues(texts: seq<string>): (values: seq<FormValue>)
    ensures |values| == |texts|
    ensures forall k :: 0 <= k < |texts| ==> values[k] == TextValue(texts[k])
  {
    seq(|texts|, k requires 0 <= k < |texts| => TextValue(texts[k]))
  }

  function FileValues(files: seq<ImageFile>): (values: seq<FormValue>)
    ensures |values| == |files|
    ensures forall k :: 0 <= k < |files| ==> values[k] == FileValue(files[k])
  {
    seq(|files|, k requires 0 <= k < |files| => FileValue(files[k]))
  }

  /** `formData.getAll(name)`: the values of a field, in order. */
  function GetAll(entries: seq<FormEntry>, field: Field): (values: seq<FormValue>)
    ensures |values| <= |entries|
  {
    if |entries| == 0 then []
    else
      GetAll(entries[..|entries| - 1], field)
      + (if entries[|entries| - 1].0 == field then [entries[|entries| - 1].1] else [])
  }

  lemma {:induction false} GetAllAppend(a: seq<FormEntry>, b: seq<FormEntry>, field: Field)
    ensures GetAll(a + b, field) == GetAll(a, field) + GetAll(b, field)
    decreases |b|
  {
    if |b| == 0 {
      assert a + b == a;
    } else {
      var init := b[..|b| - 1];
      assert (a + b)[..|a + b| - 1] == a + init;
      GetAllAppend(a, init, field);
    }
  }

  lemma {:induction false} GetAllAbsent(entries: seq<FormEntry>, field: Field)
    requires forall k :: 0 <= k < |entries| ==> entries[k].0 != field
    ensures GetAll(entries, field) == []
  {
    if |entries| > 0 {
      GetAllAbsent(entries[..|entries| - 1], field);
    }
  }

  lemma {:induction false} GetAllOnly(entries: seq<FormEntry>, field: Field)
    requires forall k :: 0 <= k < |entries| ==> entries[k].0 == field
    ensures GetAll(entries, field) == seq(|entries|, k requires 0 <= k < |entries| => entries[k].1)
  {
    if |entries| > 0 {
      GetAllOnly(entries[..|entries| - 1], field);
    }
  }

  /** `getAll` of a body split in five parts. */
  lemma GetAllOfParts(a: seq<FormEntry>, b: seq<FormEntry>, c: seq<FormEntry>, d: seq<FormEntry>, e: seq<FormEntry>, field: Field)
    ensures GetAll(a + b + c + d + e, field)
      == GetAll(a, field) + GetAll(b, field) + GetAll(c, field) + GetAll(d, field) + GetAll(e, field)
  {
    GetAllAppend(a + b + c + d, e, field);
    GetAllAppend(a + b + c, d, field);
    GetAllAppend(a + b, c, field);
    GetAllAppend(a, b, field);
  }

  /** `getAll` of the parts of the body, one part at a time. */
  lemma HeadGetAll(form: Form, field: Field)
    requires field != Title && field != Description && field != Quantity
    ensures GetAll(HeadEntries(form), field) == []
  {
    GetAllAbsent(HeadEntries(form), field);
  }

  lemma CategoriesGetAll(parts: seq<string>)
    ensures GetAll(CategoryEntries(parts), Categories) == TextValues(parts)
  {
    var b := CategoryEntries(parts);
    GetAllOnly(b, Categories);
    assert seq(|b|, k requires 0 <= k < |b| => b[k].1) == TextValues(parts);
  }

  lemma CategoriesAbsent(parts: seq<string>, field: Field)
    requires field != Categories
    ensures GetAll(CategoryEntries(parts), field) == []
  {
    GetAllAbsent(CategoryEntries(parts), field);
  }

  lemma StatusGetAll(form: Form, sl: Location -> string, field: Field)
    requires field != Status && field != LocationField
    ensures GetAll(StatusEntries(form, sl), field) == []
  {
    GetAllAbsent(StatusEntries(form, sl), field);
  }

  lemma ImagesGetAll(images: seq<ImageFile>)
    ensures GetAll(ImageEntries(images), Images) == FileValues(images)
  {
    var d := ImageEntries(images);
    GetAllOnly(d, Images);
    assert seq(|d|, k requires 0 <= k < |d| => d[k].1) == FileValues(images);
  }

  lemma ImagesAbsent(images: seq<ImageFile>, field: Field)
    requires field != Images
    ensures GetAll(ImageEntries(images), field) == []
  {
    GetAllAbsent(ImageEntries(images), field);
  }

  lemma SingleGetAll(e: FormEntry)
    ensures GetAll([e], e.0) == [e.1]
  {
    assert [e][..0] == [];
  }

  lemma SingleAbsent(e: FormEntry, field: Field)
    requires e.0 != field
    ensures GetAll([e], field) == []
  {
    assert [e][..0] == [];
  }

  lemma BodyCategories(form: Form, parts: seq<string>, sl: Location -> string, sa: map<string, string> -> string)
    ensures GetAll(BodyOf(form, parts, sl, sa), Categories) == TextValues(parts)
  {
    var e := (AttributesField, TextValue(sa(form.selectedAttributes)));
    GetAllOfParts(HeadEntries(form), CategoryEntries(parts), StatusEntries(form, sl), ImageEntries(form.images), [e], Categories);
    HeadGetAll(form, Categories);
    CategoriesGetAll(parts);
    StatusGetAll(form, sl, Categories);
    ImagesAbsent(form.images, Categories);
    SingleAbsent(e, Categories);
    var none: seq<FormValue> := [];
    assert none + TextValues(parts) + none + none + none == TextValues(parts);
  }

  /** One trimmed `categories[]` value per comma-separated piece of the
      field, in order. */
  lemma CategoriesSent(form: Form, sl: Location -> string, sa: map<string, string> -> string)
    ensures GetAll(FormDataOf(form, sl, sa), Categories) == TextValues(TrimmedParts(form.categories))
  {
    BodyCategories(form, TrimmedParts(form.categories), sl, sa);
  }

  /** An empty field still sends one `categories[]` value, the empty one. */
  lemma EmptyCategoriesField()
    ensures TrimmedParts("") == [""]
  {
    TrimOfTrimmed("");
  }

  /** Categories typed as a comma-separated list of trimmed names come out
      as those names. */
  lemma CategoriesRoundTrip(names: seq<string>)
    requires |names| >= 1
    requires forall k :: 0 <= k < |names| ==> ',' !in names[k] && Trim(names[k]) == names[k]
    ensures TrimmedParts(Join(names, ",")) == names
  {
    SplitJoin(names, ',');
  }

  lemma BodyLocation(form: Form, parts: seq<string>, sl: Location -> string, sa: map<string, string> -> string)
    ensures GetAll(BodyOf(form, parts, sl, sa), LocationField)
      == if form.itemLocation.Some? then [TextValue(sl(form.itemLocation.value))] else []
  {
    var e := (AttributesField, TextValue(sa(form.selectedAttributes)));
    GetAllOfParts(HeadEntries(form), CategoryEntries(parts), StatusEntries(form, sl), ImageEntries(form.images), [e], LocationField);
    HeadGetAll(form, LocationField);
    CategoriesAbsent(parts, LocationField);
    ImagesAbsent(form.images, LocationField);
    SingleAbsent(e, LocationField);
    var status := (Status, TextValue(form.status));
    SingleAbsent(status, LocationField);
    if form.itemLocation.Some? {
      var loc := (LocationField, TextValue(sl(form.itemLocation.value)));
      GetAllAppend([status], [loc], LocationField);
      SingleGetAll(loc);
      assert StatusEntries(form, sl) == [status] + [loc];
    } else {
      assert StatusEntries(form, sl) == [status];
    }
  }

  /** A location is sent only when one was chosen. */
  lemma LocationSent(form: Form, sl: Location -> string, sa: map<string, string> -> string)
    ensures form.itemLocation.None? ==> GetAll(FormDataOf(form, sl, sa), LocationField) == []
    ensures form.itemLocation.Some? ==>
      GetAll(FormDataOf(form, sl, sa), LocationField) == [TextValue(sl(form.itemLocation.value))]
  {
    BodyLocation(form, TrimmedParts(form.categories), sl, sa);
  }

  lemma BodyAttributes(form: Form, parts: seq<string>, sl: Location -> string, sa: map<string, string> -> string)
    ensures GetAll(BodyOf(form, parts, sl, sa), AttributesField) == [TextValue(sa(form.selectedAttributes))]
  {
    var e := (AttributesField, TextValue(sa(form.selectedAttributes)));
    GetAllOfParts(HeadEntries(form), CategoryEntries(parts), StatusEntries(form, sl), ImageEntries(form.images), [e], AttributesField);
    HeadGetAll(form, AttributesField);
    CategoriesAbsent(parts, AttributesField);
    StatusGetAll(form, sl, AttributesField);
    ImagesAbsent(form.images, AttributesField);
    SingleGetAll(e);
  }

  lemma BodyImages(form: Form, parts: seq<string>, sl: Location -> string, sa: map<string, string> -> string)
    ensures GetAll(BodyOf(form, parts, sl, sa), Images) == FileValues(form.images)
  {
    var e := (AttributesField, TextValue(sa(form.selectedAttributes)));
    GetAllOfParts(HeadEntries(form), CategoryEntries(parts), StatusEntries(form, sl), ImageEntries(form.images), [e], Images);
    HeadGetAll(form, Images);
    CategoriesAbsent(parts, Images);
    StatusGetAll(form, sl, Images);
    ImagesGetAll(form.images);
    SingleAbsent(e, Images);
  }

  /** The attributes are always sent, once, as the JSON of the chosen map,
      and the images in the order chosen. */
  lemma AttributesAndImagesSent(form: Form, sl: Location -> string, sa: map<string, string> -> string)
    ensures GetAll(FormDataOf(form, sl, sa), AttributesField) == [TextValue(sa(form.selectedAttributes))]
    ensures GetAll(FormDataOf(form, sl, sa), Images) == FileValues(form.images)
  {
    BodyAttributes(form, TrimmedParts(form.categories), sl, sa);
    BodyImages(form, TrimmedParts(form.categories), sl, sa);
  }

  /** The `forEach` over the pieces of `categories.split(",")`: one trimmed
      entry per piece. */
  method AppendCategories(formData: seq<FormEntry>, pieces: seq<string>) returns (r: seq<FormEntry>)
    ensures r == formData + CategoryEntries(TrimAll(pieces))
  {
    r := formData;
    for k := 0 to |pieces|
      invariant r == formData + CategoryEntries(TrimAll(pieces[..k]))
    {
      var cat := pieces[k];
      AppendCategory(pieces, k);
      r := r + [(Categories, TextValue(Trim(cat)))];
    }
    assert pieces[..|pieces|] == pieces;
  }

  lemma AppendCategory(pieces: seq<string>, k: nat)
    requires k < |pieces|
    ensures CategoryEntries(TrimAll(pieces[..k + 1]))
      == CategoryEntries(TrimAll(pieces[..k])) + [(Categories, TextValue(Trim(pieces[k])))]
  {
  }

  /** `images.forEach((image) => formData.append("images", image))`. */
  method AppendImages(formData: seq<FormEntry>, images: seq<ImageFile>) returns (r: seq<FormEntry>)
    ensures r == formData + ImageEntries(images)
  {
    r := formData;
    for k := 0 to |images|
      invariant r == formData + ImageEntries(images[..k])
    {
      assert ImageEntries(images[..k + 1]) == ImageEntries(images[..k]) + [(Images, FileValue(images[k]))];
      r := r + [(Images, FileValue(images[k]))];
    }
    assert images[..|images|] == images;
  }

  /** `handleSubmit`: the body built by appending field by field. */
  method HandleSubmit(form: Form, stringifyLocation: Location -> string,
                      stringifyAttributes: map<string, string> -> string)
    returns (formData: seq<FormEntry>)
    ensures formData == FormDataOf(form, stringifyLocation, stringifyAttributes)
  {
    formData := [(Title, TextValue(form.title))];
    formData := formData + [(Description, TextValue(form.description))];
    formData := formData + [(Quantity, TextValue(QuantityText(form.quantity)))];
    assert formData == HeadEntries(form);
    formData := AppendCategories(formData, Split(form.categories, ','));
    var beforeStatus := formData;
    formData := formData + [(Status, TextValue(form.status))];
    if form.itemLocation.Some? {
      formData := formData + [(LocationField, TextValue(stringifyLocation(form.itemLocation.value)))];
    }
    assert formData == beforeStatus + StatusEntries(form, stringifyLocation);
    formData := AppendImages(formData, form.images);
    formData := formData + [(AttributesField, TextValue(stringifyAttributes(form.selectedAttributes)))];
  }
}

=== FILE: numbers.dfy ===
/** Decimal numbers as text: Go `strconv.Atoi` and a decimal subset of
    `strconv.ParseFloat` on the server, and the integer rendering that
    JavaScript `Number.prototype.toString` gives on the website. */
module Numbers {
  import opened Common

  const Int64Min: int := -0x8000_0000_0000_0000
  const Int64Max: int := 0x7FFF_FFFF_FFFF_FFFF

  predicate IsDigit(c: char) { '0' <= c <= '9' }

  predicate AllDigits(s: string) {
    forall i :: 0 <= i < |s| ==> IsDigit(s[i])
  }

  function DigitValue(c: char): nat
    requires IsDigit(c)
  {
    c as int - '0' as int
  }

  /** The value of a string of decimal digits, most significant first. */
  function DigitsValue(s: string): nat
    requires AllDigits(s)
  {
    if |s| == 0 then 0 else DigitsValue(s[..|s| - 1]) * 10 + DigitValue(s[|s| - 1])
  }

  /** The decimal digits of `n`, without leading zeros. */
  function NatDigits(n: nat): (s: string)
    ensures |s| > 0 && AllDigits(s)
    ensures |s| > 1 ==> s[0] != '0'
  {
    var last := ('0' as int + n % 10) as char;
    if n < 10 then [last] else NatDigits(n / 10) + [last]
  }

  /** Reading back the digits of `n` gives `n`. */
  lemma {:induction false} DigitsRoundTrip(n: nat)
    ensures DigitsValue(NatDigits(n)) == n
  {
    var s := NatDigits(n);
    if n >= 10 {
      DigitsRoundTrip(n / 10);
      assert s[..|s| - 1] == NatDigits(n / 10);
    }
  }

  /** The largest magnitude up to which a JavaScript number holds every
      integer exactly, 2^53. */
  const SafeIntegerBound: int := 0x20_0000_0000_0000

  /** The decimal text of `n`, with a minus sign when negative. It is what
      JavaScript's `n.toString()` writes for an integer of magnitude at most
      `SafeIntegerBound`; beyond that a number is printed with the shortest
      digits that read back as the same double. */
  function IntToString(n: int): string {
    if n < 0 then "-" + NatDigits(-n) else NatDigits(n)
  }

  /** The result of `strconv.Atoi`: the integer it returns, and whether it
      also returned an error. */
  datatype ParsedInt = ParsedInt(value: int, failed: bool)

  const Uint64Max: int := 0xFFFF_FFFF_FFFF_FFFF

  /** The length of the run of decimal digits at the start of `s`. */
  function DigitRun(s: string): (n: nat)
    ensures n <= |s| && AllDigits(s[..n]) && (n < |s| ==> !IsDigit(s[n]))
  {
    if |s| == 0 || !IsDigit(s[0]) then 0
    else
      var n := 1 + DigitRun(s[1..]);
      assert s[..n] == [s[0]] + s[1..][..n - 1];
      n
  }

  /** Go `strconv.Atoi` on a 64-bit platform: an optional sign and at least
      one decimal digit. `ParseUint` scans the digits from the left and
      stops with a range error as soon as they exceed the uint64 range, so
      a long run of digits reports the int64 bound of its sign even when
      other characters follow it. Otherwise any other character is a
      syntax error, returning 0, and a value outside the int64 range
      returns the nearest bound; all three report an error. */
  function Atoi(s: string): (r: ParsedInt)
    ensures !r.failed ==> Int64Min <= r.value <= Int64Max
    ensures r.failed && !(|s| > 0 && (IsDigit(s[0]) || s[0] == '+' || s[0] == '-')) ==> r.value == 0
  {
    var neg := |s| > 0 && s[0] == '-';
    var digits := Unsigned(s);
    var run := DigitRun(digits);
    if DigitsValue(digits[..run]) > Uint64Max then ParsedInt(if neg then Int64Min else Int64Max, true)
    else if |digits| == 0 || run < |digits| then ParsedInt(0, true)
    else
      assert digits[..run] == digits;
      var v: int := if neg then 0 - DigitsValue(digits) else DigitsValue(digits) as int;
      if v < Int64Min then ParsedInt(Int64Min, true)
      else if v > Int64Max then ParsedInt(Int64Max, true)
      else ParsedInt(v, false)
  }

  /** Text that is not an optional sign followed by digits only is an
      error; unless its leading digits already overflow, the value is 0. */
  lemma AtoiSyntaxError(s: string)
    requires |Unsigned(s)| == 0 || !AllDigits(Unsigned(s))
    ensures Atoi(s).failed
    ensures var body := Unsigned(s);
      DigitsValue(body[..DigitRun(body)]) <= Uint64Max ==> Atoi(s).value == 0
  {
  }

  /** The scan order of `ParseUint`: digits past the uint64 range give the
      bound of the sign, whatever follows them. */
  lemma AtoiOverflowFirst(sign: string, digits: string, rest: string)
    requires sign == "" || sign == "-" || sign == "+"
    requires AllDigits(digits) && DigitsValue(digits) > Uint64Max
    requires rest == [] || !IsDigit(rest[0])
    ensures Atoi(sign + digits + rest) == ParsedInt(if sign == "-" then Int64Min else Int64Max, true)
  {
    var s := sign + digits + rest;
    LeadingDigit(digits, rest);
    assert s == sign + (digits + rest);
    SignSplit(sign, digits + rest);
    RunOfDigits(digits, rest);
    AtoiRunOverflows(s, digits + rest, digits, sign == "-");
  }

  lemma LeadingDigit(digits: string, rest: string)
    requires AllDigits(digits) && DigitsValue(digits) > 0
    ensures |digits + rest| > 0 && IsDigit((digits + rest)[0])
  {
  }

  lemma AtoiRunOverflows(s: string, body: string, digits: string, neg: bool)
    requires Unsigned(s) == body && ((|s| > 0 && s[0] == '-') <==> neg)
    requires DigitRun(body) == |digits| && body[..|digits|] == digits
    requires AllDigits(digits) && DigitsValue(digits) > Uint64Max
    ensures Atoi(s) == ParsedInt(if neg then Int64Min else Int64Max, true)
  {
  }

  /** The sign Atoi strips, and the text after it. */
  function Unsigned(s: string): string {
    if |s| > 0 && (s[0] == '+' || s[0] == '-') then s[1..] else s
  }

  lemma SignSplit(sign: string, body: string)
    requires sign == "" || sign == "-" || sign == "+"
    requires sign == "" ==> |body| > 0 && IsDigit(body[0])
    ensures Unsigned(sign + body) == body
    ensures (|sign + body| > 0 && (sign + body)[0] == '-') <==> sign == "-"
  {
    if sign != "" {
      assert (sign + body)[1..] == body;
    }
  }

  lemma {:induction false} RunOfDigits(digits: string, rest: string)
    requires AllDigits(digits) && (rest == [] || !IsDigit(rest[0]))
    ensures DigitRun(digits + rest) == |digits|
    ensures (digits + rest)[..|digits|] == digits
  {
    if |digits| > 0 {
      assert (digits + rest)[1..] == digits[1..] + rest;
      RunOfDigits(digits[1..], rest);
    } else {
      assert digits + rest == rest;
    }
  }

  /** What the website writes with `toString`, the server reads back with
      `Atoi`, for every integer in the int64 range. */
  lemma AtoiIntToString(n: int)
    requires Int64Min <= n <= Int64Max
    ensures Atoi(IntToString(n)) == ParsedInt(n, false)
  {
    var digits := NatDigits(if n < 0 then -n else n);
    DigitsRoundTrip(if n < 0 then -n else n);
    SignSplit(if n < 0 then "-" else "", digits);
    RunOfDigits(digits, []);
    assert digits + [] == digits;
    assert IntToString(n) == (if n < 0 then "-" else "") + digits;
  }

  /** The value of the digits after a decimal point: "25" is 0.25. */
  function FracValue(fracPart: string): real
    requires AllDigits(fracPart)
  {
    if |fracPart| == 0 then 0.0
    else (DigitValue(fracPart[0]) as real + FracValue(fracPart[1..])) / 10.0
  }

  /** The value of `intPart.fracPart` in decimal. */
  function DecimalValue(intPart: string, fracPart: string): real
    requires AllDigits(intPart) && AllDigits(fracPart)
  {
    DigitsValue(intPart) as real + FracValue(fracPart)
  }

  /** The decimal subset of Go `strconv.ParseFloat(s, 64)`: an optional sign,
      digits with at most one `.` and at least one digit, and an optional
      exponent `e`/`E` with an optional sign and at least one digit. `None`
      stands for the syntax error. */
  function ParseDecimal(s: string): (r: Option<real>)
    ensures |s| == 0 ==> r.None?
  {
    var neg := |s| > 0 && s[0] == '-';
    var body := if |s| > 0 && (s[0] == '+' || s[0] == '-') then s[1..] else s;
    match ParseUnsigned(body)
    case None => None
    case Some(x) => Some(Signed(neg, x))
  }

  /** A mantissa followed by an optional exponent. */
  function ParseUnsigned(body: string): (r: Option<real>)
    ensures |body| == 0 ==> r.None?
  {
    var (mantissa, exponent) := SplitExponent(body);
    match ParseMantissa(mantissa)
    case None => None
    case Some(m) =>
      match exponent
      case None => Some(m)
      case Some(e) =>
        match ParseExponent(e)
        case None => None
        case Some(k) => Some(Scale(m, k))
  }

  /** `m` times ten to the power `k`; a negative `k` divides. */
  function Scale(m: real, k: int): real
    decreases if k >= 0 then k else -k
  {
    if k == 0 then m
    else if k > 0 then Scale(m, k - 1) * 10.0
    else Scale(m, k + 1) / 10.0
  }

  /** The text before and after the first `e` or `E`. */
  function SplitExponent(s: string): (string, Option<string>) {
    if |s| == 0 then ("", None)
    else if s[0] == 'e' || s[0] == 'E' then ("", Some(s[1..]))
    else
      var (m, e) := SplitExponent(s[1..]);
      ([s[0]] + m, e)
  }

  function ParseMantissa(s: string): Option<real> {
    var dot := DotIndex(s);
    var intPart := if dot < |s| then s[..dot] else s;
    var fracPart := if dot < |s| then s[dot + 1..] else "";
    if |intPart| + |fracPart| == 0 || !AllDigits(intPart) || !AllDigits(fracPart) then None
    else Some(DecimalValue(intPart, fracPart))
  }

  /** The index of the first `.`, or `|s|` when there is none. */
  function DotIndex(s: string): (i: nat)
    ensures i <= |s| && (i < |s| ==> s[i] == '.')
  {
    if |s| == 0 || s[0] == '.' then 0 else 1 + DotIndex(s[1..])
  }

  function ParseExponent(s: string): Option<int> {
    var neg := |s| > 0 && s[0] == '-';
    var digits := if |s| > 0 && (s[0] == '+' || s[0] == '-') then s[1..] else s;
    if |digits| == 0 || !AllDigits(digits) then None
    else Some(SignedInt(neg, DigitsValue(digits)))
  }

  /** Plain decimal integers are read as their value. */
  lemma ParseDecimalOfDigits(n: nat)
    ensures ParseDecimal(NatDigits(n)) == Some(n as real)
  {
    var s := NatDigits(n);
    DigitsRoundTrip(n);
    NoExponentInDigits(s);
    assert IsDigit(s[0]);
    MantissaOfDigits(s);
  }

  /** A non-empty string of digits is a mantissa with no fraction. */
  lemma MantissaOfDigits(s: string)
    requires |s| > 0 && AllDigits(s)
    ensures ParseMantissa(s) == Some(DigitsValue(s) as real)
  {
    NoDotInDigits(s);
    assert DecimalValue(s, "") == DigitsValue(s) as real;
  }

  lemma {:induction false} NoExponentInDigits(s: string)
    requires AllDigits(s)
    ensures SplitExponent(s) == (s, None)
  {
    if |s| > 0 {
      NoExponentInDigits(s[1..]);
      assert [s[0]] + s[1..] == s;
    }
  }

  lemma {:induction false} NoDotInDigits(s: string)
    requires AllDigits(s)
    ensures DotIndex(s) == |s|
  {
    if |s| > 0 {
      NoDotInDigits(s[1..]);
    }
  }

  /** `x`, negated when `neg` holds. */
  function Signed(neg: bool, x: real): real {
    if neg then -x else x
  }

  function SignedInt(neg: bool, n: nat): int {
    if neg then -(n as int) else n
  }

  function SignText(neg: bool): string {
    if neg then "-" else ""
  }

  /** Signed decimal text with a fraction is read as its value. */
  lemma ParseDecimalOfFraction(neg: bool, intPart: string, fracPart: string)
    requires AllDigits(intPart) && AllDigits(fracPart) && |intPart| + |fracPart| > 0
    ensures ParseDecimal(SignText(neg) + (intPart + "." + fracPart)) == Some(Signed(neg, DecimalValue(intPart, fracPart)))
  {
    var mantissa := intPart + "." + fracPart;
    MantissaOfFraction(intPart, fracPart);
    MantissaMarks(intPart, fracPart);
    NoExponentWithout(mantissa);
    SignedOf(neg, mantissa, DecimalValue(intPart, fracPart));
  }

  /** Signed decimal text with a fraction and an exponent is read as its
      value scaled by the power of ten; a negative exponent divides. */
  lemma ParseDecimalOfText(neg: bool, intPart: string, fracPart: string, expNeg: bool, expDigits: string)
    requires AllDigits(intPart) && AllDigits(fracPart) && |intPart| + |fracPart| > 0
    requires AllDigits(expDigits) && |expDigits| > 0
    ensures ParseDecimal(SignText(neg) + ((intPart + "." + fracPart) + "e" + (SignText(expNeg) + expDigits)))
      == Some(Signed(neg, Scale(DecimalValue(intPart, fracPart), SignedInt(expNeg, DigitsValue(expDigits)))))
  {
    var mantissa := intPart + "." + fracPart;
    var e := SignText(expNeg) + expDigits;
    var body := mantissa + "e" + e;
    var v := DecimalValue(intPart, fracPart);
    var k := DigitsValue(expDigits);
    MantissaOfFraction(intPart, fracPart);
    MantissaMarks(intPart, fracPart);
    SplitAtExponent(mantissa, e);
    var signedK := SignedInt(expNeg, k);
    ExponentOfText(expNeg, expDigits);
    UnsignedWithExponent(body, mantissa, e, v, signedK);
    assert body[0] == mantissa[0];
    SignedOf(neg, body, Scale(v, signedK));
  }

  lemma SignedOf(neg: bool, body: string, x: real)
    requires (|body| > 0 && IsDigit(body[0])) || (|body| > 1 && body[0] == '.')
    requires ParseUnsigned(body) == Some(x)
    ensures ParseDecimal(SignText(neg) + body) == Some(Signed(neg, x))
  {
    SignedBody(neg, body);
  }

  lemma UnsignedWithExponent(body: string, mantissa: string, e: string, m: real, k: int)
    requires SplitExponent(body) == (mantissa, Some(e))
    requires ParseMantissa(mantissa) == Some(m) && ParseExponent(e) == Some(k)
    ensures ParseUnsigned(body) == Some(Scale(m, k))
  {
  }

  predicate NoExponentMark(s: string) {
    forall i :: 0 <= i < |s| ==> s[i] != 'e' && s[i] != 'E'
  }

  lemma SignedBody(neg: bool, body: string)
    requires (|body| > 0 && IsDigit(body[0])) || (|body| > 1 && body[0] == '.')
    ensures var s := SignText(neg) + body;
      (|s| > 0 && s[0] == '-') == neg
      && (if |s| > 0 && (s[0] == '+' || s[0] == '-') then s[1..] else s) == body
  {
    if neg {
      assert (SignText(neg) + body)[1..] == body;
    } else {
      assert SignText(neg) + body == body;
    }
  }

  lemma MantissaOfFraction(intPart: string, fracPart: string)
    requires AllDigits(intPart) && AllDigits(fracPart) && |intPart| + |fracPart| > 0
    ensures ParseMantissa(intPart + "." + fracPart) == Some(DecimalValue(intPart, fracPart))
  {
    var s := intPart + "." + fracPart;
    DotAfterDigits(intPart, fracPart);
    assert s[..|intPart|] == intPart;
    assert s[|intPart| + 1..] == fracPart;
  }

  lemma {:induction false} DotAfterDigits(intPart: string, rest: string)
    requires AllDigits(intPart)
    ensures DotIndex(intPart + "." + rest) == |intPart|
  {
    if |intPart| > 0 {
      DotAfterDigits(intPart[1..], rest);
      assert (intPart + "." + rest)[1..] == intPart[1..] + "." + rest;
    }
  }

  lemma MantissaMarks(intPart: string, fracPart: string)
    requires AllDigits(intPart) && AllDigits(fracPart)
    ensures NoExponentMark(intPart + "." + fracPart)
  {
    var s := intPart + "." + fracPart;
    forall i | 0 <= i < |s| ensures s[i] != 'e' && s[i] != 'E' {
      if i < |intPart| {
        assert s[i] == intPart[i];
      } else if i > |intPart| {
        assert s[i] == fracPart[i - |intPart| - 1];
      }
    }
  }

  lemma {:induction false} NoExponentWithout(s: string)
    requires NoExponentMark(s)
    ensures SplitExponent(s) == (s, None)
  {
    if |s| > 0 {
      NoExponentWithout(s[1..]);
      assert [s[0]] + s[1..] == s;
    }
  }

  lemma {:induction false} SplitAtExponent(m: string, e: string)
    requires NoExponentMark(m)
    ensures SplitExponent(m + "e" + e) == (m, Some(e))
  {
    if |m| == 0 {
      assert m + "e" + e == "e" + e;
      assert ("e" + e)[1..] == e;
    } else {
      SplitAtExponent(m[1..], e);
      assert (m + "e" + e)[1..] == m[1..] + "e" + e;
      assert [m[0]] + m[1..] == m;
    }
  }

  lemma ExponentOfText(neg: bool, digits: string)
    requires AllDigits(digits) && |digits| > 0
    ensures ParseExponent(SignText(neg) + digits) == Some(SignedInt(neg, DigitsValue(digits)))
  {
    assert IsDigit(digits[0]);
    SignedBody(neg, digits);
  }
}

=== FILE: ratings.dfy ===
/** backend/api/ratings.go over the ratings collection, with the request
    validation of the `binding`/`validate` tags of backend/api/ratings.go
    and backend/models/rating.go. Stars are on the doubled scale 1..10. */
module Ratings {
  import opened Common

  datatype Rating = Rating(
    id: string,
    creatorId: string,
    recipientId: string,
    recipientIsItem: bool,
    title: string,
    body: string,
    stars: int,
    createdAt: int)

  /** The body of `POST /ratings`. */
  datatype CreateRatingRequest = CreateRatingRequest(
    creatorId: string,
    recipientId: string,
    recipientIsItem: bool,
    title: string,
    body: string,
    stars: int)

  /** `min=1,max=10` on the doubled star scale. */
  predicate StarsInRange(stars: int) {
    1 <= stars <= 10
  }

  /** The `binding` tags of `CreateRatingRequest` as written: `required`
      rejects the zero value of every field, which for the boolean
      `RecipientIsItem` is `false`. */
  predicate CreateRequestBindsAsWritten(req: CreateRatingRequest) {
    && req.creatorId != ""
    && req.recipientId != "" && req.recipientId != req.creatorId
    && req.recipientIsItem
    && req.title != ""
    && req.body != ""
    && req.stars != 0 && StarsInRange(req.stars)
  }

  /** The binding the handler evidently intends: both kinds of recipient
      are accepted, every other rule is kept. */
  predicate CreateRequestBinds(req: CreateRatingRequest) {
    && req.creatorId != ""
    && req.recipientId != "" && req.recipientId != req.creatorId
    && req.title != ""
    && req.body != ""
    && StarsInRange(req.stars)
  }

  /** As written, no rating of a user can ever be created. */
  lemma UserRatingsRejectedAsWritten(req: CreateRatingRequest)
    requires !req.recipientIsItem
    ensures !CreateRequestBindsAsWritten(req)
  {
  }

  /** The corrected binding accepts the user rating the profile page sends,
      and agrees with the written one on ratings of items. */
  lemma CorrectedBindingAcceptsUserRatings(req: CreateRatingRequest)
    ensures req.recipientIsItem ==> (CreateRequestBinds(req) <==> CreateRequestBindsAsWritten(req))
    ensures !req.recipientIsItem ==> !CreateRequestBindsAsWritten(req)
    ensures CreateRequestBinds(CreateRatingRequest("users/1-A", "users/2-A", false, "Great", "Smooth trade", 10))
  {
  }

  /** `validate.Struct` on `models.Rating`: creator, recipient, title and
      body are required, stars lie in 1..10. */
  predicate ValidRating(r: Rating) {
    && r.creatorId != ""
    && r.recipientId != ""
    && r.title != ""
    && r.body != ""
    && StarsInRange(r.stars)
  }

  const InvalidRequest := Failure(StatusBadRequest, "Invalid request")
  const SelfOrUnauthorized := Failure(StatusBadRequest, "Cannot rate yourself or Unauthorized")
  const AlreadyRated := Failure(StatusBadRequest, "You have already rated this item")
  const RatingNotFound := Failure(StatusNotFound, "Rating not found")
  const Unauthorized := Failure(StatusUnauthorized, "Unauthorized")
  const ValidationFailed := Failure(StatusBadRequest, "Validation failed")
  const NotCreatorOrMissing := Failure(StatusUnauthorized, "Unauthorized or rating not found")
  const CannotRateYourself := Failure(StatusBadRequest, "Cannot rate yourself")
  const Deleted := "Rating deleted successfully"

  /** The document id `DeleteRating` addresses for the route parameter. */
  function DeleteRatingId(param: string): (id: string)
    ensures |id| == |"ratings/"| + |param| && id[|"ratings/"|..] == param && id != param
  {
    "ratings/" + param
  }

  /** The ratings collection, by document id. */
  class RatingStore {
    var ratings: map<string, Rating>

    /** What every handler keeps: documents carry their own id, have stars
        in range, never rate their own creator, and no creator has rated
        the same recipient twice. */
    ghost predicate Valid()
      reads this
    {
      && (forall id :: id in ratings ==> ratings[id].id == id)
      && (forall id :: id in ratings ==> StarsInRange(ratings[id].stars))
      && (forall id :: id in ratings ==> ratings[id].creatorId != ratings[id].recipientId)
      && (forall id1, id2 :: id1 in ratings && id2 in ratings && id1 != id2 ==>
            !(ratings[id1].creatorId == ratings[id2].creatorId && ratings[id1].recipientId == ratings[id2].recipientId))
    }

    constructor()
      ensures ratings == map[] && Valid()
    {
      ratings := map[];
    }

    /** Some stored rating by `creator` names `recipient`: the query of
        `CreateRating` on recipientID and creatorID. */
    predicate HasRated(creator: string, recipient: string)
      reads this
    {
      exists id :: id in ratings && ratings[id].creatorId == creator && ratings[id].recipientId == recipient
    }

    /** `POST /ratings`. The creator stored is the authenticated user,
        whatever the body says; `newId` is the id the database assigns and
        `now` the server clock. */
    method CreateRating(req: CreateRatingRequest, auth: Option<string>, newId: string, now: int)
      returns (r: Result<Rating>)
      requires Valid() && newId !in ratings
      modifies this
      ensures Valid()
      ensures !CreateRequestBinds(req) ==> r == Err(InvalidRequest) && ratings == old(ratings)
      ensures CreateRequestBinds(req) && (auth.None? || auth.value == req.recipientId) ==>
        r == Err(SelfOrUnauthorized) && ratings == old(ratings)
      ensures CreateRequestBinds(req) && auth.Some? && auth.value != req.recipientId && old(HasRated(auth.value, req.recipientId)) ==>
        r == Err(AlreadyRated) && ratings == old(ratings)
      ensures CreateRequestBinds(req) && auth.Some? && auth.value != req.recipientId && !old(HasRated(auth.value, req.recipientId)) ==>
        var rating := Rating(newId, auth.value, req.recipientId, req.recipientIsItem, req.title, req.body, req.stars, now);
        r == Ok(rating) && ratings == old(ratings)[newId := rating]
    {
      if !CreateRequestBinds(req) {
        return Err(InvalidRequest);
      }
      if auth.None? || auth.value == req.recipientId {
        return Err(SelfOrUnauthorized);
      }
      var userId := auth.value;
      var rating := Rating(newId, userId, req.recipientId, req.recipientIsItem, req.title, req.body, req.stars, now);
      if HasRated(userId, req.recipientId) {
        return Err(AlreadyRated);
      }
      ratings := ratings[newId := rating];
      r := Ok(rating);
    }

    /** `GET /ratings/:id`, with the raw parameter as the document id. */
    method GetRating(id: string) returns (r: Result<Rating>)
      requires Valid()
      ensures id in ratings ==> r == Ok(ratings[id]) && r.value.id == id
      ensures id !in ratings ==> r == Err(RatingNotFound)
    {
      if id !in ratings {
        return Err(RatingNotFound);
      }
      r := Ok(ratings[id]);
    }

    /** `PUT /ratings/:id`: only the creator may update, and only title,
        body and stars change. */
    method UpdateRating(id: string, auth: Option<string>, req: Rating) returns (r: Result<Rating>)
      requires Valid()
      modifies this
      ensures Valid()
      ensures auth.None? ==> r == Err(Unauthorized) && ratings == old(ratings)
      ensures auth.Some? && !ValidRating(req) ==> r == Err(ValidationFailed) && ratings == old(ratings)
      ensures auth.Some? && ValidRating(req) && (id !in old(ratings) || old(ratings)[id].creatorId != auth.value) ==>
        r == Err(NotCreatorOrMissing) && ratings == old(ratings)
      ensures (auth.Some? && ValidRating(req) && id in old(ratings) && old(ratings)[id].creatorId == auth.value
        && req.recipientId == auth.value) ==>
        r == Err(CannotRateYourself) && ratings == old(ratings)
      ensures (auth.Some? && ValidRating(req) && id in old(ratings) && old(ratings)[id].creatorId == auth.value
        && req.recipientId != auth.value) ==>
        var updated := old(ratings)[id].(title := req.title, body := req.body, stars := req.stars);
        r == Ok(updated) && ratings == old(ratings)[id := updated]
    {
      if auth.None? {
        return Err(Unauthorized);
      }
      if !ValidRating(req) {
        return Err(ValidationFailed);
      }
      var userId := auth.value;
      if id !in ratings || ratings[id].creatorId != userId {
        return Err(NotCreatorOrMissing);
      }
      if req.recipientId == userId {
        return Err(CannotRateYourself);
      }
      var rating := ratings[id];
      rating := rating.(title := req.title);
      rating := rating.(body := req.body);
      rating := rating.(stars := req.stars);
      ratings := ratings[id := rating];
      r := Ok(rating);
    }

    /** `DELETE /ratings/:id`, on the document `ratings/<param>`: only the
        creator may delete. Loading a missing document leaves the `*Rating`
        nil without an error, so reading its creator panics and the
        recovery middleware answers. */
    method DeleteRating(param: string, auth: Option<string>) returns (r: Result<string>)
      requires Valid()
      modifies this
      ensures Valid()
      ensures auth.None? ==> r == Err(Unauthorized) && ratings == old(ratings)
      ensures auth.Some? && DeleteRatingId(param) !in old(ratings) ==>
        r == Err(Recovered) && ratings == old(ratings)
      ensures auth.Some? && DeleteRatingId(param) in old(ratings) && old(ratings)[DeleteRatingId(param)].creatorId != auth.value ==>
        r == Err(NotCreatorOrMissing) && ratings == old(ratings)
      ensures auth.Some? && DeleteRatingId(param) in old(ratings) && old(ratings)[DeleteRatingId(param)].creatorId == auth.value ==>
        r == Ok(Deleted) && ratings == old(ratings) - {DeleteRatingId(param)}
    {
      var id := DeleteRatingId(param);
      if auth.None? {
        return Err(Unauthorized);
      }
      if id !in ratings {
        return Err(Recovered);
      }
      if ratings[id].creatorId != auth.value {
        return Err(NotCreatorOrMissing);
      }
      ratings := ratings - {id};
      r := Ok(Deleted);
    }
  }
}

=== FILE: seed_products.dfy ===
/** The deterministic part of backend/db/seeding/seed_products.go: reading
    product and category rows of the seeding CSV files, inferring a colour
    from a product title, and the attributes given to a seeded item. The
    rows arrive already split into fields; opening and reading the files is
    not modelled. */
module SeedProducts {
  import opened Common
  import opened Text
  import opened Numbers
  import opened ItemModel

  datatype Product = Product(
    asin: string,
    title: string,
    imgUrl: string,
    productUrl: string,
    stars: real,
    reviews: int,
    price: real,
    listPrice: real,
    categoryId: int,
    isBestSeller: bool,
    boughtInLastMonth: int)

  datatype Category = Category(id: int, categoryName: string)

  /** The columns of a product row that the mapping reads. */
  const ProductColumns := 11
  const CategoryColumns := 2

  /** `strconv.ParseFloat` with its error ignored: a text outside the
      decimal syntax reads as 0. */
  function FloatOrZero(s: string): real {
    ParseDecimal(s).GetOr(0.0)
  }

  /** The `Product` built from one CSV row; the numeric columns keep what the
      parse returned and drop its error. */
  function ProductOf(record: seq<string>): (p: Product)
    requires |record| >= ProductColumns
  {
    Product(
      record[0], record[1], record[2], record[3],
      FloatOrZero(record[4]),
      Atoi(record[5]).value,
      FloatOrZero(record[6]),
      FloatOrZero(record[7]),
      Atoi(record[8]).value,
      record[9] == "True",
      Atoi(record[10]).value)
  }

  /** The text columns are copied, the best-seller flag is set exactly by
      the text `True`, and an integer column written in decimal reads back
      as that integer. */
  lemma ProductOfColumns(record: seq<string>, reviews: int, categoryId: int)
    requires |record| >= ProductColumns
    requires Int64Min <= reviews <= Int64Max && record[5] == IntToString(reviews)
    requires Int64Min <= categoryId <= Int64Max && record[8] == IntToString(categoryId)
    ensures var p := ProductOf(record);
      && p.asin == record[0] && p.title == record[1] && p.imgUrl == record[2] && p.productUrl == record[3]
      && (p.isBestSeller <==> record[9] == "True")
      && p.reviews == reviews && p.categoryId == categoryId
  {
    AtoiIntToString(reviews);
    AtoiIntToString(categoryId);
  }

  /** Every record after the header has as many fields as the header: a
      `csv.Reader` whose expected field count is left at zero takes it from
      the first record and fails with `ErrFieldCount` on any record that
      differs. */
  predicate RowsMatchHeader(records: seq<seq<string>>)
    requires |records| > 0
  {
    RowsMatchUpTo(records, |records|)
  }

  /** The records before index `n` match the header's field count. */
  predicate RowsMatchUpTo(records: seq<seq<string>>, n: nat)
    requires 0 < n <= |records|
  {
    forall i :: 1 <= i < n ==> |records[i]| == |records[0]|
  }

  lemma RowsMatchStep(records: seq<seq<string>>, n: nat)
    requires 0 < n < |records| && RowsMatchUpTo(records, n)
    ensures RowsMatchUpTo(records, n + 1) <==> |records[n]| == |records[0]|
    ensures |records[n]| != |records[0]| ==> !RowsMatchHeader(records)
  {
  }

  /** What the parsers demand: when the first data record passes the field
      count check, the header has every column the mapping reads (otherwise
      the indexing panics). */
  predicate HeaderWideEnough(records: seq<seq<string>>, columns: nat) {
    |records| >= 2 && |records[1]| == |records[0]| ==> |records[0]| >= columns
  }

  /** `ParseProductsCSV` on the records of the file: the first record is the
      header and is skipped; every further record becomes one product, in
      order. A file without even a header, or with a record whose field
      count differs from the header's, is the error `None`. */
  method ParseProductsCSV(records: seq<seq<string>>) returns (products: Option<seq<Product>>)
    requires HeaderWideEnough(records, ProductColumns)
    ensures products.None? <==> |records| == 0 || !RowsMatchHeader(records)
    ensures products.Some? ==>
      && |products.value| == |records| - 1
      && forall k :: 0 <= k < |products.value| ==>
           |records[k + 1]| >= ProductColumns && products.value[k] == ProductOf(records[k + 1])
  {
    if |records| == 0 {
      return None;
    }
    var parsed: seq<Product> := [];
    for i := 1 to |records|
      invariant |parsed| == i - 1
      invariant RowsMatchUpTo(records, i)
      invariant forall k :: 0 <= k < |parsed| ==>
        |records[k + 1]| >= ProductColumns && parsed[k] == ProductOf(records[k + 1])
    {
      RowsMatchStep(records, i);
      if |records[i]| != |records[0]| {
        return None;
      }
      assert |records[1]| == |records[0]|;
      var p := ProductOf(records[i]);
      ParsedStep(records, parsed, p);
      parsed := parsed + [p];
    }
    products := Some(parsed);
  }

  lemma ParsedStep(records: seq<seq<string>>, parsed: seq<Product>, p: Product)
    requires |parsed| + 1 < |records| && |records[|parsed| + 1]| >= ProductColumns
    requires forall k :: 0 <= k < |parsed| ==> |records[k + 1]| >= ProductColumns && parsed[k] == ProductOf(records[k + 1])
    requires p == ProductOf(records[|parsed| + 1])
    ensures forall k :: 0 <= k < |parsed| + 1 ==>
      |records[k + 1]| >= ProductColumns && (parsed + [p])[k] == ProductOf(records[k + 1])
  {
    assert (parsed + [p])[|parsed|] == p;
  }

  /** `ParseCategoriesCSV`: the header is skipped and every further record
      becomes the category of that id and name; the errors are those of
      `ParseProductsCSV`. */
  method ParseCategoriesCSV(records: seq<seq<string>>) returns (categories: Option<seq<Category>>)
    requires HeaderWideEnough(records, CategoryColumns)
    ensures categories.None? <==> |records| == 0 || !RowsMatchHeader(records)
    ensures categories.Some? ==>
      && |categories.value| == |records| - 1
      && forall k :: 0 <= k < |categories.value| ==>
           |records[k + 1]| >= CategoryColumns
           && categories.value[k] == Category(Atoi(records[k + 1][0]).value, records[k + 1][1])
  {
    if |records| == 0 {
      return None;
    }
    var parsed: seq<Category> := [];
    for i := 1 to |records|
      invariant |parsed| == i - 1
      invariant RowsMatchUpTo(records, i)
      invariant forall k :: 0 <= k < |parsed| ==>
        |records[k + 1]| >= CategoryColumns
        && parsed[k] == Category(Atoi(records[k + 1][0]).value, records[k + 1][1])
    {
      RowsMatchStep(records, i);
      if |records[i]| != |records[0]| {
        return None;
      }
      assert |records[1]| == |records[0]|;
      parsed := parsed + [Category(Atoi(records[i][0]).value, records[i][1])];
    }
    categories := Some(parsed);
  }

  /** The colours looked for in titles, in the order they are tried. */
  const Colors: seq<string> :=
    ["red", "green", "blue", "black", "white", "yellow", "orange", "purple", "pink", "brown"]

  /** What `inferColor` returns when no colour occurs. */
  const NotSpecified := "not specified"

  /** The index of the first of `candidates`, from `from` on, that occurs in
      `text`. */
  function FirstContained(text: string, candidates: seq<string>, from: nat): (r: Option<nat>)
    requires from <= |candidates|
    ensures r.Some? ==> from <= r.value < |candidates| && Contains(text, candidates[r.value])
    ensures r.Some? ==> forall k :: from <= k < r.value ==> !Contains(text, candidates[k])
    ensures r.None? ==> forall k :: from <= k < |candidates| ==> !Contains(text, candidates[k])
    decreases |candidates| - from
  {
    if from == |candidates| then None
    else if Contains(text, candidates[from]) then Some(from)
    else FirstContained(text, candidates, from + 1)
  }

  /** The colour inferred from a title: the earliest colour of the list that
      occurs anywhere in the lower-cased title, or `not specified`. */
  function InferredColor(title: string): (color: string)
    ensures color in Colors || color == NotSpecified
    ensures color == NotSpecified <==> forall k :: 0 <= k < |Colors| ==> !Contains(Lower(title), Colors[k])
    ensures color != NotSpecified ==>
      (exists i :: 0 <= i < |Colors| && color == Colors[i] && Contains(Lower(title), color)
        && forall k :: 0 <= k < i ==> !Contains(Lower(title), Colors[k]))
  {
    match FirstContained(Lower(title), Colors, 0)
    case None => NotSpecified
    case Some(i) => Colors[i]
  }

  /** `inferColor`: the loop over the colours returns at the first one the
      lower-cased title contains. */
  method InferColor(title: string) returns (color: string)
    ensures color == InferredColor(title)
  {
    for i := 0 to |Colors|
      invariant FirstContained(Lower(title), Colors, 0) == FirstContained(Lower(title), Colors, i)
    {
      if Contains(Lower(title), Colors[i]) {
        return Colors[i];
      }
    }
    return NotSpecified;
  }

  /** The colours tried are exactly the colour options of the item model, so
      an inferred colour passes validation and `not specified` does not. */
  lemma InferredColorValidity(title: string)
    ensures OneOf(InferredColor(title), ColorOptions) <==> InferredColor(title) != NotSpecified
  {
    assert Colors == ColorOptions;
    assert NotSpecified !in ColorOptions;
  }

  /** Matching ignores case: titles that differ only in the case of ASCII
      letters infer the same colour. */
  lemma InferredColorIgnoresCase(a: string, b: string)
    requires |a| == |b| && forall i :: 0 <= i < |a| ==> LowerChar(a[i]) == LowerChar(b[i])
    ensures InferredColor(a) == InferredColor(b)
  {
    assert Lower(a) == Lower(b);
  }

  /** Matching is by substring and by list order: a colour that occurs
      anywhere in the lower-cased title, inside another word too, is the one
      inferred when no colour listed before it occurs, wherever the colours
      listed after it stand in the title. */
  lemma InferredColorBySubstring(title: string, i: nat, at: nat)
    requires i < |Colors| && OccursAt(Lower(title), Colors[i], at)
    requires forall k :: 0 <= k < i ==> !Contains(Lower(title), Colors[k])
    ensures InferredColor(title) == Colors[i]
  {
    ContainsWhenOccurs(Lower(title), Colors[i], at);
  }

  /** The random choices of `RandString`: one index per randomly filled
      attribute. */
  datatype Picks = Picks(
    condition: nat, size: nat, shippingOptions: nat,
    ownershipHistory: nat, authenticity: nat, listingType: nat)

  /** Every index lies in its list, as `gofakeit.Number(0, len(arr)-1)`
      guarantees; all six lists have three entries. */
  predicate PicksInRange(picks: Picks) {
    && picks.condition < 3 && picks.size < 3 && picks.shippingOptions < 3
    && picks.ownershipHistory < 3 && picks.authenticity < 3 && picks.listingType < 3
  }

  /** `InferAttributes`: random values from the declared option lists, the
      colour inferred from the title and the category given. */
  function InferAttributes(product: Product, dbCat: string, picks: Picks): (a: Attributes)
    requires PicksInRange(picks)
    ensures a.condition in ConditionOptions && a.size in SizeOptions
    ensures a.shippingOptions in ShippingOptions && a.ownershipHistory in OwnershipHistoryOptions
    ensures a.authenticity in AuthenticityOptions && a.listingType in ListingTypeOptions
  {
    Attributes(
      ["new", "used", "refurbished"][picks.condition],
      ["small", "medium", "large"][picks.size],
      InferredColor(product.title),
      ["localPickup", "domesticShipping", "internationalShipping"][picks.shippingOptions],
      ["sale", "rent", "exchange"][picks.listingType],
      dbCat,
      ["firstOwner", "secondOwner", "multipleOwners"][picks.ownershipHistory],
      ["authentic", "replica", "unauthorized"][picks.authenticity])
  }

  /** A seeded item's attributes validate exactly when a colour was found in
      its title and its category is one of the item categories (or empty):
      the randomly filled fields always pass. */
  lemma InferAttributesValidity(product: Product, dbCat: string, picks: Picks)
    requires PicksInRange(picks)
    ensures var a := InferAttributes(product, dbCat, picks);
      && a.color == InferredColor(product.title) && a.itemCategory == dbCat
      && (ValidAttributes(a) <==> InferredColor(product.title) != NotSpecified && OneOf(dbCat, ItemCategoryOptions))
  {
    InferredColorValidity(product.title);
  }
}

=== FILE: star_rating.dfy ===
/** The star row of website/src/components/Ratings/StarRating.tsx, on the
    doubled star scale of the server: a rating of 7 is three and a half
    stars. */
module StarRating {
  import opened Common
  import Ratings

  const TotalStars := 5

  /** A JavaScript number as the row receives it: a value, or `NaN`. */
  datatype JsNumber = Num(value: real) | NaN

  /** A whole score as the number the row receives. */
  function Score(rating: int): JsNumber {
    Num(rating as real)
  }

  function SumOf(stars: seq<int>): int {
    if |stars| == 0 then 0 else SumOf(stars[..|stars| - 1]) + stars[|stars| - 1]
  }

  /** The `rating` that website/src/components/Ratings/Ratings.tsx hands on:
      `sum / ratings.length`, which is `0 / 0`, `NaN`, without ratings. */
  function Average(stars: seq<int>): (avg: JsNumber)
    ensures avg.NaN? <==> |stars| == 0
  {
    if |stars| == 0 then NaN else Num(SumOf(stars) as real / |stars| as real)
  }

  lemma {:induction false} SumOfBounds(stars: seq<int>)
    requires forall i :: 0 <= i < |stars| ==> Ratings.StarsInRange(stars[i])
    ensures |stars| <= SumOf(stars) <= 10 * |stars|
  {
    if |stars| > 0 {
      var init := stars[..|stars| - 1];
      assert forall i :: 0 <= i < |init| ==> init[i] == stars[i];
      SumOfBounds(init);
    }
  }

  /** The average of scores the server accepts lies in 1..10. */
  lemma AverageInRange(stars: seq<int>)
    requires |stars| > 0 && forall i :: 0 <= i < |stars| ==> Ratings.StarsInRange(stars[i])
    ensures 1.0 <= Average(stars).value <= 10.0
  {
    SumOfBounds(stars);
    var total := SumOf(stars) as real;
    var n := |stars| as real;
    assert total / n * n == total;
    QuotientBounds(total, n, total / n);
  }

  lemma QuotientBounds(total: real, n: real, q: real)
    requires n > 0.0 && n <= total <= 10.0 * n && q * n == total
    ensures 1.0 <= q <= 10.0
  {
    if q < 1.0 {
      ScaleStrict(q, 1.0, n);
    } else if q > 10.0 {
      ScaleStrict(10.0, q, n);
    }
  }

  lemma ScaleStrict(a: real, b: real, c: real)
    requires a < b && c > 0.0
    ensures a * c < b * c
  {
    assert (b - a) * c > 0.0;
  }

  /** `ratingState`: the rating on the five-star scale, `rating / 2`. */
  function RatingState(rating: JsNumber): JsNumber {
    match rating
    case Num(r) => Num(r / 2.0)
    case NaN => NaN
  }

  /** `Math.floor(ratingState)`. */
  function FullStars(x: real): int {
    x.Floor
  }

  /** JavaScript `x % 1`: the remainder keeps the sign of `x`, so it is `x`
      less its integer part rounded towards zero. */
  function JsRemOne(x: real): real {
    if x >= 0.0 then x - x.Floor as real else x + (-x).Floor as real
  }

  /** `ratingState % 1 >= 0.5 ? 0.5 : 0`. */
  function HalfStar(x: real): real {
    if JsRemOne(x) >= 0.5 then 0.5 else 0.0
  }

  /** The entry at `index` of the star map. With `NaN` both `index <
      fullStars` and `index === fullStars` are false, so the entry is 0. */
  function StarAt(rating: JsNumber, index: int): real {
    match RatingState(rating)
    case NaN => 0.0
    case Num(x) =>
      if index < FullStars(x) then 1.0
      else if index == FullStars(x) then HalfStar(x)
      else 0.0
  }

  /** The star map: five entries, each a full, half or empty star. */
  function StarMap(rating: JsNumber): (stars: seq<real>)
    ensures |stars| == TotalStars
    ensures forall i :: 0 <= i < |stars| ==> stars[i] == StarAt(rating, i)
    ensures forall i :: 0 <= i < |stars| ==> stars[i] == 0.0 || stars[i] == 0.5 || stars[i] == 1.0
  {
    seq(TotalStars, i requires 0 <= i < TotalStars => StarAt(rating, i))
  }

  /** Stars fill from the left: the entries never increase along the row. */
  lemma StarMapNonIncreasing(rating: JsNumber)
    ensures forall i, j :: 0 <= i < j < TotalStars ==> StarMap(rating)[i] >= StarMap(rating)[j]
  {
  }

  /** Something that has no ratings shows five empty stars. */
  lemma StarMapOfNoRatings()
    ensures forall i :: 0 <= i < TotalStars ==> StarMap(Average([]))[i] == 0.0
  {
  }

  function Sum(s: seq<real>): real {
    if |s| == 0 then 0.0 else s[0] + Sum(s[1..])
  }

  lemma SumOfFive(a: real, b: real, c: real, d: real, e: real)
    ensures Sum([a, b, c, d, e]) == a + b + c + d + e
  {
    assert [a, b, c, d, e][1..] == [b, c, d, e];
    assert [b, c, d, e][1..] == [c, d, e];
    assert [c, d, e][1..] == [d, e];
    assert [d, e][1..] == [e];
    assert [e][1..] == [];
    assert Sum([e]) == e;
    assert Sum([d, e]) == d + e;
    assert Sum([c, d, e]) == c + d + e;
    assert Sum([b, c, d, e]) == b + c + d + e;
  }

  /** The stars shown for a rating of 0..10: `f` full stars followed by a
      half star when `half` holds. */
  lemma StarsOfState(rating: real, f: int, half: bool)
    requires 0.0 <= rating <= 10.0 && f == FullStars(rating / 2.0)
    requires half <==> HalfStar(rating / 2.0) == 0.5
    ensures 0 <= f <= TotalStars
    ensures Sum(StarMap(Num(rating))) == f as real + (if half && f < TotalStars then 0.5 else 0.0)
  {
    var m := StarMap(Num(rating));
    assert m == [StarAt(Num(rating), 0), StarAt(Num(rating), 1), StarAt(Num(rating), 2), StarAt(Num(rating), 3), StarAt(Num(rating), 4)];
    SumOfFive(m[0], m[1], m[2], m[3], m[4]);
  }

  /** Any rating of 0..10, an average included, is shown rounded down to
      the nearest half star. */
  lemma StarMapRoundsDown(rating: real)
    requires 0.0 <= rating <= 10.0
    ensures var shown := Sum(StarMap(Num(rating)));
      shown <= rating / 2.0 < shown + 0.5
  {
    var x := rating / 2.0;
    StarsOfState(rating, FullStars(x), HalfStar(x) == 0.5);
  }

  /** The row under a list of ratings shows their average, halved onto the
      five-star scale and rounded down to a half star. */
  lemma AverageStarsShown(stars: seq<int>)
    requires |stars| > 0 && forall i :: 0 <= i < |stars| ==> Ratings.StarsInRange(stars[i])
    ensures var avg := Average(stars).value; var shown := Sum(StarMap(Average(stars)));
      shown <= avg / 2.0 < shown + 0.5
  {
    AverageInRange(stars);
    StarMapRoundsDown(Average(stars).value);
  }

  /** For a score of the server's scale the row shows exactly half of it:
      `rating / 2` full stars, and a half star when the score is odd. */
  lemma StarMapShowsRating(rating: int)
    requires 0 <= rating <= 10
    ensures Sum(StarMap(Score(rating))) == rating as real / 2.0
    ensures forall i :: 0 <= i < TotalStars ==> (StarMap(Score(rating))[i] == 1.0 <==> i < rating / 2)
    ensures rating < 10 ==> (StarMap(Score(rating))[rating / 2] == 0.5 <==> rating % 2 == 1)
  {
    var x := rating as real / 2.0;
    var q := rating / 2;
    assert rating as real == 2.0 * q as real + (rating % 2) as real;
    assert FullStars(x) == q;
    StarsOfState(rating as real, q, rating % 2 == 1);
  }

  /** `handleStarClick`: a click on the left half of star `index` reports
      `2 * (index + 0.5)`, on the right half `2 * (index + 1)`. */
  function ClickValue(index: int, leftHalf: bool): (value: int)
    ensures 0 <= index < TotalStars ==> Ratings.StarsInRange(value)
  {
    if leftHalf then 2 * index + 1 else 2 * index + 2
  }

  /** A click reports nothing when no `allowClick` callback was given. */
  function Click(allowClick: bool, index: int, leftHalf: bool): (reported: Option<int>)
    ensures reported.Some? <==> allowClick
    ensures reported.Some? && 0 <= index < TotalStars ==> Ratings.StarsInRange(reported.value)
  {
    if !allowClick then None else Some(ClickValue(index, leftHalf))
  }

  /** The star and half that report `value`. */
  function ClickFor(value: int): (click: (int, bool))
    requires Ratings.StarsInRange(value)
    ensures 0 <= click.0 < TotalStars
  {
    ((value - 1) / 2, value % 2 == 1)
  }

  /** Every score the server accepts is reported by exactly one star half. */
  lemma ClickValuesCoverScale(value: int, index: int, leftHalf: bool)
    requires Ratings.StarsInRange(value)
    ensures ClickValue(ClickFor(value).0, ClickFor(value).1) == value
    ensures 0 <= index < TotalStars ==> ClickFor(ClickValue(index, leftHalf)) == (index, leftHalf)
  {
  }

  /** After a click the row shows what was reported: the stars left of the
      clicked one are full, and the clicked one is half or full. */
  lemma ClickShowsValue(index: int, leftHalf: bool)
    requires 0 <= index < TotalStars
    ensures var stars := StarMap(Score(ClickValue(index, leftHalf)));
      && (forall i :: 0 <= i < index ==> stars[i] == 1.0)
      && stars[index] == (if leftHalf then 0.5 else 1.0)
      && (forall i :: index < i < TotalStars ==> stars[i] == 0.0)
  {
  }
}

=== FILE: text.dfy ===
/** The string operations the backend (Go `strings`, `path/filepath`) and the
    website (JavaScript `String.prototype`) apply. Strings are sequences of
    Unicode scalar values; case mapping covers ASCII letters only. */
module Text {
  import opened Common

  /** `sub` occurs in `s` starting at index `i`. */
  predicate OccursAt(s: string, sub: string, i: nat) {
    i + |sub| <= |s| && s[i..i + |sub|] == sub
  }

  /** The first index at or after `from` where `sub` occurs. */
  function IndexOfFrom(s: string, sub: string, from: nat): (r: Option<nat>)
    ensures r.Some? ==> from <= r.value && OccursAt(s, sub, r.value)
    ensures r.Some? ==> forall j :: from <= j < r.value ==> !OccursAt(s, sub, j)
    ensures r.None? ==> forall j :: from <= j ==> !OccursAt(s, sub, j)
    decreases |s| - from
  {
    if from + |sub| > |s| then None
    else if s[from..from + |sub|] == sub then Some(from)
    else IndexOfFrom(s, sub, from + 1)
  }

  /** Go `strings.Index`, JavaScript `indexOf`: the first occurrence. */
  function IndexOf(s: string, sub: string): Option<nat> {
    IndexOfFrom(s, sub, 0)
  }

  /** Go `strings.Contains`, JavaScript `includes` on strings. */
  predicate Contains(s: string, sub: string) {
    IndexOf(s, sub).Some?
  }

  lemma ContainsWhenOccurs(s: string, sub: string, i: nat)
    requires OccursAt(s, sub, i)
    ensures Contains(s, sub)
  {
  }

  /** The first index of character `c` in `s`. */
  function CharIndex(s: string, c: char): (r: Option<nat>)
    ensures r.Some? ==> r.value < |s| && s[r.value] == c && c !in s[..r.value]
    ensures r.None? ==> c !in s
  {
    if |s| == 0 then None
    else if s[0] == c then Some(0)
    else match CharIndex(s[1..], c)
      case None => None
      case Some(i) => assert s[1..][..i] == s[1..i + 1]; Some(i + 1)
  }

  /** Go `strings.Split(s, sep)` and JavaScript `s.split(sep)` for a
      one-character separator: the pieces between the separators, in order;
      the empty string gives one empty piece. */
  function Split(s: string, sep: char): (parts: seq<string>)
    ensures |parts| >= 1
    ensures forall k :: 0 <= k < |parts| ==> sep !in parts[k]
    decreases |s|
  {
    match CharIndex(s, sep)
    case None => [s]
    case Some(i) => [s[..i]] + Split(s[i + 1..], sep)
  }

  /** JavaScript `parts.join(sep)`. */
  function Join(parts: seq<string>, sep: string): string {
    if |parts| == 0 then ""
    else if |parts| == 1 then parts[0]
    else parts[0] + sep + Join(parts[1..], sep)
  }

  /** Joining the pieces of a split with the separator gives back the string. */
  lemma {:induction false} JoinSplit(s: string, sep: char)
    ensures Join(Split(s, sep), [sep]) == s
    decreases |s|
  {
    match CharIndex(s, sep)
    case None =>
    case Some(i) =>
      var rest := s[i + 1..];
      var parts := Split(rest, sep);
      JoinSplit(rest, sep);
      assert Split(s, sep) == [s[..i]] + parts;
      assert ([s[..i]] + parts)[1..] == parts;
      assert Join([s[..i]] + parts, [sep]) == s[..i] + [sep] + Join(parts, [sep]);
      assert s == s[..i] + [sep] + rest;
  }

  /** Splitting the join of separator-free pieces gives the pieces back. */
  lemma {:induction false} SplitJoin(parts: seq<string>, sep: char)
    requires |parts| >= 1
    requires forall k :: 0 <= k < |parts| ==> sep !in parts[k]
    ensures Split(Join(parts, [sep]), sep) == parts
    decreases |parts|
  {
    if |parts| > 1 {
      var rest := parts[1..];
      var s := Join(parts, [sep]);
      assert s == parts[0] + [sep] + Join(rest, [sep]);
      assert s[|parts[0]|] == sep;
      assert s[..|parts[0]|] == parts[0];
      assert CharIndex(s, sep) == Some(|parts[0]|);
      assert s[|parts[0]| + 1..] == Join(rest, [sep]);
      SplitJoin(rest, sep);
      assert parts == [parts[0]] + rest;
    }
  }

  /** A character in none of the pieces nor the separator is not in their join. */
  lemma {:induction false} JoinAvoids(parts: seq<string>, sep: string, c: char)
    requires c !in sep
    requires forall k :: 0 <= k < |parts| ==> c !in parts[k]
    ensures c !in Join(parts, sep)
    decreases |parts|
  {
    if |parts| > 1 {
      JoinAvoids(parts[1..], sep, c);
    }
  }

  /** Go `strings.Split(s, sep)[1]`: the text between the first and the
      second occurrence of `sep` (or the end). Only defined where the source
      first checked `strings.Contains(s, sep)`. */
  function SecondField(s: string, sep: string): (r: string)
    requires |sep| > 0 && Contains(s, sep)
  {
    var i := IndexOf(s, sep).value;
    var rest := s[i + |sep|..];
    match IndexOf(rest, sep)
    case None => rest
    case Some(j) => rest[..j]
  }

  /** The order of Go `sort.Strings`: byte-wise lexicographic, which on
      UTF-8 is the order of code points; a proper prefix comes first. */
  predicate LexLess(a: string, b: string)
    decreases |a|
  {
    |b| > 0 && (|a| == 0 || a[0] < b[0] || (a[0] == b[0] && LexLess(a[1..], b[1..])))
  }

  /** Of two different strings, exactly one is less than the other. */
  lemma {:induction false} LexTotal(a: string, b: string)
    ensures a != b <==> (LexLess(a, b) || LexLess(b, a))
    ensures !(LexLess(a, b) && LexLess(b, a))
    decreases |a|
  {
    if |a| > 0 && |b| > 0 && a[0] == b[0] {
      LexTotal(a[1..], b[1..]);
      assert a == [a[0]] + a[1..] && b == [b[0]] + b[1..];
    }
  }

  predicate IsUpperAscii(c: char) { 'A' <= c <= 'Z' }
  predicate IsLowerAscii(c: char) { 'a' <= c <= 'z' }

  function LowerChar(c: char): (r: char)
    ensures IsUpperAscii(c) ==> IsLowerAscii(r)
    ensures !IsUpperAscii(c) ==> r == c
  {
    if IsUpperAscii(c) then (c as int + 32) as char else c
  }

  function UpperChar(c: char): (r: char)
    ensures IsLowerAscii(c) ==> IsUpperAscii(r)
    ensures !IsLowerAscii(c) ==> r == c
  {
    if IsLowerAscii(c) then (c as int - 32) as char else c
  }

  /** Go `strings.ToLower`, restricted to ASCII case mapping. */
  function Lower(s: string): (r: string)
    ensures |r| == |s|
    ensures forall i :: 0 <= i < |s| ==> r[i] == LowerChar(s[i])
  {
    seq(|s|, i requires 0 <= i < |s| => LowerChar(s[i]))
  }

  /** The characters JavaScript's `trim` removes: WhiteSpace and
      LineTerminator of ECMAScript (section 12.2 and 12.3 of ECMA-262). */
  predicate IsJsSpace(c: char) {
    c == '\t' || c == '\n' || c == '\U{B}' || c == '\U{C}' || c == '\r' || c == ' '
    || c == '\U{A0}' || c == '\U{1680}' || ('\U{2000}' <= c <= '\U{200A}')
    || c == '\U{2028}' || c == '\U{2029}' || c == '\U{202F}' || c == '\U{205F}'
    || c == '\U{3000}' || c == '\U{FEFF}'
  }

  function TrimStart(s: string): string {
    if |s| > 0 && IsJsSpace(s[0]) then TrimStart(s[1..]) else s
  }

  function TrimEnd(s: string): string {
    if |s| > 0 && IsJsSpace(s[|s| - 1]) then TrimEnd(s[..|s| - 1]) else s
  }

  /** JavaScript `s.trim()`. */
  function Trim(s: string): string {
    TrimEnd(TrimStart(s))
  }

  /** `TrimStart` drops exactly the leading space-like characters: what it
      keeps is a suffix that does not start with one. */
  lemma {:induction false} TrimStartShape(s: string)
    ensures var r := TrimStart(s);
      && |r| <= |s| && r == s[|s| - |r|..]
      && (r == [] || !IsJsSpace(r[0]))
      && forall i :: 0 <= i < |s| - |r| ==> IsJsSpace(s[i])
  {
    if |s| > 0 && IsJsSpace(s[0]) {
      TrimStartShape(s[1..]);
      var r := TrimStart(s);
      forall i | 0 <= i < |s| - |r|
        ensures IsJsSpace(s[i])
      {
        if i > 0 {
          assert s[i] == s[1..][i - 1];
        }
      }
    }
  }

  /** `TrimEnd` drops exactly the trailing space-like characters: what it
      keeps is a prefix that does not end with one. */
  lemma {:induction false} TrimEndShape(s: string)
    ensures var r := TrimEnd(s);
      && |r| <= |s| && r == s[..|r|]
      && (r == [] || !IsJsSpace(r[|r| - 1]))
      && forall i :: |r| <= i < |s| ==> IsJsSpace(s[i])
  {
    if |s| > 0 && IsJsSpace(s[|s| - 1]) {
      var init := s[..|s| - 1];
      TrimEndShape(init);
      var r := TrimEnd(s);
      forall i | |r| <= i < |s|
        ensures IsJsSpace(s[i])
      {
        if i < |s| - 1 {
          assert s[i] == init[i];
        }
      }
    }
  }

  /** The trimmed text neither starts nor ends with a space-like character. */
  lemma TrimShape(s: string)
    ensures Trim(s) == [] || (!IsJsSpace(Trim(s)[0]) && !IsJsSpace(Trim(s)[|Trim(s)| - 1]))
  {
    var t := TrimStart(s);
    TrimStartShape(s);
    TrimEndShape(t);
    var r := TrimEnd(t);
    if r != [] {
      assert r[0] == t[0];
    }
  }

  /** A string with no space-like character at either end is its own trim. */
  lemma TrimOfTrimmed(s: string)
    requires s == [] || (!IsJsSpace(s[0]) && !IsJsSpace(s[|s| - 1]))
    ensures Trim(s) == s
  {
  }

  /** JavaScript `s.replace(pattern, replacement)` with a string pattern and a
      replacement without `$` patterns: only the first occurrence changes. */
  function ReplaceFirst(s: string, pattern: string, replacement: string): string {
    match IndexOf(s, pattern)
    case None => s
    case Some(i) => s[..i] + replacement + s[i + |pattern|..]
  }

  /** Go `filepath.Ext` with `/` as the separator: the suffix from the last
      `.` of the final path element, or "" when that element has no dot. */
  function Ext(path: string): string {
    ExtScan(path, |path|)
  }

  /** The scan of `filepath.Ext` from index `i - 1` backwards; the part of
      the path after `i` holds neither a dot nor a separator. */
  function ExtScan(path: string, i: nat): string
    requires i <= |path| && '.' !in path[i..] && '/' !in path[i..]
  {
    if i == 0 || path[i - 1] == '/' then ""
    else if path[i - 1] == '.' then path[i - 1..]
    else
      assert path[i - 1..] == [path[i - 1]] + path[i..];
      ExtScan(path, i - 1)
  }

  /** The extension is a suffix of the path that is empty or starts with
      the last dot and holds no separator. */
  lemma ExtShape(path: string)
    ensures |Ext(path)| <= |path| && Ext(path) == path[|path| - |Ext(path)|..]
    ensures Ext(path) == [] || (Ext(path)[0] == '.' && '.' !in Ext(path)[1..] && '/' !in Ext(path))
  {
    ExtScanShape(path, |path|);
  }

  lemma {:induction false} ExtScanShape(path: string, i: nat)
    requires i <= |path| && '.' !in path[i..] && '/' !in path[i..]
    ensures var r := ExtScan(path, i);
      && |r| <= |path| && r == path[|path| - |r|..]
      && (r == [] || (r[0] == '.' && '.' !in r[1..] && '/' !in r))
  {
    if i == 0 || path[i - 1] == '/' {
    } else if path[i - 1] == '.' {
      assert path[i - 1..][1..] == path[i..];
    } else {
      assert path[i - 1..] == [path[i - 1]] + path[i..];
      ExtScanShape(path, i - 1);
    }
  }
}

=== FILE: title_case.dfy ===
/** `toTitleCaseWithSpaces`, which website/src/components/HomeHeader.tsx,
    AttributeSelect.tsx and pages/Items/NewItemPage.tsx each declare with
    the same body: it turns a camel-case identifier such as `homeAndGarden`
    into the label `Home And Garden`. */
module TitleCase {
  import opened Text

  /** `str.replace(/([A-Z])/g, " $1")`: a space before every capital letter. */
  function SpaceCapitals(s: string): (r: string)
    ensures |r| >= |s|
  {
    if |s| == 0 then ""
    else (if IsUpperAscii(s[0]) then [' ', s[0]] else [s[0]]) + SpaceCapitals(s[1..])
  }

  /** The label: spaces before capitals, trimmed, with the first character
      upper-cased. The label never starts or ends with white space and never
      starts with a lower-case letter. */
  function ToTitleCaseWithSpaces(s: string): (title: string)
    ensures title == [] || (!IsJsSpace(title[0]) && !IsJsSpace(title[|title| - 1]))
    ensures title != [] ==> !IsLowerAscii(title[0])
  {
    var t := Trim(SpaceCapitals(s));
    TrimShape(SpaceCapitals(s));
    // `/^./` matches the first character: after the trim it is no line terminator
    if |t| == 0 then "" else [UpperChar(t[0])] + t[1..]
  }

  /** A camel-case identifier: a lower-case ASCII letter followed by ASCII
      letters and digits, as the attribute keys and option values are. */
  predicate IsCamelIdentifier(s: string) {
    && |s| > 0 && IsLowerAscii(s[0])
    && forall i :: 0 <= i < |s| ==> IsLowerAscii(s[i]) || IsUpperAscii(s[i]) || '0' <= s[i] <= '9'
  }

  /** The inverse on labels of identifiers: drop the spaces and lower-case
      the first letter. */
  function FromTitle(title: string): (s: string)
    ensures |s| <= |title|
  {
    if |title| == 0 then "" else [LowerChar(title[0])] + RemoveSpaces(title[1..])
  }

  function RemoveSpaces(s: string): (r: string)
    ensures |r| <= |s| && ' ' !in r
  {
    if |s| == 0 then "" else (if s[0] == ' ' then "" else [s[0]]) + RemoveSpaces(s[1..])
  }

  lemma {:induction false} RemoveSpacesOfSpaced(s: string)
    requires ' ' !in s
    ensures RemoveSpaces(SpaceCapitals(s)) == s
  {
    if |s| > 0 {
      RemoveSpacesOfSpaced(s[1..]);
      var head := if IsUpperAscii(s[0]) then [' ', s[0]] else [s[0]];
      RemoveSpacesAppend(head, SpaceCapitals(s[1..]));
      assert RemoveSpaces(head) == [s[0]];
      assert s == [s[0]] + s[1..];
    }
  }

  lemma {:induction false} RemoveSpacesAppend(a: string, b: string)
    ensures RemoveSpaces(a + b) == RemoveSpaces(a) + RemoveSpaces(b)
  {
    if |a| == 0 {
      assert a + b == b;
    } else {
      var h := if a[0] == ' ' then "" else [a[0]];
      assert (a + b)[0] == a[0] && (a + b)[1..] == a[1..] + b;
      calc {
        RemoveSpaces(a + b);
        h + RemoveSpaces(a[1..] + b);
        { RemoveSpacesAppend(a[1..], b); }
        h + (RemoveSpaces(a[1..]) + RemoveSpaces(b));
        (h + RemoveSpaces(a[1..])) + RemoveSpaces(b);
        RemoveSpaces(a) + RemoveSpaces(b);
      }
    }
  }

  lemma {:induction false} SpaceCapitalsAppend(a: string, b: string)
    ensures SpaceCapitals(a + b) == SpaceCapitals(a) + SpaceCapitals(b)
  {
    if |a| == 0 {
      assert a + b == b;
    } else {
      var h := if IsUpperAscii(a[0]) then [' ', a[0]] else [a[0]];
      assert (a + b)[0] == a[0] && (a + b)[1..] == a[1..] + b;
      calc {
        SpaceCapitals(a + b);
        h + SpaceCapitals(a[1..] + b);
        { SpaceCapitalsAppend(a[1..], b); }
        h + (SpaceCapitals(a[1..]) + SpaceCapitals(b));
        (h + SpaceCapitals(a[1..])) + SpaceCapitals(b);
        SpaceCapitals(a) + SpaceCapitals(b);
      }
    }
  }

  /** Text without capitals is left as it is. */
  lemma {:induction false} SpaceCapitalsLower(s: string)
    requires forall i :: 0 <= i < |s| ==> IsLowerAscii(s[i])
    ensures SpaceCapitals(s) == s
  {
    if |s| > 0 {
      SpaceCapitalsLower(s[1..]);
      assert s == [s[0]] + s[1..];
    }
  }

  lemma {:induction false} SpaceCapitalsLast(s: string)
    requires |s| > 0
    ensures |SpaceCapitals(s)| > 0 && SpaceCapitals(s)[|SpaceCapitals(s)| - 1] == s[|s| - 1]
  {
    if |s| > 1 {
      SpaceCapitalsLast(s[1..]);
    }
  }

  /** On an identifier the trim removes nothing: the label is the first
      letter upper-cased, then the rest with a space before each capital. */
  lemma TitleOfIdentifier(s: string)
    requires IsCamelIdentifier(s)
    ensures ToTitleCaseWithSpaces(s) == [UpperChar(s[0])] + SpaceCapitals(s[1..])
  {
    var spaced := SpaceCapitals(s);
    assert spaced == [s[0]] + SpaceCapitals(s[1..]);
    SpaceCapitalsLast(s);
    TrimOfTrimmed(spaced);
  }

  /** Labels lose nothing: the identifier is recovered from its label. */
  lemma TitleRoundTrip(s: string)
    requires IsCamelIdentifier(s)
    ensures FromTitle(ToTitleCaseWithSpaces(s)) == s
  {
    TitleOfIdentifier(s);
    var rest := SpaceCapitals(s[1..]);
    assert ([UpperChar(s[0])] + rest)[1..] == rest;
    assert FromTitle([UpperChar(s[0])] + rest) == [LowerChar(UpperChar(s[0]))] + RemoveSpaces(rest);
    assert ' ' !in s[1..] by {
      forall i | 0 <= i < |s[1..]| ensures s[1..][i] != ' ' {
        assert s[1..][i] == s[i + 1];
      }
    }
    RemoveSpacesOfSpaced(s[1..]);
    assert s == [s[0]] + s[1..];
  }
}

=== FILE: uploads.dfy ===
/** Files uploaded with a multipart form and stored as attachments of a
    document, as backend/api/users.go and backend/api/items.go handle them. */
module Uploads {
  import opened Common
  import opened Text

  /** A file of the multipart form. `sniffedType` is what
      `http.DetectContentType` reports for its bytes. */
  datatype Upload = Upload(filename: string, bytes: seq<Byte>, sniffedType: string)

  /** An attachment stored with a document: its name, the content type it
      was stored with, and its bytes. */
  datatype Attachment = Attachment(name: string, contentType: string, bytes: seq<Byte>)

  /** The extension whitelist: exactly `.jpg`, `.png` or `.jpeg`, case
      sensitive, so `photo.JPG` is refused. */
  predicate IsImageExt(ext: string) {
    ext == ".jpg" || ext == ".png" || ext == ".jpeg"
  }

  predicate IsImageFile(filename: string) {
    IsImageExt(Ext(filename))
  }

  /** The refusal of a file outside the whitelist. */
  const NotAnImage := Failure(StatusBadRequest, "Only jpg, png, and jpeg files are allowed")

  /** `mime.TypeByExtension` on the whitelisted extensions, the only ones
      the handlers look up. */
  function MimeTypeByExtension(ext: string): (t: string)
    requires IsImageExt(ext)
    ensures t == "image/png" <==> ext == ".png"
    ensures t == "image/jpeg" <==> ext != ".png"
  {
    if ext == ".png" then "image/png" else "image/jpeg"
  }

  /** The stored attachment of an upload: its name and bytes, and the
      content type named by its extension, whatever the sniffed type. */
  function AttachmentOf(file: Upload): (a: Attachment)
    requires IsImageFile(file.filename)
    ensures a.name == file.filename && a.bytes == file.bytes
    ensures a.contentType == "image/png" <==> Ext(file.filename) == ".png"
    ensures a.contentType == "image/jpeg" <==> Ext(file.filename) in {".jpg", ".jpeg"}
  {
    Attachment(file.filename, MimeTypeByExtension(Ext(file.filename)), file.bytes)
  }

  function Names(attachments: seq<Attachment>): (names: seq<string>)
    ensures |names| == |attachments|
    ensures forall i :: 0 <= i < |attachments| ==> names[i] == attachments[i].name
  {
    if |attachments| == 0 then [] else [attachments[0].name] + Names(attachments[1..])
  }

  /** Deleting the attachment called `name`: the others stay, in order. */
  function RemoveNamed(attachments: seq<Attachment>, name: string): (r: seq<Attachment>)
    ensures |r| <= |attachments|
    ensures forall a :: a in r <==> a in attachments && a.name != name
  {
    if |attachments| == 0 then []
    else if attachments[0].name == name then RemoveNamed(attachments[1..], name)
    else [attachments[0]] + RemoveNamed(attachments[1..], name)
  }

  /** The attachments whose names are not in `names`, in order. */
  function Without(attachments: seq<Attachment>, names: seq<string>): seq<Attachment> {
    if |attachments| == 0 then []
    else if attachments[0].name in names then Without(attachments[1..], names)
    else [attachments[0]] + Without(attachments[1..], names)
  }

  lemma {:induction false} WithoutNothing(attachments: seq<Attachment>)
    ensures Without(attachments, []) == attachments
  {
    if |attachments| > 0 {
      WithoutNothing(attachments[1..]);
      assert attachments == [attachments[0]] + attachments[1..];
    }
  }

  /** Deleting one more name is filtering by one more name. */
  lemma {:induction false} RemoveNamedWithout(attachments: seq<Attachment>, names: seq<string>, name: string)
    ensures RemoveNamed(Without(attachments, names), name) == Without(attachments, names + [name])
  {
    if |attachments| > 0 {
      RemoveNamedWithout(attachments[1..], names, name);
    }
  }

  /** Filtering by every name that occurs leaves nothing. */
  lemma {:induction false} WithoutAllNames(attachments: seq<Attachment>, names: seq<string>)
    requires forall k :: 0 <= k < |attachments| ==> attachments[k].name in names
    ensures Without(attachments, names) == []
  {
    if |attachments| > 0 {
      WithoutAllNames(attachments[1..], names);
    }
  }
}

=== FILE: users.dfy ===
/** backend/api/users.go over the users collection and the attachments
    stored with each user: sign-up, log-in, the partial profile update and
    the public profile. bcrypt is kept symbolic and a token is its claims. */
module Users {
  import opened Common
  import opened Text
  import opened Encoding
  import opened Uploads

  /** A stored password hash. bcrypt is one-way, so the model keeps only
      which password was hashed; `Cleared` is the empty string the handlers
      put in its place before they answer. */
  datatype PasswordHash = Cleared | Bcrypt(password: string)

  datatype User = User(
    id: string,
    name: string,
    username: string,
    email: string,
    passwordHash: PasswordHash,
    profilePicture: string,
    avgRating: real,
    numRatings: int)

  /** The claims of the signed token: id, email, name and expiry (Unix seconds). */
  datatype Claims = Claims(id: string, email: string, name: string, exp: int)

  /** Tokens are valid for 72 hours. */
  const TokenLifetime: int := 72 * 3600

  /** The longest password, in UTF-8 bytes, `bcrypt.GenerateFromPassword` accepts. */
  const BcryptMaxPasswordBytes: nat := 72

  /** The UTF-8 encoding of one code point (section 3 of RFC 3629): one
      byte below U+0080, then a lead byte and one to three continuation
      bytes `10xxxxxx`. */
  function EncodeCodePoint(c: char): seq<Byte> {
    var v := c as int;
    if v < 0x80 then [v]
    else if v < 0x800 then [0xC0 + v / 0x40, 0x80 + v % 0x40]
    else if v < 0x10000 then [0xE0 + v / 0x1000, 0x80 + v / 0x40 % 0x40, 0x80 + v % 0x40]
    else [0xF0 + v / 0x40000, 0x80 + v / 0x1000 % 0x40, 0x80 + v / 0x40 % 0x40, 0x80 + v % 0x40]
  }

  /** Go `[]byte(s)`: the UTF-8 bytes of the string, code point by code point. */
  function Utf8Bytes(s: string): seq<Byte> {
    if |s| == 0 then [] else EncodeCodePoint(s[0]) + Utf8Bytes(s[1..])
  }

  /** The number of bytes of `[]byte(s)`, counted per code point by its value. */
  function Utf8Length(s: string): (n: nat)
    ensures n == |Utf8Bytes(s)|
    ensures |s| <= n <= 4 * |s|
  {
    if |s| == 0 then 0
    else
      var c := s[0] as int;
      (if c < 0x80 then 1 else if c < 0x800 then 2 else if c < 0x10000 then 3 else 4)
      + Utf8Length(s[1..])
  }

  /** Every code point starts with a byte that is not a continuation byte,
      followed only by continuation bytes, so the bytes split back into
      code points. */
  lemma EncodeCodePointFrames(c: char)
    ensures var b := EncodeCodePoint(c);
      && 1 <= |b| <= 4
      && !(0x80 <= b[0] < 0xC0)
      && (|b| == 1 <==> b[0] < 0x80)
      && (forall k :: 1 <= k < |b| ==> 0x80 <= b[k] < 0xC0)
  {
  }

  /** The byte count of a concatenation is the sum of the counts. */
  lemma {:induction false} Utf8LengthAppend(a: string, b: string)
    ensures Utf8Length(a + b) == Utf8Length(a) + Utf8Length(b)
  {
    if |a| > 0 {
      Utf8LengthAppend(a[1..], b);
      assert (a + b)[1..] == a[1..] + b;
    } else {
      assert a + b == b;
    }
  }

  /** A password is as many bytes long as it has characters exactly when
      it is plain ASCII. */
  lemma {:induction false} Utf8LengthAscii(s: string)
    ensures Utf8Length(s) == |s| <==> forall i :: 0 <= i < |s| ==> s[i] as int < 0x80
  {
    if |s| > 0 {
      Utf8LengthAscii(s[1..]);
      assert forall i :: 1 <= i < |s| ==> s[i] == s[1..][i - 1];
    }
  }

  /** Hashing fails exactly for passwords longer than 72 bytes. */
  predicate HashFails(password: string) {
    |Utf8Bytes(password)| > BcryptMaxPasswordBytes
  }

  /** `bcrypt.CompareHashAndPassword` succeeds. */
  predicate PasswordMatches(hash: PasswordHash, password: string) {
    hash == Bcrypt(password)
  }

  /** The `email` binding rule, approximated: one `@` with text on both
      sides and no space. */
  predicate PlausibleEmail(s: string) {
    match CharIndex(s, '@')
    case None => false
    case Some(i) => 0 < i < |s| - 1 && '@' !in s[i + 1..] && ' ' !in s
  }

  datatype SignUpRequest = SignUpRequest(name: string, email: string, password: string)

  /** `binding:"required"` on all three fields, `email` on the address. */
  predicate SignUpBinds(req: SignUpRequest) {
    req.name != "" && req.email != "" && PlausibleEmail(req.email) && req.password != ""
  }

  datatype LoginRequest = LoginRequest(email: string, password: string)

  predicate LoginBinds(req: LoginRequest) {
    req.email != "" && PlausibleEmail(req.email) && req.password != ""
  }

  /** The form of `PUT /user`; an empty field means "leave unchanged". */
  datatype UpdateUserRequest = UpdateUserRequest(name: string, email: string, password: string)

  /** The stored user after the field updates of `UpdateUser`. */
  function ApplyUpdate(u: User, req: UpdateUserRequest): User {
    u.(name := if req.name != "" then req.name else u.name,
       email := if req.email != "" then req.email else u.email,
       passwordHash := if req.password != "" then Bcrypt(req.password) else u.passwordHash)
  }

  /** An empty field keeps the stored value, a non-empty one replaces it;
      the id, username, picture and rating totals never change. */
  lemma ApplyUpdateFields(u: User, req: UpdateUserRequest)
    ensures var v := ApplyUpdate(u, req);
      && (req.name == "" ==> v.name == u.name) && (req.name != "" ==> v.name == req.name)
      && (req.email == "" ==> v.email == u.email) && (req.email != "" ==> v.email == req.email)
      && (req.password == "" ==> v.passwordHash == u.passwordHash)
      && (req.password != "" ==> v.passwordHash == Bcrypt(req.password))
      && v.(name := u.name, email := u.email, passwordHash := u.passwordHash) == u
  {
  }

  /** Submitting the same form twice has the effect of submitting it once,
      and the empty form changes nothing. */
  lemma ApplyUpdateIdempotent(u: User, req: UpdateUserRequest)
    ensures ApplyUpdate(ApplyUpdate(u, req), req) == ApplyUpdate(u, req)
    ensures ApplyUpdate(u, UpdateUserRequest("", "", "")) == u
  {
  }

  const InvalidRequest := Failure(StatusBadRequest, "Invalid request")
  const HashFailed := Failure(StatusInternalServerError, "Failed to hash password")
  const EmailExists := Failure(StatusConflict, "Email already exists")
  const LoginUserNotFound := Failure(StatusUnauthorized, "User not found")
  const InvalidPassword := Failure(StatusUnauthorized, "Invalid password")
  const Unauthorized := Failure(StatusUnauthorized, "Unauthorized")
  const MissingUser := Failure(StatusInternalServerError, "Failed to load user")
  const UserNotFound := Failure(StatusNotFound, "User not found")

  /** The document id `GetUser` loads for the route parameter. */
  function UserDocumentId(param: string): (id: string)
    ensures |id| == |"users/"| + |param| && id[..6] == "users/" && id[6..] == param
  {
    "users/" + param
  }

  /** The users collection by document id, and the attachments stored with
      each document. */
  class UserStore {
    var users: map<string, User>
    var attachments: map<string, seq<Attachment>>

    /** Documents carry their own id and no two users share an email. */
    ghost predicate Valid()
      reads this
    {
      && (forall id :: id in users ==> users[id].id == id)
      && (forall id1, id2 :: id1 in users && id2 in users && id1 != id2 ==> users[id1].email != users[id2].email)
    }

    constructor()
      ensures users == map[] && attachments == map[] && Valid()
    {
      users := map[];
      attachments := map[];
    }

    /** The query on `email`: some stored user has that address. */
    predicate EmailTaken(email: string)
      reads this
    {
      exists id :: id in users && users[id].email == email
    }

    /** Some user other than `self` has that address. */
    predicate EmailTakenByOther(email: string, self: string)
      reads this
    {
      exists id :: id in users && id != self && users[id].email == email
    }

    /** The user with that address has that password. */
    predicate CredentialsMatch(email: string, password: string)
      reads this
    {
      exists id :: id in users && users[id].email == email && PasswordMatches(users[id].passwordHash, password)
    }

    function AttachmentsOf(id: string): seq<Attachment>
      reads this
    {
      if id in attachments then attachments[id] else []
    }

    /** `POST /signup`. `newId` is the id the database assigns and `now`
        the server clock in Unix seconds. */
    method SignUp(req: SignUpRequest, newId: string, now: int) returns (r: Result<Claims>)
      requires Valid() && newId !in users
      modifies this
      ensures Valid() && attachments == old(attachments)
      ensures !SignUpBinds(req) ==> r == Err(InvalidRequest) && users == old(users)
      ensures SignUpBinds(req) && HashFails(req.password) ==> r == Err(HashFailed) && users == old(users)
      ensures SignUpBinds(req) && !HashFails(req.password) && old(EmailTaken(req.email)) ==>
        r == Err(EmailExists) && users == old(users)
      ensures SignUpBinds(req) && !HashFails(req.password) && !old(EmailTaken(req.email)) ==>
        && users == old(users)[newId := User(newId, req.name, "", req.email, Bcrypt(req.password), "", 0.0, 0)]
        && r == Ok(Claims(newId, req.email, req.name, now + TokenLifetime))
    {
      if !SignUpBinds(req) {
        return Err(InvalidRequest);
      }
      if HashFails(req.password) {
        return Err(HashFailed);
      }
      var newUser := User(newId, req.name, "", req.email, Bcrypt(req.password), "", 0.0, 0);
      if EmailTaken(req.email) {
        return Err(EmailExists);
      }
      users := users[newId := newUser];
      r := Ok(Claims(newId, newUser.email, newUser.name, now + TokenLifetime));
    }

    /** `POST /login`. */
    method LoginUser(req: LoginRequest, now: int) returns (r: Result<Claims>)
      requires Valid()
      ensures !LoginBinds(req) ==> r == Err(InvalidRequest)
      ensures LoginBinds(req) && !EmailTaken(req.email) ==> r == Err(LoginUserNotFound)
      ensures LoginBinds(req) && EmailTaken(req.email) && !CredentialsMatch(req.email, req.password) ==>
        r == Err(InvalidPassword)
      ensures r.Ok? <==> LoginBinds(req) && CredentialsMatch(req.email, req.password)
      ensures r.Ok? ==>
        && r.value.id in users
        && users[r.value.id].email == req.email
        && PasswordMatches(users[r.value.id].passwordHash, req.password)
        && r.value == Claims(r.value.id, req.email, users[r.value.id].name, now + TokenLifetime)
    {
      if !LoginBinds(req) {
        return Err(InvalidRequest);
      }
      if !EmailTaken(req.email) {
        return Err(LoginUserNotFound);
      }
      var id :| id in users && users[id].email == req.email;
      var user := users[id];
      if !PasswordMatches(user.passwordHash, req.password) {
        return Err(InvalidPassword);
      }
      r := Ok(Claims(user.id, user.email, user.name, now + TokenLifetime));
    }

    /** `PUT /user`. The field updates are saved first; a profile picture
        then replaces every attachment of the user, and a picture that is
        not an image is refused only after the old ones are deleted. The
        response carries the picture as a data URL and no password hash. */
    method UpdateUser(auth: Option<string>, req: UpdateUserRequest, pictures: seq<Upload>)
      returns (r: Result<User>)
      requires Valid()
      modifies this
      ensures Valid()
      ensures auth.None? ==> r == Err(Unauthorized) && users == old(users) && attachments == old(attachments)
      ensures auth.Some? && auth.value !in old(users) ==>
        r == Err(MissingUser) && users == old(users) && attachments == old(attachments)
      ensures auth.Some? && auth.value in old(users) && req.email != "" && old(EmailTakenByOther(req.email, auth.value)) ==>
        r == Err(EmailExists) && users == old(users) && attachments == old(attachments)
      ensures (auth.Some? && auth.value in old(users) && (req.email == "" || !old(EmailTakenByOther(req.email, auth.value)))
        && req.password != "" && HashFails(req.password)) ==>
        r == Err(HashFailed) && users == old(users) && attachments == old(attachments)
      ensures (auth.Some? && auth.value in old(users) && (req.email == "" || !old(EmailTakenByOther(req.email, auth.value)))
        && (req.password == "" || !HashFails(req.password))) ==>
        var updated := ApplyUpdate(old(users)[auth.value], req);
        && users == old(users)[auth.value := updated]
        && (|pictures| == 0 ==> attachments == old(attachments) && r == Ok(updated.(passwordHash := Cleared)))
        && (|pictures| > 0 && !IsImageFile(pictures[0].filename) ==>
              attachments == old(attachments)[auth.value := []] && r == Err(NotAnImage))
        && (|pictures| > 0 && IsImageFile(pictures[0].filename) ==>
              && attachments == old(attachments)[auth.value := [AttachmentOf(pictures[0])]]
              && r == Ok(updated.(profilePicture := DataUrl(pictures[0].sniffedType, pictures[0].bytes),
                                  passwordHash := Cleared)))
    {
      if auth.None? {
        return Err(Unauthorized);
      }
      var userId := auth.value;
      if userId !in users {
        return Err(MissingUser);
      }
      var u := users[userId];
      if req.name != "" {
        u := u.(name := req.name);
      }
      if req.email != "" {
        if EmailTakenByOther(req.email, userId) {
          return Err(EmailExists);
        }
        u := u.(email := req.email);
      }
      if req.password != "" {
        if HashFails(req.password) {
          return Err(HashFailed);
        }
        u := u.(passwordHash := Bcrypt(req.password));
      }
      assert u == ApplyUpdate(old(users)[userId], req);
      users := users[userId := u];
      if |pictures| > 0 {
        var picture := ReplacePicture(userId, pictures[0]);
        if picture.Err? {
          return Err(picture.failure);
        }
        u := u.(profilePicture := picture.value);
      }
      u := u.(passwordHash := Cleared);
      r := Ok(u);
    }

    /** The profile-picture step of `UpdateUser`: every attachment of `id`
        is deleted and saved, then the file is checked and stored. The
        result is the picture as a data URL. */
    method ReplacePicture(id: string, file: Upload) returns (r: Result<string>)
      modifies this
      ensures users == old(users)
      ensures !IsImageFile(file.filename) ==> attachments == old(attachments)[id := []] && r == Err(NotAnImage)
      ensures IsImageFile(file.filename) ==>
        attachments == old(attachments)[id := [AttachmentOf(file)]] && r == Ok(DataUrl(file.sniffedType, file.bytes))
    {
      DeleteAttachments(id);
      if !IsImageFile(file.filename) {
        return Err(NotAnImage);
      }
      attachments := attachments[id := [AttachmentOf(file)]];
      r := Ok(DataUrl(file.sniffedType, file.bytes));
    }

    /** The loop of `UpdateUser` that deletes every attachment of `id` by
        name; the deletions are collected in the session and saved together. */
    method DeleteAttachments(id: string)
      modifies this
      ensures attachments == old(attachments)[id := []] && users == old(users)
    {
      var remaining := DeleteEach(AttachmentsOf(id));
      attachments := attachments[id := remaining];
    }

    /** `GET /users/:id`: the user `users/<param>` with the first of its
        attachments as a data URL, without the password hash. */
    method GetUser(param: string) returns (r: Result<User>)
      ensures UserDocumentId(param) !in users ==> r == Err(UserNotFound)
      ensures UserDocumentId(param) in users ==>
        var u := users[UserDocumentId(param)];
        var stored := AttachmentsOf(UserDocumentId(param));
        && (|stored| == 0 ==> r == Ok(u.(passwordHash := Cleared)))
        && (|stored| > 0 ==>
              r == Ok(u.(profilePicture := DataUrl(stored[0].contentType, stored[0].bytes), passwordHash := Cleared)))
      ensures r.Ok? ==> r.value.passwordHash == Cleared
    {
      var id := UserDocumentId(param);
      if id !in users {
        return Err(UserNotFound);
      }
      var u := users[id];
      var stored := AttachmentsOf(id);
      if |stored| > 0 {
        u := u.(profilePicture := DataUrl(stored[0].contentType, stored[0].bytes));
      }
      u := u.(passwordHash := Cleared);
      r := Ok(u);
    }
  }

  /** Deleting the attachments one name at a time, as `UpdateUser` loops
      over the names it listed, leaves none. */
  method DeleteEach(stored: seq<Attachment>) returns (remaining: seq<Attachment>)
    ensures remaining == []
  {
    remaining := stored;
    var names := Names(stored);
    assert names[..0] == [];
    WithoutNothing(stored);
    for i := 0 to |names|
      invariant remaining == Without(stored, names[..i])
    {
      DeleteStep(stored, names, i);
      remaining := RemoveNamed(remaining, names[i]);
    }
    DeletedAll(stored, names);
  }

  lemma DeleteStep(stored: seq<Attachment>, names: seq<string>, i: int)
    requires 0 <= i < |names|
    ensures RemoveNamed(Without(stored, names[..i]), names[i]) == Without(stored, names[..i + 1])
  {
    RemoveNamedWithout(stored, names[..i], names[i]);
    assert names[..i + 1] == names[..i] + [names[i]];
  }

  lemma DeletedAll(stored: seq<Attachment>, names: seq<string>)
    requires names == Names(stored)
    ensures Without(stored, names[..|names|]) == []
  {
    assert names[..|names|] == names;
    WithoutAllNames(stored, names);
  }

  /** A user who has just signed up can log in with the same email and
      password, and gets a token for the new document. */
  method LogInAfterSignUp(store: UserStore, req: SignUpRequest, newId: string, now: int)
    returns (signedUp: Result<Claims>, loggedIn: Result<Claims>)
    requires store.Valid() && newId !in store.users
    modifies store
    ensures signedUp.Ok? ==> loggedIn == signedUp
  {
    signedUp := store.SignUp(req, newId, now);
    loggedIn := store.LoginUser(LoginRequest(req.email, req.password), now);
    if signedUp.Ok? {
      assert store.users[newId].email == req.email && PasswordMatches(store.users[newId].passwordHash, req.password);
      assert store.CredentialsMatch(req.email, req.password);
    }
  }
}
